=== FILE: README.md ===
# crimes-stance-web: the data transforms of the dashboard, in Dafny

crimes-stance-web is an Angular dashboard. It shows two things:

- the stance of social-media comments about crime (in favour, neutral, against), as a classifier labelled them;
- the YouTube videos collected for police operations ("events").

Below the charts and the fetch glue sit a number of pure, sequential transforms. This project models those transforms and proves what they promise:

- resolving data-file URLs against the page's `<base href>`;
- selecting entries from a dataset index (`datasets.json`) and merging the `__ALL__` entry;
- normalising video records (date and operation-id fallbacks, dropping undated records);
- bucketing videos per year, month and day, and the events timeline's "one event = first video of an operation" series with its date range;
- the weekly stacked chart of comment stances, its drill-down error bars and its significance flags from bootstrap confidence intervals;
- counting stance labels, grouping bootstrap rows per metric, the accuracy scores, and the comment sample of the stance page;
- the sidebar's menu state.

Conventions of the model:

- **Values.** A value read from a JSON file is a `Js.Json`. Numbers are exact decimals (`Decimal(digits, scale)`). A property read that finds nothing (`undefined`) is `None`. JavaScript's truthiness, `??`, `||`, `String(x)` and `Number(x)` are written out in module `Js`.
- **Failures.** A `TypeError` the code would throw, such as reading a field of `null`, is an `Err(TypeError)` result. So are the `Error`s the services throw (`NotFound`, `IncompleteConfig`, `NothingToCompile`, `FetchFailed`).
- **Effects as parameters.** The fetches are a parameter `fetch: string -> Option<Json>`, where `None` is a failed request. JavaScript's `Date` parser is a parameter `parse`, where `None` is an Invalid Date. The `href` of the `<base>` tag is an `Option<string>` parameter.
- **Time.** A time value is an integer count of milliseconds since 1970-01-01T00:00Z, as in JavaScript. Calendar fields (year, month, day, weekday) are those of the UTC date on the proleptic Gregorian calendar, computed from the day count with Hinnant's days-to-civil algorithm (see `Calendar.IsoWeekStart` under "## Left out" for the one place where `Date.UTC` departs from it). Weeks start on Monday, as in section 4.1.4 of ISO 8601:2004. Day keys are `YYYY-MM-DD` dates in the extended format of section 4.1.2.2.
- **Arithmetic.** Proportions and means are exact `real`s. NaN is kept where it can arise (`Js.Num`). `Math.round(x)` is `floor(x + 0.5)`.

Modules, from the bottom up:

- `Base`: `Option`, `Result` and a few generic sequence facts.
- `Strings`: `indexOf`, `replace`, `split`, `trim`, `toLowerCase`, `padStart` and the order `sort()` uses.
- `Js`: JSON values and JavaScript's value rules.
- `Series`: sorted bucket series.
- `Calendar`: day numbers, weekdays and the date keys.
- `Paths` and `AssetUrl`: URL resolution from the `<base href>`.
- `DatasetIndex`: the parsed `datasets.json` index.
- Services: `Sentiment`, `SentimentReal`, `Events`, `EventsReal`.
- Pages and components: `BootstrapRows`, `EvaluationPage`, `PositioningPage`, `DatasetLists`, `Sidebar`, `TimelineChart`, `WeeklyChart`.

## Model

| member | source | states |
|---|---|---|
| AssetUrl.AssetUrl | crimes-stance-web/src/app/services/asset-url.util.ts:1-8 | the URL ends with the path carrying exactly one leading slash; what precedes it is the base href (`/` when the page has none), with its one trailing slash removed if it has one |
| AssetUrl.StripSlash | crimes-stance-web/src/app/services/asset-url.util.ts:5 | putting a slash back after the result gives the base when it ended in a slash; any other base is unchanged |
| AssetUrl.Slashed | crimes-stance-web/src/app/services/asset-url.util.ts:6 | the result starts with a slash; a path that already has one is unchanged, any other gains exactly one |
| AssetUrl.LeadingSlashOptional | crimes-stance-web/src/app/services/asset-url.util.ts:6-7 | `assetUrl('x')` and `assetUrl('/x')` are the same URL |
| AssetUrl.DefaultBase | crimes-stance-web/src/app/services/asset-url.util.ts:3-7 | with no base tag, or with base `/`, the URL is the slash-prefixed path alone |
| AssetUrl.BaseKeptVerbatim | crimes-stance-web/src/app/services/asset-url.util.ts:5-7 | a base without a trailing slash is kept character for character in front of the slash-prefixed path |
| AssetUrl.SingleSlashJoin | crimes-stance-web/src/app/services/asset-url.util.ts:5-7 | a base ending in a slash is joined to the path by exactly that one slash |
| Paths.BaseHref | crimes-stance-web/src/app/services/posicionamento-real.service.ts:16-17 | the base href is never empty: the tag's non-empty `href`, otherwise `/` |
| Paths.Root | crimes-stance-web/src/app/services/posicionamento-real.service.ts:18 | the root ends in a slash and extends the base href by at most that one slash; a base href ending in a slash is its own root |
| DatasetIndex.Lookup | crimes-stance-web/src/app/services/events-real.service.ts:62 | a found configuration is an entry of the index under that id; nothing is found exactly when no entry has the id |
| DatasetIndex.Configs | crimes-stance-web/src/app/services/events-real.service.ts:69 | one configuration per index entry, in index order |
| DatasetIndex.OrEmpty | crimes-stance-web/src/app/services/events-real.service.ts:37 | a `null` index reads as the empty index; any other is kept |
| DatasetLists.EventEntries | crimes-stance-web/src/app/pages/real/eventos/eventos-list.component.ts:39-41 | every listed entry is the id, label and description of an index entry that passes the filter (truthy configuration, and file `__ALL__` or id `brasil_all`), and every such entry is listed |
| DatasetLists.EventEntriesAppend | crimes-stance-web/src/app/pages/real/eventos/eventos-list.component.ts:39-41 | listing keeps index order: the list of two concatenated indexes is the concatenation of their lists |
| DatasetLists.EventEntriesSingle | crimes-stance-web/src/app/pages/real/eventos/eventos-list.component.ts:40-41 | a single entry is listed exactly when the filter accepts it |
| DatasetLists.AllEventsListed | crimes-stance-web/src/app/pages/real/eventos/eventos-list.component.ts:40 | the `brasil_all` entry is listed whatever its file, as long as its configuration is truthy |
| DatasetLists.ApplyEvents | crimes-stance-web/src/app/pages/real/eventos/eventos-list.component.ts:38-45 | a `null` index lists nothing; the page ends not loading, not timed out and without an error message |
| DatasetLists.TitleOf | crimes-stance-web/src/app/pages/real/posicionamento/posicionamento-list.component.ts:39 | the title is the configuration's truthy `title`, otherwise the id; a `null` configuration throws |
| DatasetLists.TitledEntries | crimes-stance-web/src/app/pages/real/posicionamento/posicionamento-list.component.ts:39 | one entry per index entry, in order, with the id copied and the title as above; it throws exactly when some configuration is `null` |
| DatasetLists.TitlesShowSomething | crimes-stance-web/src/app/pages/real/posicionamento/posicionamento-list.component.ts:39 | with non-empty ids, every shown title is truthy |
| DatasetLists.ApplyStance | crimes-stance-web/src/app/pages/real/posicionamento/posicionamento-list.component.ts:38-41 | a `null` map lists nothing; otherwise one entry per index entry in order; the page ends settled; it fails exactly when some configuration is `null` |
| Sidebar.Toggle | crimes-stance-web/src/app/components/sidebar/sidebar.component.ts:147-148 | the toggled id changes membership and every other id keeps it |
| Sidebar.ToggleIsSymmetricDifference | crimes-stance-web/src/app/components/sidebar/sidebar.component.ts:147-148 | toggling is the symmetric difference with `{id}` |
| Sidebar.ToggleTwice | crimes-stance-web/src/app/components/sidebar/sidebar.component.ts:146-150 | toggling the same id twice gives back the original set |
| Sidebar.TogglesCommute | crimes-stance-web/src/app/components/sidebar/sidebar.component.ts:146-150 | toggles of two ids may be done in either order |
| Sidebar.ToggleSubmenu | crimes-stance-web/src/app/components/sidebar/sidebar.component.ts:146-154 | `isSubmenuExpanded(id)` flips, every other submenu keeps its state, and the quick summaries and the collapsed flag do not change |
| Sidebar.ToggleQuickSummary | crimes-stance-web/src/app/components/sidebar/sidebar.component.ts:170-177 | `isQuickSummaryOpen(id)` flips, every other summary keeps its state, and the expanded submenus and the collapsed flag do not change |
| Sidebar.SubmenuToggleTwice | crimes-stance-web/src/app/components/sidebar/sidebar.component.ts:146-154 | toggling a submenu twice restores the whole sidebar state |
| Sidebar.QuickSummaryToggleTwice | crimes-stance-web/src/app/components/sidebar/sidebar.component.ts:171-177 | toggling a quick summary twice restores the whole sidebar state |
| Sidebar.TogglesIndependent | crimes-stance-web/src/app/components/sidebar/sidebar.component.ts:146-177 | a submenu toggle and a quick-summary toggle commute |
| Sidebar.OnToggleCollapse | crimes-stance-web/src/app/components/sidebar/sidebar.component.ts:156-159 | the emitted value is the negation of the collapsed flag, and the sidebar's own state is unchanged |
| Sidebar.CollapseRoundTrip | crimes-stance-web/src/app/components/sidebar/sidebar.component.ts:156-159 | a parent that stores what is emitted, twice over, ends at the flag it began with |
| Sidebar.SavedMenus | crimes-stance-web/src/app/components/sidebar/sidebar.component.ts:142 | `new Set(parsed)` holds the strings of an array, the characters of a string, nothing for `null`, and throws for any other value |
| Sidebar.Restore | crimes-stance-web/src/app/components/sidebar/sidebar.component.ts:137-144 | the sidebar is collapsed exactly when the saved text is `true`; the saved menus are restored when they parse to an iterable; otherwise no submenu is expanded; no quick summary is open |
| Sidebar.OnlyTrueCollapses | crimes-stance-web/src/app/components/sidebar/sidebar.component.ts:139-140 | any saved text other than exactly `true`, or none at all, restores an expanded sidebar |
| Sentiment.StripData | crimes-stance-web/src/app/services/sentiment.service.ts:45-46 | a string path loses its first `data/`, wherever it occurs; a path without one is unchanged; a path that is not a string throws |
| Sentiment.StripDataOnce | crimes-stance-web/src/app/services/sentiment.service.ts:45-46 | a leading `data/` is removed, and a second one is kept |
| Sentiment.LoadDataset | crimes-stance-web/src/app/services/sentiment.service.ts:28-59 | a missing index or id fails with not-found; a missing or empty bootstrap or comments file name fails with incomplete-configuration; a file name that is not a string throws; otherwise the rows are the array contents of the two files with their first `data/` stripped, and a failed request or a non-array gives none |
| Sentiment.MissingLabelIsNeutral | crimes-stance-web/src/app/services/sentiment.service.ts:79 | a comment whose `new_BERT` is missing or `null` is counted as `0` |
| Sentiment.BertLabels | crimes-stance-web/src/app/services/sentiment.service.ts:78-79 | one label per comment, in order; it throws exactly when some comment is `null` |
| Sentiment.LabelCounts | crimes-stance-web/src/app/services/sentiment.service.ts:76-84 | the keys are the three stance keys and every label that occurs |
| Sentiment.CountLoopCounts | crimes-stance-web/src/app/services/sentiment.service.ts:77-83 | the counting loop produces, for every key, the number of comments with that label |
| Sentiment.GetSentimentCounts | crimes-stance-web/src/app/services/sentiment.service.ts:76-84 | `-1`, `0` and `1` are always keys; the map is the reference count map of the comments' labels, in which every other label gets its own key; it throws exactly when a comment is `null` |
| Sentiment.SentimentCountsConserve | crimes-stance-web/src/app/services/sentiment.service.ts:76-84 | the counts, each key taken once, add up to the number of comments |
| SentimentReal.Resolve | crimes-stance-web/src/app/services/posicionamento-real.service.ts:67-92 | the rules are tried in order: an absolute http or https URL is returned unchanged; `assets/…` goes under the root; a leading `data/` is stripped once and the rest goes under `assets/data/sentiment/cenario-real/`; `sentiment/…` goes under `assets/data/`; anything else goes under the `cenario-real` base; every relative input resolves under the root |
| SentimentReal.SchemeIgnoresCase | crimes-stance-web/src/app/services/posicionamento-real.service.ts:77 | the absolute-URL test gives the same answer for an input and its lower-case form |
| SentimentReal.SpellingsAgree | crimes-stance-web/src/app/services/posicionamento-real.service.ts:80-91 | a file of the `cenario-real` directory resolves to the same URL whether named plainly, with `data/`, with `sentiment/cenario-real/` or with `assets/data/sentiment/cenario-real/` |
| SentimentReal.GetDatasets | crimes-stance-web/src/app/services/posicionamento-real.service.ts:29-33 | a failed request fails; a `null` index becomes `{}`; any other content is returned as is |
| SentimentReal.LoadDataset | crimes-stance-web/src/app/services/posicionamento-real.service.ts:40-65 | a failed index request fails; an id without a truthy configuration fails with not-found, and an id whose configuration is truthy always loads; the comments and bootstrap rows are the array contents of the resolved files, and a failed request or a non-array gives none; `meta` carries the id, the configured title and the number of comments returned |
| EventsReal.EventsRoot | crimes-stance-web/src/app/services/events-real.service.ts:112 | the events root is the `cenario-real` base with its trailing `/cenario-real` removed, that is `root + assets/data/events` |
| EventsReal.ResolveAssetUrl | crimes-stance-web/src/app/services/events-real.service.ts:106-117 | a file under `events/` loses that prefix and is placed under the events root; any other file is placed under the `cenario-real` base (the intended behaviour, see Findings) |
| EventsReal.BothSpellingsAgree | crimes-stance-web/src/app/services/events-real.service.ts:108-116 | `events/cenario-real/x` and `x` resolve to the same URL |
| EventsReal.AsWrittenAgreesOnCleanRoots | crimes-stance-web/src/app/services/events-real.service.ts:112-113 | when the first `/cenario-real` of the base is its trailing one, the code as written resolves every file as intended |
| EventsReal.AsWrittenMisplaces | crimes-stance-web/src/app/services/events-real.service.ts:112 | when the base href itself starts with `/cenario-real`, the code as written drops that part of the base href and keeps the directory; the intended URL keeps the base href; for base href `/cenario-real/` the two differ |
| EventsReal.NormalizeItems | crimes-stance-web/src/app/services/events-real.service.ts:121-137 | a `null` element throws; otherwise one video per object element whose date field is truthy and parses, with that date and its operation id, taken from an element of the array; the element-by-element content and order are fixed by NormalizeItemsSingle and NormalizeItemsAppend |
| EventsReal.NormalizeItemsSingle | crimes-stance-web/src/app/services/events-real.service.ts:119-137 | a `null` element throws; an object with a truthy date that parses becomes one video with that date; any other element is dropped |
| EventsReal.NormalizeItemsAppend | crimes-stance-web/src/app/services/events-real.service.ts:121-137 | normalising a concatenation normalises its parts one after the other, in order |
| EventsReal.NormalizeVideos | crimes-stance-web/src/app/services/events-real.service.ts:119-138 | a non-array gives no videos; otherwise as above, and never more videos than elements |
| EventsReal.NumDatedBound | crimes-stance-web/src/app/services/events-real.service.ts:137 | the filter never keeps more records than it is given |
| EventsReal.YearKeys | crimes-stance-web/src/app/services/events-real.service.ts:149 | one key per video: the text of its UTC year |
| EventsReal.OpKeys | crimes-stance-web/src/app/services/events-real.service.ts:155 | one key per video: its trimmed operation id |
| EventsReal.NonEmptyKeys | crimes-stance-web/src/app/services/events-real.service.ts:155-156 | the empty key is never collected, and there are no more keys than videos |
| EventsReal.NonEmptyKeysMembers | crimes-stance-web/src/app/services/events-real.service.ts:155-156 | a key is collected exactly when it is non-empty and occurs |
| EventsReal.OpSet | crimes-stance-web/src/app/services/events-real.service.ts:155-156 | the non-empty trimmed operation ids, never more than there are videos |
| EventsReal.Aggregated | crimes-stance-web/src/app/services/events-real.service.ts:140-178 | the year and day labels are strictly sorted and are exactly the years and days of the videos, each with the number of videos of that year or day; the period is `first – last` of the dates and is `—` exactly when there are no videos; the operation count is the number of distinct ids |
| EventsReal.AggregateConserves | crimes-stance-web/src/app/services/events-real.service.ts:149-166 | the year series and the day series each add up to the number of videos |
| EventsReal.AllFiles | crimes-stance-web/src/app/services/events-real.service.ts:69-71 | every truthy file field other than `__ALL__` is taken, and none of the taken names is empty or `__ALL__`; it throws exactly when an entry is `null` or a taken file field is not a string; which names, in which order and how often, is fixed by AllFilesSingle and AllFilesAppend |
| EventsReal.AllFilesSingle | crimes-stance-web/src/app/services/events-real.service.ts:69-71 | a `null` entry throws; a truthy string file other than `__ALL__` is taken; a truthy non-string file throws; any other entry is skipped |
| EventsReal.AllFilesAppend | crimes-stance-web/src/app/services/events-real.service.ts:69-71 | the files of concatenated entries are the files of the parts, in index order |
| EventsReal.Merge | crimes-stance-web/src/app/services/events-real.service.ts:73-80 | the merged rows are empty exactly when no file yields a non-empty array; their content and order are fixed by MergeSingle and MergeAppend |
| EventsReal.MergeSingle | crimes-stance-web/src/app/services/events-real.service.ts:73-79 | one file contributes its array elements, or nothing when its request failed or it is not an array |
| EventsReal.MergeAppend | crimes-stance-web/src/app/services/events-real.service.ts:78-79 | the merge of concatenated file lists is the merge of the first followed by the merge of the second |
| EventsReal.Finish | crimes-stance-web/src/app/services/events-real.service.ts:87-103 | it fails, with a type error, exactly when normalising the rows fails; the videos are the normalised rows; the year and day series are those of the aggregate of the videos; the meta carries the id, the entry's label and description, the number of videos, the number of distinct operations, and the period of the videos' dates, which is `—` exactly when there are none |
| EventsReal.GetDatasets | crimes-stance-web/src/app/services/events-real.service.ts:34-38 | a failed request fails; a `null` index reads as the empty index; any other is kept |
| EventsReal.LoadDataset | crimes-stance-web/src/app/services/events-real.service.ts:46-104 | a failed index request fails; an id without a truthy configuration fails with not-found; for an `__ALL__` entry, it throws when an index entry cannot be read, fails with nothing-to-compile when the merge is empty, and otherwise finishes the merged rows; for any other entry, a file name that is not a string throws, a failed request fails the load, and otherwise the fetched content is finished |
| Events.DateStr | crimes-stance-web/src/app/services/events.service.ts:41 | the date is the first of `data_postagem`, `date`, `day` that is not nullish, otherwise `null` |
| Events.ListItems | crimes-stance-web/src/app/services/events.service.ts:40-56 | the listed videos are records with a truthy date that parses, each stamped with its parsed date, as many as there are such elements; it throws exactly when an element is `null`; which records, in which order, is fixed by ListItemsSingle and ListItemsAppend |
| Events.ListItemsAppend | crimes-stance-web/src/app/services/events.service.ts:35-56 | listing the concatenation of the two files lists the pre-2024 videos, then the 2024 ones |
| Events.ListItemsSingle | crimes-stance-web/src/app/services/events.service.ts:40-56 | a `null` element throws; a record with a truthy date that parses is kept, stamped with that date; any other element is dropped |
| Events.DateStrStable | crimes-stance-web/src/app/services/events.service.ts:41-53 | the date read back from a normalised record is the date it was normalised with |
| Events.RelistingKeepsTime | crimes-stance-web/src/app/services/events.service.ts:40-56 | normalising a normalised record again finds the same parsed date |
| Events.PeriodKeys | crimes-stance-web/src/app/services/events.service.ts:76-81 | one key per video: `YYYY-MM` of its date per month, the year per year |
| Events.AggregateByPeriod | crimes-stance-web/src/app/services/events.service.ts:70-89 | one entry per distinct period key, strictly ascending; each count is the number of videos in that period and is positive; the counts add up to the number of videos |
| Events.ListAll | crimes-stance-web/src/app/services/events.service.ts:28-68 | the pre-2024 file comes before the 2024 file and non-array files are ignored; metrics is the metrics array or empty; the month and year series are the period aggregates of the listed videos and each adds up to their number; it throws exactly when an element of either video file is `null` |
| Events.Elements | crimes-stance-web/src/app/services/events.service.ts:123-125 | the distinct values of the list, at most as many as the list, and at least one when the list is non-empty |
| Events.Years | crimes-stance-web/src/app/services/events.service.ts:127-129 | one year per video: the year of its date |
| Events.YearSpan | crimes-stance-web/src/app/services/events.service.ts:130 | `—` exactly when there are no years, otherwise `min–max` |
| Events.PerfOf | crimes-stance-web/src/app/services/events.service.ts:135-143 | a `null` entry throws; otherwise the label is the first alias among `tecnica`, `label`, `nome`, `tech` that is not nullish, and `Técnica` when all are; accuracy is the first of `accuracy`, `acuracia`, `acu`, precision the first of `precision`, `pre`, recall the first of `recall`, `rev`, `revocacao`, and f1 is `f1`, each 0 when all its aliases are nullish |
| Events.Performance | crimes-stance-web/src/app/services/events.service.ts:134-144 | one row per metrics entry, in order; it throws exactly when an entry is `null` |
| Events.AveragePerOperation | crimes-stance-web/src/app/services/events.service.ts:131 | 0 without operations; otherwise the quotient of videos by operations, which is at least 1 when every operation has a video |
| Events.EvaluationsOverview | crimes-stance-web/src/app/services/events.service.ts:119-156 | it throws exactly when a metrics entry is `null`; the total is the number of videos; the number of operations is the number of distinct `operation_id \|\| operation \|\| op` values, none exactly when there are no videos; the average is videos per operation; the period label is the year span of the videos' years, `—` exactly when there are none; the performance rows are those of the metrics entries; the period series is the year series |
| Events.MatchingVideos | crimes-stance-web/src/app/services/events.service.ts:173-176 | a video is kept exactly when its normalised operation id is non-empty and equals the query; an empty query keeps nothing; order and repetitions are fixed by MatchingVideosSingle and MatchingVideosAppend |
| Events.MatchingVideosSingle | crimes-stance-web/src/app/services/events.service.ts:173-176 | a single video is kept exactly when it matches |
| Events.MatchingVideosAppend | crimes-stance-web/src/app/services/events.service.ts:173-176 | the matches of a concatenation are the matches of the parts, in order |
| Events.OperationVideos | crimes-stance-web/src/app/services/events.service.ts:170-177 | the videos of the trimmed, lower-cased query: those whose trimmed, lower-cased operation id is non-empty and equals it, in order (the matching filter with the normalised query); a blank query matches nothing |
| Events.QueryNormalised | crimes-stance-web/src/app/services/events.service.ts:172 | the query is case-insensitive, and leading blanks do not change the result |
| Calendar.DayKeys | crimes-stance-web/src/app/services/events.service.ts:196 | one key per time value, in order: its UTC date as `YYYY-MM-DD`; both events services count videos under these keys (`toISOString().slice(0, 10)` here and in crimes-stance-web/src/app/services/events-real.service.ts:150) |
| Events.OperationOverview | crimes-stance-web/src/app/services/events.service.ts:180-210 | `totalVideos` is the number of matched videos; the day labels are strictly sorted and are exactly the days of those videos, each with its positive number of videos; the day counts add up to the total; the period is the span of their dates, `—` exactly when nothing matched |
| BootstrapRows.Classify | crimes-stance-web/src/app/pages/real/posicionamento/posicionamento-real.component.ts:167-175 | a row without a truthy key is skipped; a truthy key that is not a string throws at `split`; otherwise the row is filed under the first piece of `key.split('class')` with the second piece (the whole text up to the next `class` or the end) as its class, and its `mean`, `lower_95_ci` and `upper_95_ci` copied unchanged |
| BootstrapRows.GroupIndex | crimes-stance-web/src/app/pages/real/posicionamento/posicionamento-real.component.ts:169 | the position of the group of a metric, or none exactly when no group has it |
| BootstrapRows.Expected | crimes-stance-web/src/app/pages/real/posicionamento/posicionamento-real.component.ts:163-178 | the reference grouping: one group per metric in order of first appearance, each with the items of that metric's rows in row order |
| BootstrapRows.MetricsDistinct | crimes-stance-web/src/app/pages/real/posicionamento/posicionamento-real.component.ts:169 | no metric gets two groups |
| BootstrapRows.MetricsMembers | crimes-stance-web/src/app/pages/real/posicionamento/posicionamento-real.component.ts:165-177 | a metric has a group exactly when some row is filed under it |
| BootstrapRows.ItemsForMembers | crimes-stance-web/src/app/pages/real/posicionamento/posicionamento-real.component.ts:166-176 | an item is in a metric's group exactly when some row is filed under that metric with that item |
| BootstrapRows.GroupLoopSpec | crimes-stance-web/src/app/pages/real/posicionamento/posicionamento-real.component.ts:163-178 | the grouping loop throws exactly when some keyed row has a key that is not a string; otherwise it builds the reference grouping |
| BootstrapRows.KeyedRowGrouped | crimes-stance-web/src/app/pages/real/posicionamento/posicionamento-real.component.ts:166-176 | every keyed row's item is found in the group of its metric |
| BootstrapRows.GroupBootstrapResults | crimes-stance-web/src/app/pages/real/posicionamento/posicionamento-real.component.ts:163-178 | no rows give no groups; otherwise the reference grouping; it throws exactly when a row is `null` or a key is not a string |
| BootstrapRows.GroupBootstrap | crimes-stance-web/src/app/pages/avaliacoes/posicionamento/avaliacoes-posicionamento.component.ts:115-131 | a non-array or empty input gives no groups; `null` rows are skipped; otherwise the reference grouping; it throws exactly when a key is not a string |
| BootstrapRows.PagesGroupAlike | crimes-stance-web/src/app/pages/avaliacoes/posicionamento/avaliacoes-posicionamento.component.ts:115-131 | on rows without `null`, the evaluation page and the real-scenario page group alike |
| BootstrapRows.Selected | crimes-stance-web/src/app/pages/real/posicionamento/posicionamento-real.component.ts:182 | a row is kept exactly when its key is a string that starts with the prefix; it throws exactly when a row is `null` or has a key that is neither nullish nor a string (`0` and `false` included); the kept rows, their order and repetitions are fixed by SelectedSingle and SelectedAppend |
| BootstrapRows.SelectedSingle | crimes-stance-web/src/app/pages/real/posicionamento/posicionamento-real.component.ts:182 | an unreadable row throws; any other is kept exactly when its key starts with the prefix |
| BootstrapRows.SelectedAppend | crimes-stance-web/src/app/pages/real/posicionamento/posicionamento-real.component.ts:182 | selecting from a concatenation selects from the parts one after the other |
| BootstrapRows.MeanOf | crimes-stance-web/src/app/pages/real/posicionamento/posicionamento-real.component.ts:184 | a falsy mean counts as 0, and a numeric mean counts as its value |
| BootstrapRows.SumMeansBounded | crimes-stance-web/src/app/pages/real/posicionamento/posicionamento-real.component.ts:184 | means that are proportions add up to a number between 0 and the number of rows |
| BootstrapRows.Percent | crimes-stance-web/src/app/pages/real/posicionamento/posicionamento-real.component.ts:181-185 | no selected rows give 0; otherwise the mean of the means times 100, rounded, and NaN when a mean is |
| BootstrapRows.PercentOfProportions | crimes-stance-web/src/app/pages/real/posicionamento/posicionamento-real.component.ts:181-185 | proportions average to a score between 0 and 100 |
| BootstrapRows.Average | crimes-stance-web/src/app/pages/real/posicionamento/posicionamento-real.component.ts:181-185 | the score of the rows with the prefix; 0 when no row has it; it throws exactly when a row cannot be read |
| BootstrapRows.ModelAccuracy | crimes-stance-web/src/app/pages/real/posicionamento/posicionamento-real.component.ts:180-191 | precision, recall and F1 are the scores of the `precision_class_`, `recall_class_` and `f1_class_` rows; no rows give three zeros; it throws exactly when a row cannot be read |
| BootstrapRows.AccuracyIsPercentage | crimes-stance-web/src/app/pages/real/posicionamento/posicionamento-real.component.ts:180-191 | when every mean is a proportion, all three scores are between 0 and 100 |
| EvaluationPage.LabelAt | crimes-stance-web/src/app/pages/avaliacoes/posicionamento/avaliacoes-posicionamento.component.ts:81-83 | an object answers with its field; a nullish `labels` answers nothing |
| EvaluationPage.ApplyData | crimes-stance-web/src/app/pages/avaliacoes/posicionamento/avaliacoes-posicionamento.component.ts:75-103 | falsy statistics change nothing; a bootstrap row that cannot be read throws; otherwise the total, the period and each of the three label counts (`labels?.['-1']`, `['0']`, `['1']`) are the field read, or 0 (the period `—`) when it is nullish; the rows are the `bootstrap` array or none; the accuracy is drawn from them; the label card shows exactly when the counts add up to more than 0, and the bootstrap card exactly when there are rows |
| EvaluationPage.LabelCardShown | crimes-stance-web/src/app/pages/avaliacoes/posicionamento/avaliacoes-posicionamento.component.ts:91-92 | numeric label counts show the label card exactly when their sum is positive |
| EvaluationPage.NoLabelsNoCard | crimes-stance-web/src/app/pages/avaliacoes/posicionamento/avaliacoes-posicionamento.component.ts:80-92 | statistics without labels hide the label card |
| EvaluationPage.GroupedBootstrap | crimes-stance-web/src/app/pages/avaliacoes/posicionamento/avaliacoes-posicionamento.component.ts:134-136 | the groups of the page's rows: the reference grouping, none for no rows; it throws exactly when a key is not a string |
| EvaluationPage.AppliedRowsGroup | crimes-stance-web/src/app/pages/avaliacoes/posicionamento/avaliacoes-posicionamento.component.ts:88-136 | once statistics have been applied, grouping their rows cannot throw |
| EvaluationPage.InitialShowsNothing | crimes-stance-web/src/app/pages/avaliacoes/posicionamento/avaliacoes-posicionamento.component.ts:35-40 | before any statistics, neither card shows and there are no groups |
| PositioningPage.Labels | crimes-stance-web/src/app/pages/real/posicionamento/posicionamento-real.component.ts:196 | one label per comment: the service's label of that comment |
| PositioningPage.CountLabelsBound | crimes-stance-web/src/app/pages/real/posicionamento/posicionamento-real.component.ts:193-201 | no label is counted twice: the three counts add up to at most the number of labels |
| PositioningPage.CountLabelsComplete | crimes-stance-web/src/app/pages/real/posicionamento/posicionamento-real.component.ts:193-201 | the counts add up to the number of labels exactly when every label is `-1`, `0` or `1` |
| PositioningPage.ComputeSentimentCounts | crimes-stance-web/src/app/pages/real/posicionamento/posicionamento-real.component.ts:193-201 | the three counts add up to at most the number of comments, and to exactly that number when every comment has a stance label |
| PositioningPage.NegativeCount | crimes-stance-web/src/app/pages/real/posicionamento/posicionamento-real.component.ts:194-199 | the `-1` count is the number of `-1` labels |
| PositioningPage.NeutralCount | crimes-stance-web/src/app/pages/real/posicionamento/posicionamento-real.component.ts:194-199 | the `0` count is the number of `0` labels, a missing label included |
| PositioningPage.PositiveCount | crimes-stance-web/src/app/pages/real/posicionamento/posicionamento-real.component.ts:194-199 | the `1` count is the number of `1` labels |
| PositioningPage.CountsAgreeWithService | crimes-stance-web/src/app/pages/real/posicionamento/posicionamento-real.component.ts:193-201 | the page's three counts equal the service's counts under the same keys |
| PositioningPage.Share | crimes-stance-web/src/app/pages/real/posicionamento/posicionamento-real.component.ts:102-104 | the share is within half a point of the exact percentage |
| PositioningPage.ShareInRange | crimes-stance-web/src/app/pages/real/posicionamento/posicionamento-real.component.ts:102-104 | a share of at most the whole is between 0 and 100 |
| PositioningPage.PercentagesNearHundred | crimes-stance-web/src/app/pages/real/posicionamento/posicionamento-real.component.ts:101-105 | when every comment has a stance, the three rounded percentages add up to between 99 and 101 |
| PositioningPage.Utf16Length | crimes-stance-web/src/app/pages/real/posicionamento/posicionamento-real.component.ts:116 | a string's length in UTF-16 code units lies between its length in characters and twice that |
| PositioningPage.LongComments | crimes-stance-web/src/app/pages/real/posicionamento/posicionamento-real.component.ts:116 | exactly the comments whose `comentario` is truthy and has a `length` above 50 (a string in UTF-16 code units, an array in elements, an object through its `length` field as `>` converts it); it throws exactly when a comment is `null`; order and repetitions are fixed by LongCommentsSingle and LongCommentsAppend |
| PositioningPage.LongObjectComment | crimes-stance-web/src/app/pages/real/posicionamento/posicionamento-real.component.ts:116-119 | a comment whose `comentario` is an object with a numeric `length` is long, and with stance `1` eligible for the sample, exactly when that `length` is above 50 |
| PositioningPage.LongCommentsSingle | crimes-stance-web/src/app/pages/real/posicionamento/posicionamento-real.component.ts:116 | a `null` comment throws; any other is kept exactly when it is long |
| PositioningPage.LongCommentsAppend | crimes-stance-web/src/app/pages/real/posicionamento/posicionamento-real.component.ts:116 | the long comments of a concatenation are those of the parts, one after the other |
| PositioningPage.WithStance | crimes-stance-web/src/app/pages/real/posicionamento/posicionamento-real.component.ts:117-119 | exactly the comments whose `new_BERT` is the number `k`; order and repetitions are fixed by WithStanceSingle and WithStanceAppend |
| PositioningPage.WithStanceSingle | crimes-stance-web/src/app/pages/real/posicionamento/posicionamento-real.component.ts:117-119 | a single comment is kept exactly when it has the stance |
| PositioningPage.WithStanceAppend | crimes-stance-web/src/app/pages/real/posicionamento/posicionamento-real.component.ts:117-119 | the comments of a stance in a concatenation are those of the parts, in order |
| PositioningPage.WithStanceKeepsAll | crimes-stance-web/src/app/pages/real/posicionamento/posicionamento-real.component.ts:117-119 | comments that all have the stance are kept whole |
| PositioningPage.WithStanceDropsAll | crimes-stance-web/src/app/pages/real/posicionamento/posicionamento-real.component.ts:117-119 | comments none of which has the stance are all dropped |
| PositioningPage.FirstTwo | crimes-stance-web/src/app/pages/real/posicionamento/posicionamento-real.component.ts:117-119 | at most two elements, drawn from the list; the whole list when it is that short, otherwise exactly two |
| PositioningPage.Sample | crimes-stance-web/src/app/pages/real/posicionamento/posicionamento-real.component.ts:116-120 | at most six long comments with a stance, in favour first, then neutral, then against, never three of a stance; a long comment with a stance is left out only when two of its stance are already in; it throws exactly when a comment is `null`; which two of each stance are taken is stated by SampleTakesFirstTwo |
| PositioningPage.SampleTakesFirstTwo | crimes-stance-web/src/app/pages/real/posicionamento/posicionamento-real.component.ts:116-120 | the sample's comments of each stance are the first two long comments of that stance, in comment order |
| PositioningPage.SampleShape | crimes-stance-web/src/app/pages/real/posicionamento/posicionamento-real.component.ts:116-120 | the sample is ordered by stance, and no stance appears three times |
| PositioningPage.SampleComplete | crimes-stance-web/src/app/pages/real/posicionamento/posicionamento-real.component.ts:116-120 | a long comment with a stance is missing from the sample only when two neighbours in the sample already have its stance |
| PositioningPage.ApplyComments | crimes-stance-web/src/app/pages/real/posicionamento/posicionamento-real.component.ts:96-121 | with no comments the percentages and the sample stay as they were; otherwise the percentages are between 0 and 100 and the sample has at most six comments |
| PositioningPage.CommentsPart | crimes-stance-web/src/app/pages/real/posicionamento/posicionamento-real.component.ts:96-121 | the comment part holds the comments and their page counts, with the percentages and the sample as above; it throws exactly when a comment is `null` |
| PositioningPage.ApplyBootstrap | crimes-stance-web/src/app/pages/real/posicionamento/posicionamento-real.component.ts:124-130 | the rows and their reference grouping are stored; with rows, the metrics and the accuracy are recomputed, and without rows they are kept; it throws exactly when a row cannot be read |
| PositioningPage.ApplyAll | crimes-stance-web/src/app/pages/real/posicionamento/posicionamento-real.component.ts:95-161 | non-arrays become no rows; the total is the number of comments; the percentages change only when there are comments; the page ends settled; it throws exactly when a comment is `null` or a bootstrap row cannot be read |
| PositioningPage.PercentagesInRange | crimes-stance-web/src/app/pages/real/posicionamento/posicionamento-real.component.ts:100-105 | counts of at most the total give three percentages between 0 and 100 |
| Calendar.DayOf | crimes-stance-web/src/app/components/opinion-analysis/weekly-stacked-chart/weekly-stacked-chart.ts:507-511 | the time value lies within its UTC day, also before 1970 |
| Calendar.Weekday | crimes-stance-web/src/app/components/opinion-analysis/weekly-stacked-chart/weekly-stacked-chart.ts:508 | the weekday is between 0 (Sunday) and 6 |
| Calendar.IsoWeekStart | crimes-stance-web/src/app/components/opinion-analysis/weekly-stacked-chart/weekly-stacked-chart.ts:507-511 | a Monday at most six days before the day; a Monday is its own week start, and a Sunday starts six days earlier |
| Calendar.WeekStart | crimes-stance-web/src/app/pages/real/eventos/eventos-timeline-chart.component.ts:566-573 | a Monday at most six days before the day |
| Calendar.MondayUnique | crimes-stance-web/src/app/pages/real/eventos/eventos-timeline-chart.component.ts:566-573 | the week start of a day is a given Monday exactly when the day is within the seven days from it, and the two charts' week starts agree |
| Calendar.CivilFromDays | crimes-stance-web/src/app/pages/real/eventos/eventos-timeline-chart.component.ts:581-586 | the month is between 1 and 12 and the day of the month between 1 and 31; EpochAnchor and LeapDayAnchor pin known dates |
| Calendar.EpochAnchor | crimes-stance-web/src/app/pages/real/eventos/eventos-timeline-chart.component.ts:581-586 | day 0 is 1970-01-01 |
| Calendar.LeapDayAnchor | crimes-stance-web/src/app/pages/real/eventos/eventos-timeline-chart.component.ts:581-586 | day 11016 is 2000-02-29 and the next day is 2000-03-01 |
| Calendar.Pad2 | crimes-stance-web/src/app/pages/real/eventos/eventos-timeline-chart.component.ts:583-584 | exactly two decimal digits |
| Calendar.IsoDate | crimes-stance-web/src/app/components/opinion-analysis/weekly-stacked-chart/weekly-stacked-chart.ts:513-515 | for years 0 to 9999, ten characters with dashes at positions 4 and 7 |
| Calendar.PlainDate | crimes-stance-web/src/app/pages/real/eventos/eventos-timeline-chart.component.ts:581-586 | the date is its month key, a dash and the two-digit day; with the last two digits replaced by `01` it is the month-start key; for a four-digit year it equals the ISO date |
| Calendar.MonthStartKey | crimes-stance-web/src/app/pages/real/eventos/eventos-timeline-chart.component.ts:575-579 | the month key followed by `-01` |
| Calendar.YearMonthKey | crimes-stance-web/src/app/services/events.service.ts:78 | the year key, a dash and the two-digit month; for a four-digit year, the first seven characters of the ISO date |
| Calendar.YearKey | crimes-stance-web/src/app/services/events.service.ts:80 | the digits of the year (for years from 0 on); for a four-digit year, the first four characters of the ISO date |
| Calendar.FourDigitYear | crimes-stance-web/src/app/services/events.service.ts:78-80 | `String(y)` and the year of `toISOString` agree for years 1000 to 9999 |
| Calendar.MonthKeyDeterminesYear | crimes-stance-web/src/app/services/events.service.ts:76-81 | two days with the same month key have the same year key, so the month series refines the year series |
| Calendar.MinOf | crimes-stance-web/src/app/services/events-real.service.ts:158 | none exactly for no values; otherwise a value of the list that no value is below |
| Calendar.MaxOf | crimes-stance-web/src/app/services/events-real.service.ts:159 | none exactly for no values; otherwise a value of the list that no value exceeds |
| Calendar.MinNotAboveMax | crimes-stance-web/src/app/services/events-real.service.ts:158-159 | the earliest value never comes after the latest |
| Calendar.DaySpan | crimes-stance-web/src/app/services/events-real.service.ts:168-170 | `—` exactly when there are no dates; otherwise the `YYYY-MM-DD` dates of the earliest and the latest joined by ` – ` |
| Series.Insert | crimes-stance-web/src/app/services/events-real.service.ts:162 | inserting into a strictly sorted list keeps it strictly sorted and adds exactly the one key |
| Series.SortedDistinct | crimes-stance-web/src/app/services/events-real.service.ts:162 | the distinct keys, strictly ascending |
| Series.CountsOver | crimes-stance-web/src/app/services/events-real.service.ts:163 | one count per label, each the number of keys equal to it |
| Series.SumCountsOver | crimes-stance-web/src/app/services/events-real.service.ts:162-166 | over distinct labels that cover every key, the counts add up to the number of keys |
| Series.Tally | crimes-stance-web/src/app/pages/real/eventos/eventos-timeline-chart.component.ts:229-235 | the labels are strictly sorted and are exactly the keys that occur; each value is the number of occurrences of its label and is positive |
| Series.TallyConserves | crimes-stance-web/src/app/pages/real/eventos/eventos-timeline-chart.component.ts:229-235 | labels and values are aligned and the values add up to the number of keys |
| Strings.IndexOf | crimes-stance-web/src/app/services/sentiment.service.ts:45 | the first position where the pattern occurs, or none exactly when it occurs nowhere |
| Strings.ReplaceFirst | crimes-stance-web/src/app/services/sentiment.service.ts:45-46 | only the first occurrence is replaced; without one the string is unchanged |
| Strings.ReplaceAtStart | crimes-stance-web/src/app/services/posicionamento-real.service.ts:84 | removing a prefix the string starts with leaves the rest |
| Strings.SplitHead | crimes-stance-web/src/app/pages/real/posicionamento/posicionamento-real.component.ts:168 | the first piece is the text before the first separator; the second piece, present exactly when there is a separator, starts right after it, contains no separator and runs up to the next separator or the end of the text |
| Strings.Trim | crimes-stance-web/src/app/services/events-real.service.ts:130 | the result is the slice of the input that starts after its leading white space, is followed only by white space, and neither starts nor ends with white space |
| Strings.TrimUnique | crimes-stance-web/src/app/services/events-real.service.ts:130 | any slice after the leading white space that is followed only by white space and does not end with white space is the trim, so the properties of `Strings.Trim` fix it |
| Strings.TrimPadded | crimes-stance-web/src/app/services/events.service.ts:172 | white space put in front of a text does not change its trim |
| Strings.TrimUnchanged | crimes-stance-web/src/app/services/events-real.service.ts:130 | a text that neither starts nor ends with white space is its own trim |
| Strings.TrimIdempotent | crimes-stance-web/src/app/services/events-real.service.ts:155 | trimming twice is trimming once |
| Strings.Lower | crimes-stance-web/src/app/services/events.service.ts:172 | the lower-case form has the same length, character by character |
| Strings.LowerIdempotent | crimes-stance-web/src/app/services/events.service.ts:172-174 | lower-casing twice is lower-casing once |
| Strings.TrimLowerCommute | crimes-stance-web/src/app/services/events.service.ts:172-174 | trimming then lower-casing equals lower-casing then trimming |
| Strings.PadStart | crimes-stance-web/src/app/pages/real/eventos/eventos-timeline-chart.component.ts:577 | a string already wide enough is unchanged; otherwise it is padded to the width, and it always ends with the original |
| Strings.LessTransitive | crimes-stance-web/src/app/services/events-real.service.ts:162 | the order of `sort()` is transitive |
| Strings.LessTotal | crimes-stance-web/src/app/services/events-real.service.ts:162 | any two different strings are ordered one way or the other |
| Strings.StrictlySortedDistinct | crimes-stance-web/src/app/services/events-real.service.ts:162-165 | a strictly sorted list holds no duplicates |
| Js.Coalesce | crimes-stance-web/src/app/services/events.service.ts:41 | `a ?? b` is `a` unless `a` is nullish, and `b` when it is |
| Js.FirstAlias | crimes-stance-web/src/app/services/events.service.ts:136-141 | a chain `o.k1 ?? o.k2 ?? ... ?? d` is the first property that is not nullish, and `d` when all are |
| Js.Or | crimes-stance-web/src/app/services/events-real.service.ts:123 | `a \|\| b` is `a` when truthy, `b` otherwise |
| Js.Max0 | crimes-stance-web/src/app/components/opinion-analysis/weekly-stacked-chart/weekly-stacked-chart.ts:288-289 | `Math.max(0, x)` is non-negative, at least `x`, and NaN exactly when `x` is |
| Js.Clamp01 | crimes-stance-web/src/app/components/opinion-analysis/weekly-stacked-chart/weekly-stacked-chart.ts:282 | the clamped value lies in [0, 1] and equals the input when that already does |
| Js.Round | crimes-stance-web/src/app/pages/real/posicionamento/posicionamento-real.component.ts:102 | `Math.round` is within half a unit of its input |
| Js.StringOf | crimes-stance-web/src/app/services/sentiment.service.ts:79 | `String(x)`: `null` gives `null`, `undefined` gives `undefined`, and a string is itself |
| Js.ToNumber | crimes-stance-web/src/app/components/opinion-analysis/weekly-stacked-chart/weekly-stacked-chart.ts:433-434 | the number a bootstrap field stands for in arithmetic: a number is its value, `null` is 0, a boolean is 0 or 1, and `undefined` and other values are NaN |
| WeeklyChart.SharesSumToOne | crimes-stance-web/src/app/components/opinion-analysis/weekly-stacked-chart/weekly-stacked-chart.ts:274-277 | the three proportions of a week with comments add up to one |
| TimelineChart.MissingOpIsUnknown | crimes-stance-web/src/app/pages/real/eventos/eventos-timeline-chart.component.ts:201 | a video without a truthy `operation_ner` or `operation` is filed under `unknown` |
| TimelineChart.VideoEvent | crimes-stance-web/src/app/pages/real/eventos/eventos-timeline-chart.component.ts:195-202 | a video yields an event exactly when it has a truthy date that parses once its first space is made a `T`, and its trimmed operation is non-empty |
| TimelineChart.VideoEvents | crimes-stance-web/src/app/pages/real/eventos/eventos-timeline-chart.component.ts:194-202 | one optional event per video, in order |
| TimelineChart.IndexOfOp | crimes-stance-web/src/app/pages/real/eventos/eventos-timeline-chart.component.ts:204 | the position of an operation's entry, or none exactly when no entry has that operation |
| TimelineChart.Record | crimes-stance-web/src/app/pages/real/eventos/eventos-timeline-chart.component.ts:204-207 | one step adds at most one entry |
| TimelineChart.EarliestOf | crimes-stance-web/src/app/pages/real/eventos/eventos-timeline-chart.component.ts:192-208 | at most one entry per video |
| TimelineChart.EarliestCorrect | crimes-stance-web/src/app/pages/real/eventos/eventos-timeline-chart.component.ts:192-208 | no operation is kept twice; every kept entry is an event of the videos, and no event of its operation is earlier; an operation is kept exactly when some video yields an event of it |
| TimelineChart.SameWeekSameKey | crimes-stance-web/src/app/pages/real/eventos/eventos-timeline-chart.component.ts:216 | two instants in the same Monday-start week share the week key, the date of that Monday |
| TimelineChart.EventKeys | crimes-stance-web/src/app/pages/real/eventos/eventos-timeline-chart.component.ts:214-222 | one bucket key per event under the grouping |
| TimelineChart.EventKeysMembers | crimes-stance-web/src/app/pages/real/eventos/eventos-timeline-chart.component.ts:214-222 | a key occurs exactly when some event falls under it |
| TimelineChart.BaseSeries | crimes-stance-web/src/app/pages/real/eventos/eventos-timeline-chart.component.ts:191-235 | strictly sorted labels, exactly the keys of the operations' first events, each with its positive number of first events |
| TimelineChart.EarliestOps | crimes-stance-web/src/app/pages/real/eventos/eventos-timeline-chart.component.ts:192-208 | the operations of the kept entries are the operations with a valid video |
| TimelineChart.SeriesConserves | crimes-stance-web/src/app/pages/real/eventos/eventos-timeline-chart.component.ts:214-235 | every series, day, week or month, adds up to the number of operations with a valid video |
| TimelineChart.Cut | crimes-stance-web/src/app/pages/real/eventos/eventos-timeline-chart.component.ts:345-358 | labels and values stay aligned; a label is kept exactly when its noon parses and lies within the bounds; a sorted series stays sorted and every kept label keeps its value |
| TimelineChart.ApplyRange | crimes-stance-web/src/app/pages/real/eventos/eventos-timeline-chart.component.ts:329-377 | an empty series gives an empty chart; otherwise one dataset, named after the grouping, holding the kept labels with their values |
| TimelineChart.NoRangeShowsAll | crimes-stance-web/src/app/pages/real/eventos/eventos-timeline-chart.component.ts:339-358 | with both range inputs empty and every label parseable, the whole series is shown |
| TimelineChart.UnboundedCut | crimes-stance-web/src/app/pages/real/eventos/eventos-timeline-chart.component.ts:348-358 | without bounds, every label that parses is kept with its value |
| TimelineChart.NoonWithinDays | crimes-stance-web/src/app/pages/real/eventos/eventos-timeline-chart.component.ts:342-354 | for a day label, both bounds are inclusive: it is shown exactly when its day lies between the start day and the end day |
| TimelineChart.SetGrouping | crimes-stance-web/src/app/pages/real/eventos/eventos-timeline-chart.component.ts:321-326 | the current grouping changes nothing; another grouping is selected and the chart redrawn from its series, with the series and the range unchanged |
| WeeklyChart.StanceOf | crimes-stance-web/src/app/components/opinion-analysis/weekly-stacked-chart/weekly-stacked-chart.ts:492-497 | Aprova exactly for label `1`, Desaprova exactly for `-1`, and a missing label is Neutro |
| WeeklyChart.CommentTime | crimes-stance-web/src/app/components/opinion-analysis/weekly-stacked-chart/weekly-stacked-chart.ts:482-485 | a comment without a truthy `data_postagem` has no instant |
| WeeklyChart.WeekKeysLength | crimes-stance-web/src/app/components/opinion-analysis/weekly-stacked-chart/weekly-stacked-chart.ts:481-491 | one week key per kept comment |
| WeeklyChart.WeekKeysMembers | crimes-stance-web/src/app/components/opinion-analysis/weekly-stacked-chart/weekly-stacked-chart.ts:481-491 | a week key occurs exactly when some kept comment falls in that week |
| WeeklyChart.StanceCountsSplit | crimes-stance-web/src/app/components/opinion-analysis/weekly-stacked-chart/weekly-stacked-chart.ts:492-497 | every kept comment of a week is counted under exactly one stance |
| WeeklyChart.GroupCommentsByWeek | crimes-stance-web/src/app/components/opinion-analysis/weekly-stacked-chart/weekly-stacked-chart.ts:479-505 | the weeks are strictly sorted and are exactly the weeks of the kept comments; `yA`, `yD` and `yN` have one entry per week, each the number of kept comments of that stance in that week; every week has a comment |
| WeeklyChart.StanceSumConserves | crimes-stance-web/src/app/components/opinion-analysis/weekly-stacked-chart/weekly-stacked-chart.ts:479-505 | each stance series adds up to the number of kept comments of that stance |
| WeeklyChart.GroupConserves | crimes-stance-web/src/app/components/opinion-analysis/weekly-stacked-chart/weekly-stacked-chart.ts:479-505 | the three series together add up to the number of kept comments |
| WeeklyChart.ComputeWeekCounts | crimes-stance-web/src/app/components/opinion-analysis/weekly-stacked-chart/weekly-stacked-chart.ts:438-457 | the total is the sum of the three counts and at most the number of comments |
| WeeklyChart.InWeekIffWeekStart | crimes-stance-web/src/app/components/opinion-analysis/weekly-stacked-chart/weekly-stacked-chart.ts:439-448 | an instant lies in the half-open seven-day window of a Monday exactly when that Monday is its week start |
| WeeklyChart.WeekCountsMatchWeeks | crimes-stance-web/src/app/components/opinion-analysis/weekly-stacked-chart/weekly-stacked-chart.ts:438-457 | the drill-down of a week counts, per stance, exactly the comments whose week starts on that Monday |
| WeeklyChart.ApplyFilter | crimes-stance-web/src/app/components/opinion-analysis/weekly-stacked-chart/weekly-stacked-chart.ts:467-471 | a bound exists exactly when its date is given |
| WeeklyChart.FilterByDay | crimes-stance-web/src/app/components/opinion-analysis/weekly-stacked-chart/weekly-stacked-chart.ts:468-469 | an instant passes exactly when it is no earlier than 00:00:00Z of the start date and no later than 23:59:59Z of the end date |
| WeeklyChart.ClassIds | crimes-stance-web/src/app/components/opinion-analysis/weekly-stacked-chart/weekly-stacked-chart.ts:397-401 | an id is collected exactly when some row's key starts with `<metric>_class_` and splits to it; at most one id per row |
| WeeklyChart.ClassIdOf | crimes-stance-web/src/app/components/opinion-analysis/weekly-stacked-chart/weekly-stacked-chart.ts:397-401 | a row has a class id only when its key starts with `<metric>_class_`, and the id is the second piece of the key split at `_class_` |
| WeeklyChart.ChooseClassId | crimes-stance-web/src/app/components/opinion-analysis/weekly-stacked-chart/weekly-stacked-chart.ts:402-413 | no ids give none; the conventional id (Neutro 0, Aprovação 1, Desaprovação 2) is chosen when present; otherwise the smallest id, and none when that is empty |
| WeeklyChart.FindRow | crimes-stance-web/src/app/components/opinion-analysis/weekly-stacked-chart/weekly-stacked-chart.ts:427 | a found row has exactly that key and no earlier row has it; none is found exactly when no row has it |
| WeeklyChart.GetBootstrapCI | crimes-stance-web/src/app/components/opinion-analysis/weekly-stacked-chart/weekly-stacked-chart.ts:389-436 | zero margins when there is no `<metric>_class_` key or no row for the class; finite margins are never negative; otherwise the interval from `mean - minus` to `mean + plus` is the smallest one around the mean that covers the 95% bounds, and NaN propagates |
| WeeklyChart.ProportionInterval | crimes-stance-web/src/app/components/opinion-analysis/weekly-stacked-chart/weekly-stacked-chart.ts:375-378 | the clamped interval lies in [0, 1] and contains the proportion; a bound is NaN exactly when its margin is; a finite lower end is `max(0, p - max(0, minus))` and a finite upper end `min(1, p + max(0, plus))` |
| WeeklyChart.ProportionIntervalContains | crimes-stance-web/src/app/components/opinion-analysis/weekly-stacked-chart/weekly-stacked-chart.ts:375-378 | with finite margins, a value lies in the interval exactly when it is in [0, 1] and within the (non-negative) margins of the proportion; with a NaN margin nothing does |
| WeeklyChart.OverlapsSymmetric | crimes-stance-web/src/app/components/opinion-analysis/weekly-stacked-chart/weekly-stacked-chart.ts:380 | the overlap test is symmetric |
| WeeklyChart.OverlapIffCommonPoint | crimes-stance-web/src/app/components/opinion-analysis/weekly-stacked-chart/weekly-stacked-chart.ts:380 | finite intervals overlap exactly when they share a point, so touching intervals overlap |
| WeeklyChart.Share | crimes-stance-web/src/app/components/opinion-analysis/weekly-stacked-chart/weekly-stacked-chart.ts:372-373 | a share of Aprovação plus Desaprovação lies in [0, 1] |
| WeeklyChart.WeekFlag | crimes-stance-web/src/app/components/opinion-analysis/weekly-stacked-chart/weekly-stacked-chart.ts:369-381 | a week without either class is never flagged; otherwise it is flagged exactly when the two clamped intervals are disjoint |
| WeeklyChart.WeekFlagSymmetric | crimes-stance-web/src/app/components/opinion-analysis/weekly-stacked-chart/weekly-stacked-chart.ts:369-381 | swapping the two classes gives the same flag |
| WeeklyChart.EqualCountsNotFlagged | crimes-stance-web/src/app/components/opinion-analysis/weekly-stacked-chart/weekly-stacked-chart.ts:372-381 | equal numbers of approving and disapproving comments are never flagged |
| WeeklyChart.NaNMarginsNotFlagged | crimes-stance-web/src/app/components/opinion-analysis/weekly-stacked-chart/weekly-stacked-chart.ts:360-381 | NaN margins never produce a flag |
| WeeklyChart.ComputeSignificanceFlags | crimes-stance-web/src/app/components/opinion-analysis/weekly-stacked-chart/weekly-stacked-chart.ts:355-384 | one flag per week, false whenever the week has no comment of either class, and otherwise the week flag from the precision margins of the two classes |
| WeeklyChart.Proportion | crimes-stance-web/src/app/components/opinion-analysis/weekly-stacked-chart/weekly-stacked-chart.ts:274-277 | the proportion lies in [0, 1] and is 0 for an empty week |
| WeeklyChart.Bar | crimes-stance-web/src/app/components/opinion-analysis/weekly-stacked-chart/weekly-stacked-chart.ts:285-293 | the bar's centre is the proportion, its ends are the proportion interval of that proportion under the given margins, and they lie in [0, 1] around it |
| WeeklyChart.DrillDownBars | crimes-stance-web/src/app/components/opinion-analysis/weekly-stacked-chart/weekly-stacked-chart.ts:269-293 | each class's bar is centred on its proportion of the week, and its ends are the proportion interval of that proportion under the margins `GetBootstrapCI` finds for that class (`aprovacao`, `desaprovacao`, `neutro`) of the metric |
| WeeklyChart.DrillDownSharesSum | crimes-stance-web/src/app/components/opinion-analysis/weekly-stacked-chart/weekly-stacked-chart.ts:274-277 | the three proportions of a non-empty week add up to one |

## Left out

- Promises, `fetch`, `HttpClient`, `withTimeout`, NgZone and change detection are left out. A fetch is a function parameter; each service call is modelled on the values it awaits.
- JavaScript's `Date` string parser is left out. It is a parameter `parse`, and the model does not fix which strings it accepts.
- Time zones are left out. The timeline's local-time getters (`getDay`, `getDate`, `getMonth`, `getFullYear`, `setHours`) and those of the events service (`getFullYear` and `getMonth` in crimes-stance-web/src/app/services/events.service.ts:78, 80 and 128, modelled by `Events.PeriodKeys` and `Events.Years`) are read as the UTC ones, as if the browser ran in UTC. In the timeline's range, `T00:00:00`, `T12:00:00` and `T23:59:59` are parsed by the same parameter.
- Chart.js datasets and options, the chart labels and colours, tick and tooltip formatting (`formatTickLabel`, `formatWeekRange`, `toLocaleDateString`) and the PNG and PDF export are rendering and are left out. Only the label and value arrays of the charts are modelled.
- The `updateChart` glue of the weekly chart and the modal state of its drill-down are left out; the transforms it calls are modelled.
- `localStorage` writes (`persistMenus`) and the `closeSidebar` event carry no state of the sidebar and are left out; the restore takes the saved strings as parameters.
- `console.log` and `console.error` are left out.
- `topicCounts` in `applyAll` holds fixed placeholder fractions of the comment total and is left out.
- `toFixed(1)` in the average videos per operation is left out: `Events.AveragePerOperation` gives the exact quotient.
- Floating-point error is left out. Quotients are exact reals, and `Math.round` is `floor(x + 0.5)` on them.
- `buildSeriesFromRaw` in the events service is never called and is left out. So are the convenience wrappers `getAllVideos`, `getMetrics`, `getVideosByMonth`, `getVideosByYear`, `getEventsRaw` and `getEventsTimeSeries`, which only forward `listAll` or a request.
- `listAll` and `getDatasets` of `SentimentService` only fetch fixed file names and are left out.
- Array elements of a data file that are neither objects nor `null` (numbers, strings, nested arrays) are read as objects without fields. JavaScript would read some of their fields through their prototype (for example `length` of a string).
- `Js.NumberToString`: the exponent form `String(n)` uses below 1e-6 and from 1e21 is not modelled.
- `Js.ToNumber`: a numeric string in a bootstrap row is read as NaN. JavaScript would convert it to its number. Arrays are read as NaN too, while JavaScript reads `[]` as 0 and a one-element array as its element's number.
- `BootstrapRows.MeanOf`: a truthy `mean` that is not a number is read as NaN. JavaScript's `+` would concatenate a string mean instead.
- `PositioningPage.LongComments`: an object `comentario` whose `length` field is a numeric string or an array is read through `Js.ToNumber`, which gives NaN for both, so the comment is not long. JavaScript converts `"60"` or `[60]` to 60 and keeps it.
- `EvaluationPage.ApplyData`: label counts that are strings or arrays are read as NaN, so the label card stays hidden. JavaScript's `+` would concatenate them (`[5] + 0 + 0` is `"500"`) and compare the text numerically.
- `BootstrapRows.Expected`: groups are listed in order of first appearance. `Object.values` lists metric names that are array indices (such as `12`) first, in numeric order; such names are not modelled.
- `WeeklyChart.GetBootstrapCI`: a bootstrap row whose key is truthy but not a string is treated as having no key. In JavaScript, `startsWith` on such a key throws.
- `Strings.Lower`: lower-casing covers Basic Latin and Latin-1 only; the rest of Unicode's case mapping is not modelled.
- `Calendar.IsoWeekStart`: the Monday is computed on the day count. The source rebuilds it with `Date.UTC`, which reads the years 0 to 99 as 1900 to 1999; dates in those years are not modelled.
- `EventsReal.LoadDataset`: it and `EventsReal.Merge` resolve file names with the corrected `EventsReal.ResolveAssetUrl`. With a base href that contains `/cenario-real`, the source fetches the URL shown under "## Findings" instead.
- `Events.Elements`: a JavaScript `Set` compares objects by identity; the model compares operation ids structurally, so two distinct objects with equal contents count once.
- `DatasetIndex.Lookup`, `Js.Prop`: a property name that JavaScript finds on `Object.prototype` (`constructor`, `__proto__`, `toString`, ...) is read as absent, so such an id fails with not-found. The source reads the inherited value, which is truthy: crimes-stance-web/src/app/services/posicionamento-real.service.ts:42-43 goes on and fetches a file named `undefined`, crimes-stance-web/src/app/services/sentiment.service.ts:31-36 fails with incomplete-configuration, and crimes-stance-web/src/app/services/events-real.service.ts:62-63 carries on with the inherited value.
- `BootstrapRows.Classify`: a metric named `constructor` or `__proto__` is grouped like any other. In the source `grouped[metric]` finds the inherited value, so `grouped[metric].items.push` throws (crimes-stance-web/src/app/pages/real/posicionamento/posicionamento-real.component.ts:169-170).
- `PositioningPage.ApplyAll`: a throw gives `Err` and no page. The source keeps what it assigned before the throw: the comments, the total, the counts, the percentages, the sample and `bootstrapStats` are set when `groupBootstrapResults` throws (crimes-stance-web/src/app/pages/real/posicionamento/posicionamento-real.component.ts:96-126).
- `EvaluationPage.ApplyData`: a throw gives `Err` and no page. The source keeps `dataset` and `bootstrap`, which it sets before `calcAccuracy` throws (crimes-stance-web/src/app/pages/avaliacoes/posicionamento/avaliacoes-posicionamento.component.ts:75-88).
- `Strings.Less`: the order compares characters by code point, which agrees with `sort()`'s UTF-16 order for characters outside the surrogate range only.

## Findings

| source | as written | input that shows it | evidently intended | confidence | as-written member | corrected member |
|---|---|---|---|---|---|---|
| crimes-stance-web/src/app/services/events-real.service.ts:112 | the events root is `this.base.replace('/cenario-real', '')`, which removes the first `/cenario-real` in the base, not the trailing one | base href `/cenario-real/` (the app served under a `cenario-real` path) and file `events/x.json`: the code as written fetches `/assets/data/events/cenario-real/x.json` | remove the trailing `/cenario-real` only, so the file is fetched from `/cenario-real/assets/data/events/x.json` | not executed | EventsReal.AsWrittenMisplaces | EventsReal.ResolveAssetUrl |

=== FILE: asset_url.dfy ===
/** `assetUrl`: the URL of a file under the assets root, joined to the
    `<base href>` with a single slash in between. */
module AssetUrl {
  import opened Base
  import opened Strings
  import opened Paths

  /** The base with one trailing slash removed, if it has one. */
  function StripSlash(b: string): (r: string)
    ensures EndsWith(b, "/") ==> r + "/" == b
    ensures !EndsWith(b, "/") ==> r == b
  {
    if EndsWith(b, "/") then b[..|b| - 1] else b
  }

  /** The path with a leading slash, added only when it lacks one. */
  function Slashed(path: string): (r: string)
    ensures StartsWith(r, "/")
    ensures StartsWith(path, "/") ==> r == path
    ensures !StartsWith(path, "/") ==> r == "/" + path
  {
    if StartsWith(path, "/") then path else "/" + path
  }

  /** The URL is the base, less at most one trailing slash, followed by the
      slash-prefixed path. */
  function AssetUrl(href: Option<string>, path: string): (url: string)
    ensures EndsWith(url, Slashed(path))
    ensures var front := url[..|url| - |Slashed(path)|];
      if EndsWith(BaseHref(href), "/") then front + "/" == BaseHref(href) else front == BaseHref(href)
  {
    StripSlash(BaseHref(href)) + Slashed(path)
  }

  /** A path with or without its leading slash gives the same URL. */
  lemma LeadingSlashOptional(href: Option<string>, path: string)
    requires !StartsWith(path, "/")
    ensures AssetUrl(href, path) == AssetUrl(href, "/" + path)
  {
    assert ("/" + path)[..1] == "/";
  }

  /** Without a base (or with base `/`) the URL is the slash-prefixed path. */
  lemma DefaultBase(path: string)
    ensures AssetUrl(None, path) == Slashed(path)
    ensures AssetUrl(Some("/"), path) == Slashed(path)
  {
    assert StripSlash("/") == "";
  }

  /** A base without a trailing slash is kept verbatim in front of the path. */
  lemma BaseKeptVerbatim(b: string, path: string)
    requires b != "" && !EndsWith(b, "/")
    ensures StartsWith(AssetUrl(Some(b), path), b)
    ensures AssetUrl(Some(b), path)[|b|..] == Slashed(path)
  {
    var url := AssetUrl(Some(b), path);
    assert url == b + Slashed(path);
    assert url[..|b|] == b;
  }

  /** Exactly one slash joins a base ending in a single slash to the path:
      the URL is the base followed by the path without its leading slash. */
  lemma SingleSlashJoin(b: string, path: string)
    requires EndsWith(b, "/")
    ensures AssetUrl(Some(b), path) == b + Slashed(path)[1..]
  {
    var s := Slashed(path);
    assert s[..1] == "/";
    Rejoin(StripSlash(b), s, b);
  }

  lemma Rejoin(p: string, s: string, b: string)
    requires p + "/" == b && |s| > 0 && s[..1] == "/"
    ensures p + s == b + s[1..]
  {
    assert s == "/" + s[1..];
  }
}

=== FILE: base.dfy ===
/** Failure-carrying wrappers and sequence facts shared by every module
    of the model. */
module Base {

  /** A value that may be absent: a JavaScript `undefined`, a failed
      parse, or a missing map entry, depending on the caller. */
  datatype Option<+T> = None | Some(value: T) {
    function GetOr(default: T): T {
      match this
      case Some(v) => v
      case None => default
    }
  }

  /** The errors the services and components throw. */
  datatype Error =
    | NotFound(id: string)          // the dataset id is not a key of the index
    | NothingToCompile              // the `__ALL__` merge produced no record
    | FetchFailed                   // a fetch that the caller does not tolerate failed
    | IncompleteConfig(id: string)  // a dataset entry lacks one of its file paths
    | TypeError                     // a property or string method applied to the wrong kind of value

  /** The outcome of an operation that may throw. */
  datatype Result<+T> = Ok(value: T) | Err(error: Error)

  /** Two list results in sequence: the first failure, or both lists joined. */
  function Then<T>(a: Result<seq<T>>, b: Result<seq<T>>): Result<seq<T>> {
    if a.Err? then a else if b.Err? then b else Ok(a.value + b.value)
  }

  // ---------------------------------------------------------------------
  // Sequences

  /** A non-empty sequence is its head followed by its tail. */
  lemma ConsSplit<T>(s: seq<T>)
    requires |s| > 0
    ensures s == [s[0]] + s[1..]
  {
  }

  /** Concatenation is associative. */
  lemma ConcatAssoc<T>(a: seq<T>, b: seq<T>, c: seq<T>)
    ensures a + b + c == a + (b + c)
  {
  }

  /** The members of a non-empty sequence are its head and the members of its tail. */
  lemma MemberCons<T>(s: seq<T>)
    requires |s| > 0
    ensures forall v :: v in s <==> v == s[0] || v in s[1..]
  {
    ConsSplit(s);
  }

  /** A non-empty sequence is its front followed by its last element. */
  lemma SnocSplit<T>(s: seq<T>)
    requires |s| > 0
    ensures s == s[..|s| - 1] + [s[|s| - 1]]
  {
  }

  /** Each later element of a non-empty sequence sits one place earlier in its tail. */
  lemma TailIndex<T>(s: seq<T>)
    requires |s| > 0
    ensures forall i :: 1 <= i < |s| ==> s[i] == s[1..][i - 1]
  {
  }

  /** A property of the head and of every element of the tail holds for
      every element of the whole sequence. */
  lemma ConsAll<T>(p: T -> bool, v: T, rest: seq<T>)
    requires p(v)
    requires forall k :: 0 <= k < |rest| ==> p(rest[k])
    ensures forall k :: 0 <= k < |[v] + rest| ==> p(([v] + rest)[k])
  {
    forall k | 0 <= k < |[v] + rest| ensures p(([v] + rest)[k]) {
      if k > 0 {
        assert ([v] + rest)[k] == rest[k - 1];
      }
    }
  }

  /** The members of an element-wise image are the images of the members. */
  lemma MapMembers<A, B>(xs: seq<A>, ys: seq<B>, f: A -> B)
    requires |ys| == |xs|
    requires forall i :: 0 <= i < |xs| ==> ys[i] == f(xs[i])
    ensures forall y :: y in ys <==> exists x :: x in xs && f(x) == y
  {
    forall y | exists x :: x in xs && f(x) == y ensures y in ys {
      var x :| x in xs && f(x) == y;
      var i :| 0 <= i < |xs| && xs[i] == x;
      assert ys[i] == y;
    }
  }
}

=== FILE: bootstrap_rows.dfy ===
/** The bootstrap rows both stance pages show: grouping the rows by the
    metric named before `class` in their key, and averaging the means of
    the per-class rows of one metric into an accuracy score. */
module BootstrapRows {
  import opened Base
  import opened Strings
  import opened Js
  import opened Series

  // ---------------------------------------------------------------------
  // Grouping

  /** `{ class, mean, lower_ci, upper_ci }`: what a row adds to its group. */
  datatype GroupItem = GroupItem(cls: Option<string>, mean: Option<Json>,
                                 lowerCi: Option<Json>, upperCi: Option<Json>)

  /** `{ metric, items }`. */
  datatype Group = Group(metric: string, items: seq<GroupItem>)

  /** What the grouping loop does with one row: skip it (no truthy key),
      throw (a key without a `split` method), or file an item under a metric. */
  datatype Entry = Skip | Bad | Keyed(metric: string, item: GroupItem)

  const ClassWord: string := "class"

  /** One row of the loop: `const [metric, cls] = key.split('class')`. A
      `null` row has no key and is skipped; the real-scenario page rejects
      such rows before the loop (`GroupBootstrapResults`). */
  function Classify(row: Json): (e: Entry)
    ensures e.Skip? <==> !Truthy(Prop(Some(row), ""))
    ensures e.Bad? <==> Truthy(Prop(Some(row), "")) && !Prop(Some(row), "").value.JStr?
    ensures e.Keyed? ==>
      var key := Prop(Some(row), "").value.s;
      StartsWith(key, e.metric)
      && (e.item.cls.None? <==> IndexOf(key, ClassWord).None?)
      && (e.item.cls.None? ==> e.metric == key)
      && (e.item.cls.Some? ==> IndexOf(key, ClassWord) == Some(|e.metric|))
    ensures e.Keyed? ==>
      var key := Prop(Some(row), "").value.s;
      (e.metric, e.item.cls) == SplitHead(key, ClassWord)
      && e.item.mean == Prop(Some(row), "mean")
      && e.item.lowerCi == Prop(Some(row), "lower_95_ci")
      && e.item.upperCi == Prop(Some(row), "upper_95_ci")
  {
    var key := Prop(Some(row), "");
    if !Truthy(key) then Skip
    else if !key.value.JStr? then Bad
    else
      var (metric, cls) := SplitHead(key.value.s, ClassWord);
      Keyed(metric, GroupItem(cls, Prop(Some(row), "mean"), Prop(Some(row), "lower_95_ci"),
                              Prop(Some(row), "upper_95_ci")))
  }

  /** The position of the group of metric `m`, if there is one yet. */
  function GroupIndex(groups: seq<Group>, m: string): (r: Option<nat>)
    ensures r.Some? ==> r.value < |groups| && groups[r.value].metric == m
    ensures r.None? ==> forall i :: 0 <= i < |groups| ==> groups[i].metric != m
  {
    if |groups| == 0 then None
    else if groups[0].metric == m then Some(0)
    else
      match GroupIndex(groups[1..], m)
      case None => None
      case Some(i) => Some(i + 1)
  }

  /** `if (!grouped[metric]) grouped[metric] = { metric, items: [] };
      grouped[metric].items.push(item)`, on the groups in insertion order. */
  function AddEntry(groups: seq<Group>, m: string, item: GroupItem): seq<Group> {
    match GroupIndex(groups, m)
    case Some(i) => groups[i := Group(m, groups[i].items + [item])]
    case None => groups + [Group(m, [item])]
  }

  /** The grouping loop over the rows, followed by `Object.values(grouped)`. */
  function GroupLoop(rows: seq<Json>): Result<seq<Group>>
    decreases |rows|
  {
    if |rows| == 0 then Ok([])
    else
      match GroupLoop(rows[..|rows| - 1])
      case Err(e) => Err(e)
      case Ok(groups) =>
        match Classify(rows[|rows| - 1])
        case Skip => Ok(groups)
        case Bad => Err(TypeError)
        case Keyed(m, item) => Ok(AddEntry(groups, m, item))
  }

  /** Some keyed row has a key that is not a string. */
  predicate HasBadKey(rows: seq<Json>) {
    exists i :: 0 <= i < |rows| && Classify(rows[i]).Bad?
  }

  /** The metrics of the keyed rows, each once, in order of first appearance. */
  function Metrics(rows: seq<Json>): seq<string>
    decreases |rows|
  {
    if |rows| == 0 then []
    else
      var ms := Metrics(rows[..|rows| - 1]);
      match Classify(rows[|rows| - 1])
      case Keyed(m, _) => if m in ms then ms else ms + [m]
      case _ => ms
  }

  /** The items of the rows filed under metric `m`, in row order. */
  function ItemsFor(rows: seq<Json>, m: string): seq<GroupItem>
    decreases |rows|
  {
    if |rows| == 0 then []
    else
      var e := Classify(rows[|rows| - 1]);
      ItemsFor(rows[..|rows| - 1], m) + (if e.Keyed? && e.metric == m then [e.item] else [])
  }

  /** The reference grouping: one group per metric, in order of first
      appearance, holding the items of exactly the rows of that metric. */
  function Expected(rows: seq<Json>): (gs: seq<Group>)
    ensures |gs| == |Metrics(rows)|
    ensures forall i :: 0 <= i < |gs| ==> gs[i] == Group(Metrics(rows)[i], ItemsFor(rows, Metrics(rows)[i]))
  {
    var ms := Metrics(rows);
    seq(|ms|, i requires 0 <= i < |ms| => Group(ms[i], ItemsFor(rows, ms[i])))
  }

  /** No metric is listed twice. */
  lemma {:induction false} MetricsDistinct(rows: seq<Json>)
    ensures Distinct(Metrics(rows))
    decreases |rows|
  {
    if |rows| > 0 {
      MetricsDistinct(rows[..|rows| - 1]);
    }
  }

  /** A metric is listed exactly when some row is filed under it. */
  lemma {:induction false} MetricsMembers(rows: seq<Json>, m: string)
    ensures m in Metrics(rows) <==> ItemsFor(rows, m) != []
    decreases |rows|
  {
    if |rows| > 0 {
      MetricsMembers(rows[..|rows| - 1], m);
    }
  }

  /** The items filed under `m` are the items of the rows of metric `m`. */
  lemma {:induction false} ItemsForMembers(rows: seq<Json>, m: string, x: GroupItem)
    ensures x in ItemsFor(rows, m) <==> exists i :: 0 <= i < |rows| && Classify(rows[i]) == Keyed(m, x)
    decreases |rows|
  {
    if |rows| > 0 {
      var init := rows[..|rows| - 1];
      ItemsForMembers(init, m, x);
      if exists i :: 0 <= i < |rows| && Classify(rows[i]) == Keyed(m, x) {
        var i :| 0 <= i < |rows| && Classify(rows[i]) == Keyed(m, x);
        if i < |init| {
          assert Classify(init[i]) == Keyed(m, x);
        }
      }
      if exists i :: 0 <= i < |init| && Classify(init[i]) == Keyed(m, x) {
        var i :| 0 <= i < |init| && Classify(init[i]) == Keyed(m, x);
        assert Classify(rows[i]) == Keyed(m, x);
      }
    }
  }

  /** The loop builds the reference grouping, and throws exactly when some
      key is not a string. */
  lemma {:induction false} GroupLoopSpec(rows: seq<Json>)
    ensures GroupLoop(rows).Err? <==> HasBadKey(rows)
    ensures GroupLoop(rows).Ok? ==> GroupLoop(rows).value == Expected(rows)
    decreases |rows|
  {
    if |rows| > 0 {
      var init := rows[..|rows| - 1];
      var last := rows[|rows| - 1];
      GroupLoopSpec(init);
      BadKeySplit(rows);
      SnocSplit(rows);
      if GroupLoop(init).Ok? {
        if Classify(last).Keyed? {
          AddEntryStep(init, last);
        } else if Classify(last).Skip? {
          SkipStep(init, last);
        }
      }
    }
  }

  /** Some key is bad exactly when one before the last is, or the last is. */
  lemma BadKeySplit(rows: seq<Json>)
    requires |rows| > 0
    ensures HasBadKey(rows) <==> HasBadKey(rows[..|rows| - 1]) || Classify(rows[|rows| - 1]).Bad?
  {
    var init := rows[..|rows| - 1];
    if HasBadKey(rows) && !Classify(rows[|rows| - 1]).Bad? {
      var i :| 0 <= i < |rows| && Classify(rows[i]).Bad?;
      assert Classify(init[i]).Bad?;
    }
    if HasBadKey(init) {
      var i :| 0 <= i < |init| && Classify(init[i]).Bad?;
      assert Classify(rows[i]).Bad?;
    }
  }

  /** A skipped row leaves the reference grouping as it was. */
  lemma SkipStep(init: seq<Json>, last: Json)
    requires Classify(last).Skip?
    ensures Expected(init + [last]) == Expected(init)
  {
    var rows := init + [last];
    assert rows[..|rows| - 1] == init && rows[|rows| - 1] == last;
    assert Metrics(rows) == Metrics(init);
    assert forall i :: 0 <= i < |Expected(rows)| ==> Expected(rows)[i] == Expected(init)[i];
  }

  /** One keyed row added to the reference grouping of the rows before it. */
  lemma AddEntryStep(init: seq<Json>, last: Json)
    requires Classify(last).Keyed?
    ensures var e := Classify(last);
            AddEntry(Expected(init), e.metric, e.item) == Expected(init + [last])
  {
    var rows := init + [last];
    assert rows[..|rows| - 1] == init && rows[|rows| - 1] == last;
    var e := Classify(last);
    var gs := Expected(init);
    var ms := Metrics(init);
    var r := AddEntry(gs, e.metric, e.item);
    var want := Expected(rows);
    match GroupIndex(gs, e.metric)
    case Some(j) =>
      assert Metrics(rows) == ms;
      forall i | 0 <= i < |want| ensures r[i] == want[i] {
        if i != j {
          assert ms[i] != e.metric by { MetricsDistinct(init); }
        }
      }
    case None =>
      assert e.metric !in ms;
      assert Metrics(rows) == ms + [e.metric];
      assert ItemsFor(init, e.metric) == [] by { MetricsMembers(init, e.metric); }
      forall i | 0 <= i < |want| ensures r[i] == want[i] {
      }
  }

  /** Every keyed row has its item in the group of its metric. */
  lemma KeyedRowGrouped(rows: seq<Json>, i: nat)
    requires i < |rows| && Classify(rows[i]).Keyed?
    ensures var e := Classify(rows[i]);
            exists j :: 0 <= j < |Expected(rows)| && Expected(rows)[j].metric == e.metric
                        && e.item in Expected(rows)[j].items
  {
    var e := Classify(rows[i]);
    ItemsForMembers(rows, e.metric, e.item);
    MetricsMembers(rows, e.metric);
    var j :| 0 <= j < |Metrics(rows)| && Metrics(rows)[j] == e.metric;
    assert Expected(rows)[j].metric == e.metric;
  }

  /** `groupBootstrapResults` of the real-scenario page: no rows give no
      groups, and `item['']` on a `null` row throws. */
  function GroupBootstrapResults(rows: seq<Json>): (r: Result<seq<Group>>)
    ensures r.Err? <==> HasNull(rows) || HasBadKey(rows)
    ensures r.Err? ==> r.error == TypeError
    ensures r.Ok? ==> r.value == Expected(rows)
    ensures |rows| == 0 ==> r == Ok([])
  {
    GroupLoopSpec(rows);
    if |rows| == 0 then Ok([])
    else if HasNull(rows) then Err(TypeError)
    else
      if GroupLoop(rows).Err? then Err(TypeError) else GroupLoop(rows)
  }

  /** `groupBootstrap` of the evaluation page: anything but a non-empty
      array gives no groups, and `item?.['']` lets `null` rows through as
      keyless. */
  function GroupBootstrap(results: Option<Json>): (r: Result<seq<Group>>)
    ensures r.Err? <==> HasBadKey(ArrayItems(results))
    ensures r.Err? ==> r.error == TypeError
    ensures r.Ok? ==> r.value == Expected(ArrayItems(results))
    ensures !(results.Some? && results.value.JArr?) ==> r == Ok([])
  {
    if !(results.Some? && results.value.JArr?) || |results.value.items| == 0 then Ok([])
    else
      var rows := results.value.items;
      GroupLoopSpec(rows);
      if GroupLoop(rows).Err? then Err(TypeError) else GroupLoop(rows)
  }

  /** On rows without `null`, the two pages group alike. */
  lemma PagesGroupAlike(rows: seq<Json>)
    requires !HasNull(rows)
    ensures GroupBootstrapResults(rows) == GroupBootstrap(Some(JArr(rows)))
  {
  }

  // ---------------------------------------------------------------------
  // Accuracy

  /** `i['']?.startsWith(prefix)` throws on a `null` row and on a key that
      is neither nullish nor a string. */
  predicate Unreadable(row: Json) {
    row == JNull || (!Nullish(Prop(Some(row), "")) && !Prop(Some(row), "").value.JStr?)
  }

  predicate HasUnreadable(rows: seq<Json>) {
    exists i :: 0 <= i < |rows| && Unreadable(rows[i])
  }

  /** The row's key starts with `prefix`. */
  predicate Matches(row: Json, prefix: string) {
    var key := Prop(Some(row), "");
    key.Some? && key.value.JStr? && StartsWith(key.value.s, prefix)
  }

  /** `bootstrapData.filter(i => i['']?.startsWith(prefix))`. */
  function Selected(rows: seq<Json>, prefix: string): (r: Result<seq<Json>>)
    ensures r.Err? <==> HasUnreadable(rows)
    ensures r.Ok? ==> |r.value| <= |rows|
    ensures r.Ok? ==> forall x :: x in r.value <==> x in rows && Matches(x, prefix)
    decreases |rows|
  {
    if |rows| == 0 then Ok([])
    else
      var init := rows[..|rows| - 1];
      var last := rows[|rows| - 1];
      assert rows == init + [last];
      assert HasUnreadable(rows) <==> HasUnreadable(init) || Unreadable(last) by {
        if HasUnreadable(rows) && !Unreadable(last) {
          var i :| 0 <= i < |rows| && Unreadable(rows[i]);
          assert Unreadable(init[i]);
        }
        if HasUnreadable(init) {
          var i :| 0 <= i < |init| && Unreadable(init[i]);
          assert Unreadable(rows[i]);
        }
      }
      match Selected(init, prefix)
      case Err(e) => Err(e)
      case Ok(sel) =>
        if Unreadable(last) then Err(TypeError)
        else Ok(sel + (if Matches(last, prefix) then [last] else []))
  }

  /** A single row: an unreadable one throws, any other is kept exactly
      when its key starts with the prefix. */
  lemma SelectedSingle(x: Json, prefix: string)
    ensures Unreadable(x) ==> Selected([x], prefix) == Err(TypeError)
    ensures !Unreadable(x) ==> Selected([x], prefix) == Ok(if Matches(x, prefix) then [x] else [])
  {
    assert [x][..0] == [];
    assert [x] == [] + [x];
  }

  /** Selecting from a concatenation selects from the parts one after the
      other: with `SelectedSingle` this fixes the rows, their order and
      their repetitions, and so the divisor of `Percent`. */
  lemma {:induction false} SelectedAppend(a: seq<Json>, b: seq<Json>, prefix: string)
    ensures Selected(a + b, prefix) == Then(Selected(a, prefix), Selected(b, prefix))
    decreases |b|
  {
    if |b| == 0 {
      assert a + b == a;
      var ra := Selected(a, prefix);
      if ra.Ok? {
        assert ra.value + [] == ra.value;
      }
    } else {
      var init := b[..|b| - 1];
      var last := b[|b| - 1];
      assert (a + b)[..|a + b| - 1] == a + init;
      assert (a + b)[|a + b| - 1] == last;
      SelectedAppend(a, init, prefix);
      var ra := Selected(a, prefix);
      var ri := Selected(init, prefix);
      if ra.Ok? && ri.Ok? && !Unreadable(last) {
        var tail := if Matches(last, prefix) then [last] else [];
        assert ra.value + ri.value + tail == ra.value + (ri.value + tail);
      }
    }
  }

  /** `i.mean || 0`. */
  function MeanOf(row: Json): (x: Num)
    ensures !Truthy(Prop(Some(row), "mean")) ==> x == Fin(0.0)
    ensures Prop(Some(row), "mean").Some? && Prop(Some(row), "mean").value.JNum? ==>
      x == Fin(DecimalValue(Prop(Some(row), "mean").value.n))
  {
    var mean := Prop(Some(row), "mean");
    if Truthy(mean) then ToNumber(mean) else Fin(0.0)
  }

  /** `items.reduce((s, i) => s + (i.mean || 0), 0)`. */
  function SumMeans(rows: seq<Json>): Num
    decreases |rows|
  {
    if |rows| == 0 then Fin(0.0) else SumMeans(rows[..|rows| - 1]).Plus(MeanOf(rows[|rows| - 1]))
  }

  /** The mean of a row is a proportion: a number between 0 and 1, or none. */
  predicate ProportionMean(row: Json) {
    MeanOf(row).Fin? && 0.0 <= MeanOf(row).r <= 1.0
  }

  /** Proportions add up to a number between 0 and their count. */
  lemma {:induction false} SumMeansBounded(rows: seq<Json>)
    requires forall i :: 0 <= i < |rows| ==> ProportionMean(rows[i])
    ensures SumMeans(rows).Fin? && 0.0 <= SumMeans(rows).r <= |rows| as real
    decreases |rows|
  {
    if |rows| > 0 {
      SumMeansBounded(rows[..|rows| - 1]);
      assert ProportionMean(rows[|rows| - 1]);
    }
  }

  /** `avg(prefix)` on the rows it selected: 0 when there are none,
      otherwise the integer nearest to 100 times the mean of their means. */
  function Percent(sel: seq<Json>): (x: Num)
    ensures |sel| == 0 ==> x == Fin(0.0)
    ensures |sel| > 0 && SumMeans(sel).NaN? ==> x == NaN
    ensures |sel| > 0 && SumMeans(sel).Fin? ==>
      var avg := SumMeans(sel).r / |sel| as real * 100.0;
      x.Fin? && x.r == x.r.Floor as real && avg - 0.5 < x.r <= avg + 0.5
  {
    if |sel| == 0 then Fin(0.0)
    else
      match SumMeans(sel)
      case NaN => NaN
      case Fin(s) => Fin(Round(s / |sel| as real * 100.0) as real)
  }

  /** A share of at most one whole. */
  lemma UnitRatio(s: real, m: real)
    requires 0.0 < m && 0.0 <= s <= m
    ensures 0.0 <= s / m * 100.0 <= 100.0
  {
    assert s / m <= 1.0 by {
      assert s / m * m == s;
    }
  }

  /** Proportions average to a percentage: a score between 0 and 100. */
  lemma PercentOfProportions(sel: seq<Json>)
    requires forall i :: 0 <= i < |sel| ==> ProportionMean(sel[i])
    ensures Percent(sel).Fin? && 0.0 <= Percent(sel).r <= 100.0
  {
    if |sel| > 0 {
      SumMeansBounded(sel);
      var avg := SumMeans(sel).r / |sel| as real * 100.0;
      UnitRatio(SumMeans(sel).r, |sel| as real);
      NearestInRange(Percent(sel).r, avg);
    }
  }

  /** An integer within half a point of a percentage is itself one. */
  lemma NearestInRange(x: real, a: real)
    requires x == x.Floor as real && 0.0 <= a <= 100.0 && a - 0.5 < x <= a + 0.5
    ensures 0.0 <= x <= 100.0
  {
    var k := x.Floor;
    assert -1 < k < 101;
  }

  datatype Accuracy = Accuracy(precision: Num, recall: Num, f1Score: Num)

  const PrecisionPrefix: string := "precision_class_"
  const RecallPrefix: string := "recall_class_"
  const F1Prefix: string := "f1_class_"

  /** `avg(prefix)`: the filter throws on an unreadable row whatever the
      prefix; otherwise the selected rows are averaged. */
  function Average(rows: seq<Json>, prefix: string): (r: Result<Num>)
    ensures r.Err? <==> HasUnreadable(rows)
    ensures r.Ok? ==> r.value == Percent(Selected(rows, prefix).value)
    ensures r.Ok? && (forall x :: x in rows ==> !Matches(x, prefix)) ==> r.value == Fin(0.0)
  {
    match Selected(rows, prefix)
    case Err(e) => Err(e)
    case Ok(sel) =>
      assert |sel| > 0 ==> sel[0] in sel;
      Ok(Percent(sel))
  }

  /** `calculateModelAccuracy` and `calcAccuracy`: the precision, recall and
      F1 scores averaged over the per-class rows of each metric. */
  function ModelAccuracy(rows: seq<Json>): (r: Result<Accuracy>)
    ensures r.Err? <==> HasUnreadable(rows)
    ensures r.Err? ==> r.error == TypeError
    ensures r.Ok? ==>
      r.value.precision == Percent(Selected(rows, PrecisionPrefix).value)
      && r.value.recall == Percent(Selected(rows, RecallPrefix).value)
      && r.value.f1Score == Percent(Selected(rows, F1Prefix).value)
    ensures r.Ok? && |rows| == 0 ==> r.value == Accuracy(Fin(0.0), Fin(0.0), Fin(0.0))
  {
    match (Average(rows, PrecisionPrefix), Average(rows, RecallPrefix), Average(rows, F1Prefix))
    case (Ok(p), Ok(rc), Ok(f)) => Ok(Accuracy(p, rc, f))
    case _ => Err(TypeError)
  }

  /** With every mean a proportion, each score is a percentage between 0 and 100. */
  lemma AccuracyIsPercentage(rows: seq<Json>)
    requires !HasUnreadable(rows)
    requires forall i :: 0 <= i < |rows| ==> ProportionMean(rows[i])
    ensures var a := ModelAccuracy(rows).value;
            a.precision.Fin? && 0.0 <= a.precision.r <= 100.0
            && a.recall.Fin? && 0.0 <= a.recall.r <= 100.0
            && a.f1Score.Fin? && 0.0 <= a.f1Score.r <= 100.0
  {
    SelectedProportions(rows, PrecisionPrefix);
    SelectedProportions(rows, RecallPrefix);
    SelectedProportions(rows, F1Prefix);
  }

  lemma SelectedProportions(rows: seq<Json>, prefix: string)
    requires !HasUnreadable(rows)
    requires forall i :: 0 <= i < |rows| ==> ProportionMean(rows[i])
    ensures Percent(Selected(rows, prefix).value).Fin?
    ensures 0.0 <= Percent(Selected(rows, prefix).value).r <= 100.0
  {
    var sel := Selected(rows, prefix).value;
    forall i | 0 <= i < |sel| ensures ProportionMean(sel[i]) {
      assert sel[i] in sel;
    }
    PercentOfProportions(sel);
  }
}

=== FILE: calendar.dfy ===
/** The proleptic Gregorian calendar on UTC day numbers (day 0 is
    1970-01-01), the Monday-start weeks of ISO 8601:2004 section 4.1.4, and
    the calendar-date keys of ISO 8601:2004 section 4.1.2.2 the charts use. */
module Calendar {
  import opened Base
  import opened Strings

  /** A JavaScript time value counts milliseconds; a day has 86 400 000 of them. */
  const MsPerDay: int := 86_400_000

  /** The UTC day number of a time value (floor division, also before 1970). */
  function DayOf(t: int): (day: int)
    ensures day * MsPerDay <= t < day * MsPerDay + MsPerDay
  {
    t / MsPerDay
  }

  /** `getUTCDay()`: 0 is Sunday, 1 Monday, ... 6 Saturday; 1970-01-01 was a Thursday. */
  function Weekday(day: int): (w: int)
    ensures 0 <= w < 7
  {
    (day + 4) % 7
  }

  lemma WeekdayShift(day: int, k: int)
    ensures Weekday(day + 7 * k) == Weekday(day)
  {
  }

  lemma WeekdayStep(day: int, k: int)
    requires 0 <= k < 7
    ensures Weekday(day + k) == (Weekday(day) + k) % 7
  {
  }

  /** The Monday on or before a day, as the weekly stacked chart computes it
      (`getISOWeekStart`): step back to Monday, six days for a Sunday. */
  function IsoWeekStart(day: int): (monday: int)
    ensures Weekday(monday) == 1
    ensures day - 6 <= monday <= day
    ensures Weekday(day) == 1 ==> monday == day
    ensures Weekday(day) == 0 ==> monday == day - 6
  {
    var wd := Weekday(day);
    day - wd + (if wd == 0 then -6 else 1)
  }

  /** The Monday on or before a day, as the events timeline computes it
      (`getWeekStart`): go back `(weekday + 6) % 7` days. */
  function WeekStart(day: int): (monday: int)
    ensures Weekday(monday) == 1
    ensures day - 6 <= monday <= day
  {
    day - (Weekday(day) + 6) % 7
  }

  /** There is exactly one Monday in the seven days ending on `day`, so the
      two week-start rules agree and a day belongs to the week of Monday `m`
      exactly when it lies in `[m, m + 7)`. */
  lemma {:induction false} MondayUnique(day: int, m: int)
    requires Weekday(m) == 1
    ensures IsoWeekStart(day) == m <==> m <= day < m + 7
    ensures WeekStart(day) == IsoWeekStart(day)
  {
    var a := IsoWeekStart(day);
    if m <= day < m + 7 && a != m {
      if a < m {
        WeekdayStep(a, m - a);
      } else {
        WeekdayStep(m, a - m);
      }
    }
    var b := WeekStart(day);
    if a < b {
      WeekdayStep(a, b - a);
    } else if b < a {
      WeekdayStep(b, a - b);
    }
  }

  /** A calendar date. */
  datatype Civil = Civil(year: int, month: int, day: int)

  /** The date of a day number. Days are counted from 0000-03-01 so that
      the leap day ends the internal year; a 400-year era has 146 097 days,
      a century 36 524, a four-year cycle 1 461. */
  function CivilFromDays(z: int): (c: Civil)
    ensures 1 <= c.month <= 12
    ensures 1 <= c.day <= 31
  {
    var z1 := z + 719468;
    var era := z1 / 146097;
    var doe := z1 % 146097;
    var century := if doe / 36524 < 4 then doe / 36524 else 3;
    var inCentury := doe - 36524 * century;
    var quad := inCentury / 1461;
    var inQuad := inCentury % 1461;
    var yy := if inQuad / 365 < 4 then inQuad / 365 else 3;
    var doy := inQuad - 365 * yy;
    var yoe := 100 * century + 4 * quad + yy;
    var m := MonthOfYearDay(doy);
    Civil(era * 400 + yoe + (if m <= 2 then 1 else 0), m, DayOfYearDay(doy))
  }

  /** The epoch, 1970-01-01, is day 0. */
  lemma EpochAnchor()
    ensures CivilFromDays(0) == Civil(1970, 1, 1)
  {
    assert MonthOfYearDay(306) == 1 && DayOfYearDay(306) == 1;
  }

  /** 2000-02-29 is day 11 016 and 2000-03-01 the day after it. */
  lemma LeapDayAnchor()
    ensures CivilFromDays(11016) == Civil(2000, 2, 29)
    ensures CivilFromDays(11017) == Civil(2000, 3, 1)
  {
    LeapDay();
    DayAfterLeapDay();
  }

  lemma LeapDay()
    ensures CivilFromDays(11016) == Civil(2000, 2, 29)
  {
    assert 730484 / 146097 == 4 && 730484 % 146097 == 146096;
    assert 36524 / 1461 == 24 && 36524 % 1461 == 1460;
    assert MonthOfYearDay(365) == 2 && DayOfYearDay(365) == 29;
  }

  lemma DayAfterLeapDay()
    ensures CivilFromDays(11017) == Civil(2000, 3, 1)
  {
    assert 730485 / 146097 == 5 && 730485 % 146097 == 0;
    assert MonthOfYearDay(0) == 3 && DayOfYearDay(0) == 1;
  }

  /** Month (1..12) of day `doy` of a March-based year (`0` is March 1st). */
  function MonthOfYearDay(doy: int): (m: int)
    requires 0 <= doy <= 365
    ensures 1 <= m <= 12
  {
    var mp := (5 * doy + 2) / 153;
    if mp < 10 then mp + 3 else mp - 9
  }

  /** Day of the month (1..31) of day `doy` of a March-based year. */
  function DayOfYearDay(doy: int): (d: int)
    requires 0 <= doy <= 365
    ensures 1 <= d <= 31
  {
    var mp := (5 * doy + 2) / 153;
    assert 153 * mp <= 5 * doy + 2 < 153 * mp + 153;
    doy - (153 * mp + 2) / 5 + 1
  }

  /** A month or day of the month as two digits (`String(n).padStart(2, '0')`). */
  function Pad2(n: nat): (r: string)
    requires n < 100
    ensures |r| == 2
    ensures forall i :: 0 <= i < 2 ==> '0' <= r[i] <= '9'
  {
    PadStart(NatToString(n), 2, '0')
  }

  /** The year field of `toISOString()`: four digits for years 0..9999, a
      sign and six digits otherwise. */
  function IsoYear(y: int): (r: string)
    ensures 0 <= y <= 9999 ==> |r| == 4
  {
    if 0 <= y <= 9999 then PadStart(NatToString(y), 4, '0')
    else (if y < 0 then "-" else "+") + PadStart(NatToString(if y < 0 then -y else y), 6, '0')
  }

  /** `d.toISOString().slice(0, 10)`: `YYYY-MM-DD` of the UTC date. */
  function IsoDate(day: int): (r: string)
    ensures |r| <= 10
    ensures 0 <= CivilFromDays(day).year <= 9999 ==> |r| == 10 && r[4] == '-' && r[7] == '-'
  {
    IsoDateOf(CivilFromDays(day))
  }

  /** The UTC date `YYYY-MM-DD` of every time value, in order: the day key
      both events services count videos under. */
  function DayKeys(ts: seq<int>): (ks: seq<string>)
    ensures |ks| == |ts|
    ensures forall i :: 0 <= i < |ts| ==> ks[i] == IsoDate(DayOf(ts[i]))
  {
    seq(|ts|, i requires 0 <= i < |ts| => IsoDate(DayOf(ts[i])))
  }

  /** The `YYYY-MM-DD` text of a date. */
  function IsoDateOf(c: Civil): (r: string)
    requires 1 <= c.month <= 12 && 1 <= c.day <= 31
    ensures |r| <= 10
    ensures 0 <= c.year <= 9999 ==> |r| == 10 && r[4] == '-' && r[7] == '-'
  {
    var full := IsoYear(c.year) + "-" + Pad2(c.month) + "-" + Pad2(c.day);
    DashesAt(IsoYear(c.year), Pad2(c.month), Pad2(c.day));
    if |full| <= 10 then full else full[..10]
  }

  /** Where the dashes of `y-mm-dd` sit. */
  lemma DashesAt(y: string, mm: string, dd: string)
    requires |mm| == 2 && |dd| == 2
    ensures |y + "-" + mm + "-" + dd| == |y| + 6
    ensures |y| == 4 ==> (y + "-" + mm + "-" + dd)[4] == '-' && (y + "-" + mm + "-" + dd)[7] == '-'
  {
  }

  /** `${y}-${mm}-${dd}` with the year unpadded, as the timeline's `formatDateISO`:
      the ISO date for a four-digit year; its month key and month-start key
      are its prefixes. */
  function PlainDate(day: int): (r: string)
    ensures |r| >= 6 && r[|r| - 3] == '-'
    ensures EndsWith(r, Pad2(CivilFromDays(day).day))
    ensures r[..|r| - 3] == YearMonthKey(day)
    ensures MonthStartKey(day) == r[..|r| - 2] + "01"
    ensures 1000 <= CivilFromDays(day).year <= 9999 ==> r == IsoDate(day)
  {
    var ym := YearMonthKey(day);
    var dd := Pad2(CivilFromDays(day).day);
    DateJoin(ym, dd);
    IsoDateParts(day);
    ym + "-" + dd
  }

  /** Where the parts of `ym-dd` sit. */
  lemma DateJoin(ym: string, dd: string)
    requires |ym| >= 4 && |dd| == 2
    ensures var r := ym + "-" + dd;
      |r| >= 6 && r[|r| - 3] == '-' && EndsWith(r, dd)
      && r[..|r| - 3] == ym && r[..|r| - 2] + "01" == ym + "-01"
  {
    var r := ym + "-" + dd;
    assert r[..|r| - 3] == ym;
    assert r[|r| - 2..] == dd;
    assert r[..|r| - 2] == ym + "-";
  }

  /** `${y}-${mm}-01`, as the timeline's `formatMonthKey`: every day of a
      month gets the key of its first day. */
  function MonthStartKey(day: int): (r: string)
    ensures EndsWith(r, "-01")
    ensures r == YearMonthKey(day) + "-01"
  {
    var c := CivilFromDays(day);
    IntToString(c.year) + "-" + Pad2(c.month) + "-01"
  }

  /** `${y}-${mm}`, the month key of the events overview: the year key, a
      dash and the two-digit month; for a four-digit year, the first seven
      characters of the ISO date. */
  function YearMonthKey(day: int): (r: string)
    ensures |r| >= 4
    ensures r[|r| - 3] == '-'
    ensures '0' <= r[|r| - 2] <= '9' && '0' <= r[|r| - 1] <= '9'
    ensures r == YearKey(day) + "-" + Pad2(CivilFromDays(day).month)
    ensures 1000 <= CivilFromDays(day).year <= 9999 ==> |IsoDate(day)| == 10 && r == IsoDate(day)[..7]
  {
    var c := CivilFromDays(day);
    IsoDateParts(day);
    IntToString(c.year) + "-" + Pad2(c.month)
  }

  /** `String(getFullYear())`, the year key: the year of the month key and,
      for a four-digit year, the first four characters of the ISO date. */
  function YearKey(day: int): (r: string)
    ensures |r| >= 1
    ensures CivilFromDays(day).year >= 0 ==> forall i :: 0 <= i < |r| ==> '0' <= r[i] <= '9'
    ensures 1000 <= CivilFromDays(day).year <= 9999 ==> |IsoDate(day)| == 10 && r == IsoDate(day)[..4]
  {
    IsoDateParts(day);
    IntToString(CivilFromDays(day).year)
  }

  /** A year of four digits is written alike by `String` and by `toISOString`. */
  lemma FourDigitYear(y: int)
    ensures 1000 <= y <= 9999 ==> IntToString(y) == IsoYear(y)
  {
    if 1000 <= y <= 9999 {
      NatToStringLong(y);
    }
  }

  /** For a four-digit year the ISO date is `y-mm-dd` with the year as
      `String` writes it, so its first four and seven characters are the
      year and the month key. */
  lemma IsoDateParts(day: int)
    ensures var c := CivilFromDays(day);
      1000 <= c.year <= 9999 ==>
        var ym := IntToString(c.year) + "-" + Pad2(c.month);
        IsoDate(day) == ym + "-" + Pad2(c.day)
        && |IsoDate(day)| == 10 && IsoDate(day)[..7] == ym && IsoDate(day)[..4] == IntToString(c.year)
  {
    var c := CivilFromDays(day);
    if 1000 <= c.year <= 9999 {
      FourDigitYear(c.year);
      var ym := IntToString(c.year) + "-" + Pad2(c.month);
      var full := IsoYear(c.year) + "-" + Pad2(c.month) + "-" + Pad2(c.day);
      assert full == ym + "-" + Pad2(c.day);
      assert |full| == 10;
      assert IsoDate(day) == full;
      assert full[..7] == ym;
      assert ym[..4] == IntToString(c.year);
    }
  }

  lemma {:induction false} NatToStringLong(n: nat)
    requires n >= 1000
    ensures |NatToString(n)| >= 4
  {
    var a := n / 10;
    var b := a / 10;
    assert |NatToString(n)| == |NatToString(a)| + 1;
    assert |NatToString(a)| == |NatToString(b)| + 1;
    assert |NatToString(b)| == |NatToString(b / 10)| + 1;
  }

  /** A month key determines its year key: videos counted in one month are
      counted in one year. */
  lemma MonthKeyDeterminesYear(d1: int, d2: int)
    requires YearMonthKey(d1) == YearMonthKey(d2)
    ensures YearKey(d1) == YearKey(d2)
  {
    var c1, c2 := CivilFromDays(d1), CivilFromDays(d2);
    YearBeforeMonth(IntToString(c1.year), Pad2(c1.month));
    YearBeforeMonth(IntToString(c2.year), Pad2(c2.month));
  }

  /** The year of `y-mm` is all but its last three characters. */
  lemma YearBeforeMonth(y: string, mm: string)
    requires |mm| == 2
    ensures |y + "-" + mm| == |y| + 3 && (y + "-" + mm)[..|y|] == y
  {
  }

  /** The smallest value (`Math.min(...xs)`, or the running `<` minimum). */
  function MinOf(xs: seq<int>): (m: Option<int>)
    ensures m.None? <==> |xs| == 0
    ensures m.Some? ==> m.value in xs
    ensures m.Some? ==> forall i :: 0 <= i < |xs| ==> m.value <= xs[i]
  {
    if |xs| == 0 then None
    else
      var rest := MinOf(xs[1..]);
      TailIndex(xs);
      if rest.None? || xs[0] <= rest.value then Some(xs[0]) else rest
  }

  /** The largest value (`Math.max(...xs)`, or the running `>` maximum). */
  function MaxOf(xs: seq<int>): (m: Option<int>)
    ensures m.None? <==> |xs| == 0
    ensures m.Some? ==> m.value in xs
    ensures m.Some? ==> forall i :: 0 <= i < |xs| ==> xs[i] <= m.value
  {
    if |xs| == 0 then None
    else
      var rest := MaxOf(xs[1..]);
      TailIndex(xs);
      if rest.None? || xs[0] >= rest.value then Some(xs[0]) else rest
  }

  /** The smallest value never exceeds the largest. */
  lemma MinNotAboveMax(xs: seq<int>)
    requires |xs| > 0
    ensures MinOf(xs).value <= MaxOf(xs).value
  {
    var i :| 0 <= i < |xs| && xs[i] == MaxOf(xs).value;
  }

  /** The placeholder shown for an empty period. */
  const NoPeriod: string := "\U{2014}"

  /** `first - last` (joined by an en dash) as ISO dates of the earliest and latest instants, or
      the em dash when there are none. */
  function DaySpan(times: seq<int>): (p: string)
    ensures p == NoPeriod <==> |times| == 0
    ensures |times| > 0 ==>
      p == IsoDate(DayOf(MinOf(times).value)) + " \U{2013} " + IsoDate(DayOf(MaxOf(times).value))
  {
    var lo := MinOf(times);
    var hi := MaxOf(times);
    if lo.Some? && hi.Some? then
      var p := IsoDate(DayOf(lo.value)) + " \U{2013} " + IsoDate(DayOf(hi.value));
      assert |p| >= 3;
      p
    else NoPeriod
  }
}

=== FILE: dataset_index.dfy ===
/** A dataset index file (`datasets.json`): a JSON object from dataset ids
    to their configuration, kept as the entry list `Object.entries` yields. */
module DatasetIndex {
  import opened Base
  import opened Js

  type Index = seq<(string, Json)>

  /** `all[id]`: the configuration of an id, `None` when it is not listed. */
  function Lookup(ix: Index, id: string): (r: Option<Json>)
    ensures r.Some? ==> (id, r.value) in ix
    ensures r.None? <==> forall i :: 0 <= i < |ix| ==> ix[i].0 != id
  {
    if |ix| == 0 then None
    else if ix[0].0 == id then Some(ix[0].1)
    else
      var r := Lookup(ix[1..], id);
      TailIndex(ix);
      r
  }

  /** `Object.values(all)`. */
  function Configs(ix: Index): (cs: seq<Json>)
    ensures |cs| == |ix|
    ensures forall i :: 0 <= i < |ix| ==> cs[i] == ix[i].1
  {
    seq(|ix|, i requires 0 <= i < |ix| => ix[i].1)
  }

  /** `data ?? {}` for an index that parsed to `null`. */
  function OrEmpty(ix: Option<Index>): (r: Index)
    ensures ix.None? ==> r == []
    ensures ix.Some? ==> r == ix.value
  {
    if ix.Some? then ix.value else []
  }
}

=== FILE: dataset_lists.dfy ===
/** The two list pages of the real scenario: the events list shows the
    index entries that merge every file, the stance list shows every index
    entry under its title. Both `apply` steps end the loading state. */
module DatasetLists {
  import opened Base
  import opened Js
  import opened DatasetIndex
  import EventsReal

  /** The loading flags a list page shows. */
  datatype ListStatus = ListStatus(isLoading: bool, timedOut: bool, error: string)

  /** Loaded: not loading, not timed out, no error message. */
  const Settled: ListStatus := ListStatus(false, false, "")

  /** The id of the events entry that is listed whatever its file. */
  const AllEventsId: string := "brasil_all"

  // ---------------------------------------------------------------------
  // Events list

  datatype EventEntry = EventEntry(id: string, caption: Option<Json>, description: Option<Json>)

  /** The filter of the events list: a truthy configuration whose file is
      `__ALL__`, or the `brasil_all` id. */
  predicate Listed(e: (string, Json)) {
    Truthy(Some(e.1))
    && (Prop(Some(e.1), "file") == Some(JStr(EventsReal.AllMarker)) || e.0 == AllEventsId)
  }

  /** `{ id, label: cfg.label, description: cfg.description }`; the label is
      kept as `caption`. */
  function EntryOf(e: (string, Json)): EventEntry {
    EventEntry(e.0, Prop(Some(e.1), "label"), Prop(Some(e.1), "description"))
  }

  /** The filter and the mapping of the events list over the index entries. */
  function EventEntries(ix: Index): (r: seq<EventEntry>)
    ensures |r| <= |ix|
    ensures forall x :: x in r ==> exists i :: 0 <= i < |ix| && Listed(ix[i]) && x == EntryOf(ix[i])
    ensures forall i :: 0 <= i < |ix| && Listed(ix[i]) ==> EntryOf(ix[i]) in r
  {
    if |ix| == 0 then []
    else
      var tl := ix[1..];
      var rest := EventEntries(tl);
      TailIndex(ix);
      ListedShift(ix, tl, rest);
      if Listed(ix[0]) then [EntryOf(ix[0])] + rest else rest
  }

  /** An entry drawn from the tail of the index is drawn from the index. */
  lemma ListedShift(ix: Index, tl: Index, rest: seq<EventEntry>)
    requires |ix| > 0 && tl == ix[1..]
    requires forall x :: x in rest ==> exists i :: 0 <= i < |tl| && Listed(tl[i]) && x == EntryOf(tl[i])
    ensures forall x :: x in rest ==> exists i :: 0 <= i < |ix| && Listed(ix[i]) && x == EntryOf(ix[i])
  {
    forall x | x in rest
      ensures exists i :: 0 <= i < |ix| && Listed(ix[i]) && x == EntryOf(ix[i])
    {
      var i :| 0 <= i < |tl| && Listed(tl[i]) && x == EntryOf(tl[i]);
      assert ix[i + 1] == tl[i];
    }
  }

  /** Listing keeps index order: the list of a concatenation is the
      concatenation of the lists. */
  lemma {:induction false} EventEntriesAppend(a: Index, b: Index)
    ensures EventEntries(a + b) == EventEntries(a) + EventEntries(b)
  {
    if |a| == 0 {
      assert a + b == b;
    } else {
      assert (a + b)[1..] == a[1..] + b;
      EventEntriesAppend(a[1..], b);
    }
  }

  /** An entry on its own is listed exactly when the filter takes it. */
  lemma EventEntriesSingle(e: (string, Json))
    ensures EventEntries([e]) == if Listed(e) then [EntryOf(e)] else []
  {
  }

  /** The `brasil_all` entry is listed whenever its configuration is truthy. */
  lemma AllEventsListed(ix: Index, i: int)
    requires 0 <= i < |ix| && ix[i].0 == AllEventsId && Truthy(Some(ix[i].1))
    ensures EntryOf(ix[i]) in EventEntries(ix)
  {
  }

  datatype EventsListPage = EventsListPage(datasets: seq<EventEntry>, status: ListStatus)

  /** `apply` of the events list; a `null` index lists nothing. */
  function ApplyEvents(all: Option<Index>): (r: EventsListPage)
    ensures r.status == Settled
    ensures all.None? ==> r.datasets == []
    ensures all.Some? ==> r.datasets == EventEntries(all.value)
  {
    EventsListPage(EventEntries(OrEmpty(all)), Settled)
  }

  // ---------------------------------------------------------------------
  // Stance list

  datatype TitledEntry = TitledEntry(id: string, title: Json)

  /** `cfg.title || id`; reading the title of a `null` configuration throws. */
  function TitleOf(e: (string, Json)): (r: Result<Json>)
    ensures r.Err? <==> e.1 == JNull
    ensures r.Err? ==> r.error == TypeError
    ensures r.Ok? && Truthy(Prop(Some(e.1), "title")) ==> Some(r.value) == Prop(Some(e.1), "title")
    ensures r.Ok? && !Truthy(Prop(Some(e.1), "title")) ==> r.value == JStr(e.0)
  {
    if e.1 == JNull then Err(TypeError)
    else Ok(Or(Prop(Some(e.1), "title"), Some(JStr(e.0))).value)
  }

  predicate HasNullConfig(ix: Index) {
    exists i :: 0 <= i < |ix| && ix[i].1 == JNull
  }

  /** The mapping of the stance list: one entry per index entry, in order. */
  function TitledEntries(ix: Index): (r: Result<seq<TitledEntry>>)
    ensures r.Err? <==> HasNullConfig(ix)
    ensures r.Err? ==> r.error == TypeError
    ensures r.Ok? ==> |r.value| == |ix|
    ensures r.Ok? ==> forall i :: 0 <= i < |ix| ==>
      r.value[i].id == ix[i].0 && Ok(r.value[i].title) == TitleOf(ix[i])
  {
    if |ix| == 0 then Ok([])
    else
      var rest := TitledEntries(ix[1..]);
      TailIndex(ix);
      assert HasNullConfig(ix) <==> ix[0].1 == JNull || HasNullConfig(ix[1..]) by {
        if HasNullConfig(ix) && ix[0].1 != JNull {
          var i :| 0 <= i < |ix| && ix[i].1 == JNull;
          assert ix[1..][i - 1].1 == JNull;
        }
      }
      match TitleOf(ix[0])
      case Err(e) => Err(e)
      case Ok(title) =>
        if rest.Err? then rest
        else Ok([TitledEntry(ix[0].0, title)] + rest.value)
  }

  /** A listed entry with a non-empty id always shows a truthy title. */
  lemma TitlesShowSomething(ix: Index)
    requires !HasNullConfig(ix)
    requires forall i :: 0 <= i < |ix| ==> ix[i].0 != ""
    ensures forall i :: 0 <= i < |ix| ==> Truthy(Some(TitledEntries(ix).value[i].title))
  {
  }

  datatype StanceListPage = StanceListPage(datasets: seq<TitledEntry>, status: ListStatus)

  /** `apply` of the stance list; a `null` index lists nothing, and a `null`
      configuration throws before anything is assigned. */
  function ApplyStance(all: Option<Index>): (r: Result<StanceListPage>)
    ensures r.Err? <==> all.Some? && HasNullConfig(all.value)
    ensures r.Ok? ==> r.value.status == Settled
    ensures all.None? ==> r == Ok(StanceListPage([], Settled))
    ensures r.Ok? && all.Some? ==>
      |r.value.datasets| == |all.value|
      && forall i :: 0 <= i < |all.value| ==>
           r.value.datasets[i].id == all.value[i].0 && Ok(r.value.datasets[i].title) == TitleOf(all.value[i])
  {
    match TitledEntries(OrEmpty(all))
    case Err(e) => Err(e)
    case Ok(entries) => Ok(StanceListPage(entries, Settled))
  }
}

=== FILE: evaluation_page.dfy ===
/** The stance page of the evaluation scenario: the training statistics
    (total, label counts, period), the bootstrap rows with the accuracy
    scores drawn from them, and the two flags that decide which cards the
    page shows. */
module EvaluationPage {
  import opened Base
  import opened Js
  import opened BootstrapRows
  import Calendar

  /** The `dataset` signal: each field as read from the statistics. */
  datatype TrainingStats = TrainingStats(total: Json, neg: Json, neu: Json, pos: Json, period: Json)

  datatype EvalState = EvalState(
    dataset: TrainingStats,
    bootstrap: seq<Json>,
    accuracy: Accuracy,
    hasLabelData: bool,
    hasBootstrapData: bool)

  const Zero: Json := JNum(Decimal(0, 0))

  /** The state before any statistics arrive. */
  const Initial: EvalState :=
    EvalState(TrainingStats(Zero, Zero, Zero, Zero, JStr(Calendar.NoPeriod)), [],
              Accuracy(Fin(0.0), Fin(0.0), Fin(0.0)), false, false)

  /** `labels?.[k]` for the keys `'-1'`, `'0'` and `'1'`: an object answers
      with its field; an array or a string answers `'0'` and `'1'` with its
      first and second element or character; anything else answers
      `undefined`. */
  function LabelAt(labels: Option<Json>, k: string): (r: Option<Json>)
    ensures labels.Some? && labels.value.JObj? ==> r == Get(labels.value.fields, k)
    ensures labels.None? || labels == Some(JNull) ==> r.None?
  {
    match labels
    case Some(JObj(o)) => Get(o, k)
    case Some(JArr(items)) =>
      if k == "0" && |items| > 0 then Some(items[0])
      else if k == "1" && |items| > 1 then Some(items[1])
      else None
    case Some(JStr(s)) =>
      if k == "0" && |s| > 0 then Some(JStr([s[0]]))
      else if k == "1" && |s| > 1 then Some(JStr([s[1]]))
      else None
    case _ => None
  }

  /** `(neg + neu + pos) > 0` on numeric counts; a count of another kind
      reads as NaN and the comparison fails. */
  predicate Positive(neg: Json, neu: Json, pos: Json) {
    Fin(0.0).Below(ToNumber(Some(neg)).Plus(ToNumber(Some(neu))).Plus(ToNumber(Some(pos))))
  }

  /** `applyData`: nothing happens without statistics; otherwise every
      missing field takes its default (0, or the em dash for the period), the
      bootstrap rows are the array found under `bootstrap` (or none), the
      accuracy is drawn from them, and the flags say whether there are
      labels and rows to show. An unreadable bootstrap row throws. */
  function ApplyData(s: EvalState, train: Option<Json>): (r: Result<EvalState>)
    ensures !Truthy(train) ==> r == Ok(s)
    ensures Truthy(train) ==> (r.Err? <==> HasUnreadable(ArrayItems(Prop(train, "bootstrap"))))
    ensures r.Err? ==> r.error == TypeError
    ensures Truthy(train) && r.Ok? ==>
      var t := r.value;
      var d := t.dataset;
      (Nullish(Prop(train, "total")) ==> d.total == Zero)
      && (!Nullish(Prop(train, "total")) ==> Some(d.total) == Prop(train, "total"))
      && (Nullish(Prop(train, "period")) ==> d.period == JStr(Calendar.NoPeriod))
      && (!Nullish(Prop(train, "period")) ==> Some(d.period) == Prop(train, "period"))
      && (Nullish(Prop(train, "labels")) ==> d.neg == Zero && d.neu == Zero && d.pos == Zero)
    ensures Truthy(train) && r.Ok? ==>
      var d := r.value.dataset;
      var labels := Prop(train, "labels");
      (Nullish(LabelAt(labels, "-1")) ==> d.neg == Zero)
      && (!Nullish(LabelAt(labels, "-1")) ==> Some(d.neg) == LabelAt(labels, "-1"))
      && (Nullish(LabelAt(labels, "0")) ==> d.neu == Zero)
      && (!Nullish(LabelAt(labels, "0")) ==> Some(d.neu) == LabelAt(labels, "0"))
      && (Nullish(LabelAt(labels, "1")) ==> d.pos == Zero)
      && (!Nullish(LabelAt(labels, "1")) ==> Some(d.pos) == LabelAt(labels, "1"))
    ensures Truthy(train) && r.Ok? ==>
      var t := r.value;
      t.bootstrap == ArrayItems(Prop(train, "bootstrap"))
      && t.accuracy == ModelAccuracy(t.bootstrap).value
      && (t.hasBootstrapData <==> |t.bootstrap| > 0)
      && (t.hasLabelData <==> Positive(t.dataset.neg, t.dataset.neu, t.dataset.pos))
  {
    if !Truthy(train) then Ok(s)
    else
      var labels := Prop(train, "labels");
      var dataset := TrainingStats(
        Default(Prop(train, "total"), Zero),
        Default(LabelAt(labels, "-1"), Zero),
        Default(LabelAt(labels, "0"), Zero),
        Default(LabelAt(labels, "1"), Zero),
        Default(Prop(train, "period"), JStr(Calendar.NoPeriod)));
      var bootstrap := ArrayItems(Prop(train, "bootstrap"));
      match ModelAccuracy(bootstrap)
      case Err(e) => Err(e)
      case Ok(accuracy) =>
        Ok(EvalState(dataset, bootstrap, accuracy,
                     Positive(dataset.neg, dataset.neu, dataset.pos), |bootstrap| > 0))
  }

  /** Label counts that are numbers show the label card exactly when they
      add up to more than zero. */
  lemma LabelCardShown(neg: Decimal, neu: Decimal, pos: Decimal)
    ensures Positive(JNum(neg), JNum(neu), JNum(pos)) <==>
            DecimalValue(neg) + DecimalValue(neu) + DecimalValue(pos) > 0.0
  {
  }

  /** Statistics without labels hide the label card. */
  lemma NoLabelsNoCard(s: EvalState, train: Option<Json>)
    requires Truthy(train) && Nullish(Prop(train, "labels"))
    requires ApplyData(s, train).Ok?
    ensures !ApplyData(s, train).value.hasLabelData
  {
    var d := ApplyData(s, train).value.dataset;
    assert d.neg == Zero && d.neu == Zero && d.pos == Zero;
    ZeroNotPositive();
  }

  lemma ZeroNotPositive()
    ensures !Positive(Zero, Zero, Zero)
  {
    assert DecimalValue(Decimal(0, 0)) == 0.0;
  }

  /** `groupedBootstrap()`: the groups of the rows the page holds. */
  function GroupedBootstrap(s: EvalState): (r: Result<seq<Group>>)
    ensures r.Err? <==> HasBadKey(s.bootstrap)
    ensures r.Ok? ==> r.value == Expected(s.bootstrap)
    ensures |s.bootstrap| == 0 ==> r == Ok([])
  {
    GroupBootstrap(Some(JArr(s.bootstrap)))
  }

  /** Once statistics have been applied, grouping the rows cannot throw:
      a key the grouping rejects would already have made the accuracy
      throw. */
  lemma AppliedRowsGroup(s: EvalState, train: Option<Json>)
    requires Truthy(train) && ApplyData(s, train).Ok?
    ensures GroupedBootstrap(ApplyData(s, train).value).Ok?
  {
  }

  /** The initial state shows no cards and scores zero. */
  lemma InitialShowsNothing()
    ensures !Initial.hasLabelData && !Initial.hasBootstrapData
    ensures GroupedBootstrap(Initial) == Ok([])
  {
  }
}

=== FILE: events.dfy ===
/** The events service of the collection scenario: listing every video of
    the two yearly files, the per-month and per-year counters, the figures of
    the evaluation overview and the per-operation views. */
module Events {
  import opened Base
  import opened Strings
  import opened Js
  import opened Series
  import opened Calendar

  // ---------------------------------------------------------------------
  // Listing

  /** A listed video: the record with `data_postagem` overwritten by the
      date field that was read (`{...v, data_postagem: dateStr, parsedDate}`)
      and the parsed date as a time value. */
  datatype Listed = Listed(fields: Obj, time: int)

  /** `v.data_postagem ?? v.date ?? v.day ?? null`. */
  function DateStr(v: Obj): (d: Json)
    ensures !Nullish(Get(v, "data_postagem")) ==> d == v["data_postagem"]
    ensures Nullish(Get(v, "data_postagem")) && !Nullish(Get(v, "date")) ==> d == v["date"]
    ensures Nullish(Get(v, "data_postagem")) && Nullish(Get(v, "date")) ==>
      d == Default(Get(v, "day"), JNull)
  {
    Default(Coalesce(Coalesce(Get(v, "data_postagem"), Get(v, "date")), Get(v, "day")), JNull)
  }

  /** The listed form of a record dated `t`. */
  function Stamp(o: Obj, t: int): Listed {
    Listed(o["data_postagem" := DateStr(o)], t)
  }

  /** The parsed date of an element when its date field is truthy and
      parses (`parse` stands for `new Date(x)` with the invalid dates as
      `None`); elements that are not objects have no date fields. */
  function ListedTime(item: Json, parse: Json -> Option<int>): Option<int> {
    match item
    case JObj(o) => if Truthy(Some(DateStr(o))) then parse(DateStr(o)) else None
    case _ => None
  }

  /** A listed video carries a truthy `data_postagem` that parses to its date. */
  predicate Dated(v: Listed, parse: Json -> Option<int>) {
    "data_postagem" in v.fields && Truthy(Some(v.fields["data_postagem"]))
    && parse(v.fields["data_postagem"]) == Some(v.time)
  }

  /** Number of elements with a valid date. */
  function NumListed(items: seq<Json>, parse: Json -> Option<int>): nat {
    if |items| == 0 then 0
    else (if ListedTime(items[0], parse).Some? then 1 else 0) + NumListed(items[1..], parse)
  }

  /** The normalise-then-filter step of `listAll`: reading a field of a
      `null` element throws; the other elements are kept exactly when they
      have a valid date. */
  function ListItems(items: seq<Json>, parse: Json -> Option<int>): (r: Result<seq<Listed>>)
    ensures r.Err? <==> HasNull(items)
    ensures r.Err? ==> r.error == TypeError
    ensures r.Ok? ==> |r.value| == NumListed(items, parse) <= |items|
    ensures r.Ok? ==> forall k :: 0 <= k < |r.value| ==> Dated(r.value[k], parse)
  {
    if |items| == 0 then Ok([])
    else
      var rest := ListItems(items[1..], parse);
      HasNullCons(items);
      if items[0] == JNull then Err(TypeError)
      else if rest.Err? then rest
      else
        match ListedTime(items[0], parse)
        case None => rest
        case Some(t) => Ok([Stamp(items[0].fields, t)] + rest.value)
  }

  /** Listing a concatenation lists the parts one after the other. */
  lemma {:induction false} ListItemsAppend(a: seq<Json>, b: seq<Json>, parse: Json -> Option<int>)
    ensures ListItems(a + b, parse) == Then(ListItems(a, parse), ListItems(b, parse))
  {
    if |a| == 0 {
      assert a + b == b;
      var rb := ListItems(b, parse);
      if rb.Ok? {
        assert [] + rb.value == rb.value;
      }
    } else {
      assert (a + b)[0] == a[0];
      assert (a + b)[1..] == a[1..] + b;
      ListItemsAppend(a[1..], b, parse);
      var ra := ListItems(a[1..], parse);
      var rb := ListItems(b, parse);
      if a[0] != JNull && ra.Ok? && rb.Ok? {
        match ListedTime(a[0], parse)
        case None =>
        case Some(t) =>
          var v := Stamp(a[0].fields, t);
          assert [v] + (ra.value + rb.value) == ([v] + ra.value) + rb.value;
      }
    }
  }

  /** A single element: `null` throws, a record with a valid date is kept
      stamped with that date, anything else is dropped. With
      `ListItemsAppend` this fixes the listing element by element, in order. */
  lemma ListItemsSingle(x: Json, parse: Json -> Option<int>)
    ensures x == JNull ==> ListItems([x], parse) == Err(TypeError)
    ensures x != JNull && ListedTime(x, parse).None? ==> ListItems([x], parse) == Ok([])
    ensures ListedTime(x, parse).Some? ==>
      ListItems([x], parse) == Ok([Stamp(x.fields, ListedTime(x, parse).value)])
  {
    assert [x][1..] == [];
    if x != JNull && ListedTime(x, parse).Some? {
      assert [Stamp(x.fields, ListedTime(x, parse).value)] + [] == [Stamp(x.fields, ListedTime(x, parse).value)];
    }
  }

  /** Reading the date of a listed record again reads the same value: the
      overwritten `data_postagem` holds the date that was found. */
  lemma DateStrStable(o: Obj)
    ensures DateStr(o["data_postagem" := DateStr(o)]) == DateStr(o)
  {
    var o' := o["data_postagem" := DateStr(o)];
    assert Get(o', "date") == Get(o, "date");
    assert Get(o', "day") == Get(o, "day");
  }

  /** Listing is idempotent on the kept records: a listed record, listed
      again, gets the same date. */
  lemma RelistingKeepsTime(o: Obj, parse: Json -> Option<int>)
    ensures ListedTime(JObj(Stamp(o, 0).fields), parse) == ListedTime(JObj(o), parse)
  {
    DateStrStable(o);
  }

  datatype Granularity = Month | Year

  /** `YYYY-MM` or `YYYY` of the UTC date. */
  function PeriodKey(g: Granularity, t: int): string {
    match g
    case Month => YearMonthKey(DayOf(t))
    case Year => YearKey(DayOf(t))
  }

  function PeriodKeys(videos: seq<Listed>, g: Granularity): (ks: seq<string>)
    ensures |ks| == |videos|
    ensures forall i :: 0 <= i < |videos| ==> ks[i] == PeriodKey(g, videos[i].time)
  {
    seq(|videos|, i requires 0 <= i < |videos| => PeriodKey(g, videos[i].time))
  }

  /** `aggregateByPeriod`: one entry per distinct period, in ascending
      order, each with its number of videos; the counts add up to the
      number of videos. */
  function AggregateByPeriod(videos: seq<Listed>, g: Granularity): (s: AlignedSeries)
    ensures StrictlySorted(s.labels)
    ensures forall k :: k in s.labels <==> k in PeriodKeys(videos, g)
    ensures forall i :: 0 <= i < |s.labels| ==> s.values[i] == Count(PeriodKeys(videos, g), s.labels[i]) > 0
    ensures Sum(s.values) == |videos|
  {
    TallyConserves(PeriodKeys(videos, g));
    Tally(PeriodKeys(videos, g))
  }

  datatype Listing = Listing(videos: seq<Listed>, metrics: seq<Json>,
                             byMonth: AlignedSeries, byYear: AlignedSeries)

  /** `listAll` on the contents of the three files (`None` for a failed
      request): the pre-2024 videos come before the 2024 ones, a content
      that is not an array contributes nothing, and only dated videos are
      kept. */
  function ListAll(metrics: Option<Json>, videos2024: Option<Json>, videosPre: Option<Json>,
                   parse: Json -> Option<int>): (r: Result<Listing>)
    ensures r.Err? <==> HasNull(ArrayItems(videosPre)) || HasNull(ArrayItems(videos2024))
    ensures r.Ok? ==>
      r.value.videos == ListItems(ArrayItems(videosPre), parse).value + ListItems(ArrayItems(videos2024), parse).value
    ensures r.Ok? ==> r.value.metrics == ArrayItems(metrics)
    ensures r.Ok? ==> Sum(r.value.byMonth.values) == |r.value.videos| == Sum(r.value.byYear.values)
    ensures r.Ok? ==> r.value.byMonth == AggregateByPeriod(r.value.videos, Month)
    ensures r.Ok? ==> r.value.byYear == AggregateByPeriod(r.value.videos, Year)
  {
    var raw := ArrayItems(videosPre) + ArrayItems(videos2024);
    ListItemsAppend(ArrayItems(videosPre), ArrayItems(videos2024), parse);
    HasNullAppend(ArrayItems(videosPre), ArrayItems(videos2024));
    match ListItems(raw, parse)
    case Err(e) => Err(e)
    case Ok(videos) =>
      Ok(Listing(videos, ArrayItems(metrics),
                 AggregateByPeriod(videos, Month), AggregateByPeriod(videos, Year)))
  }

  // ---------------------------------------------------------------------
  // Evaluation overview

  /** The distinct elements of a sequence. */
  function Elements(xs: seq<Option<Json>>): (s: set<Option<Json>>)
    ensures forall x :: x in s <==> x in xs
    ensures |s| <= |xs|
    ensures |xs| > 0 ==> |s| > 0
  {
    if |xs| == 0 then {}
    else
      var rest := Elements(xs[1..]);
      MemberCons(xs);
      assert xs[0] in {xs[0]} + rest;
      {xs[0]} + rest
  }

  /** `v.operation_id || v.operation || v.op` of every video. */
  function OpValues(videos: seq<Listed>): (ops: seq<Option<Json>>)
    ensures |ops| == |videos|
    ensures forall i :: 0 <= i < |videos| ==>
      ops[i] == Or(Or(Get(videos[i].fields, "operation_id"), Get(videos[i].fields, "operation")),
                   Get(videos[i].fields, "op"))
  {
    seq(|videos|, i requires 0 <= i < |videos| =>
      Or(Or(Get(videos[i].fields, "operation_id"), Get(videos[i].fields, "operation")),
         Get(videos[i].fields, "op")))
  }

  /** The UTC year of every video. */
  function Years(videos: seq<Listed>): (ys: seq<int>)
    ensures |ys| == |videos|
    ensures forall i :: 0 <= i < |videos| ==> ys[i] == CivilFromDays(DayOf(videos[i].time)).year
  {
    seq(|videos|, i requires 0 <= i < |videos| => CivilFromDays(DayOf(videos[i].time)).year)
  }

  /** `first-last` (joined by an en dash) of the years, or the em dash when there are none. */
  function YearSpan(ys: seq<int>): (p: string)
    ensures p == NoPeriod <==> |ys| == 0
    ensures |ys| > 0 ==> p == IntToString(MinOf(ys).value) + "\U{2013}" + IntToString(MaxOf(ys).value)
  {
    match (MinOf(ys), MaxOf(ys))
    case (Some(lo), Some(hi)) =>
      var p := IntToString(lo) + "\U{2013}" + IntToString(hi);
      assert |p| >= 3;
      p
    case _ => NoPeriod
  }

  /** One row of the performance table. */
  datatype Perf = Perf(title: Json, accuracy: Json, precision: Json, recall: Json, f1: Json)

  const DefaultTitle: string := "T\U{e9}cnica"
  const ZeroNum: Json := JNum(Decimal(0, 0))

  /** The names each column of `metrics_comparison.json` may go by, in the
      order they are tried. */
  const TitleKeys: seq<string> := ["tecnica", "label", "nome", "tech"]
  const AccuracyKeys: seq<string> := ["accuracy", "acuracia", "acu"]
  const PrecisionKeys: seq<string> := ["precision", "pre"]
  const RecallKeys: seq<string> := ["recall", "rev", "revocacao"]

  /** One row of `metrics_comparison.json` read through its aliases;
      reading a property of `null` throws. */
  function PerfOf(m: Json): (r: Result<Perf>)
    ensures r.Err? <==> m == JNull
    ensures r.Ok? && !Nullish(Prop(Some(m), "tecnica")) ==> Some(r.value.title) == Prop(Some(m), "tecnica")
    ensures (r.Ok? && Nullish(Prop(Some(m), "tecnica")) && Nullish(Prop(Some(m), "label"))
             && Nullish(Prop(Some(m), "nome")) && Nullish(Prop(Some(m), "tech"))) ==>
      r.value.title == JStr(DefaultTitle)
    ensures (r.Ok? && Nullish(Prop(Some(m), "accuracy")) && Nullish(Prop(Some(m), "acuracia"))
             && Nullish(Prop(Some(m), "acu"))) ==> r.value.accuracy == ZeroNum
    ensures r.Ok? && Nullish(Prop(Some(m), "precision")) && Nullish(Prop(Some(m), "pre")) ==>
      r.value.precision == ZeroNum
    ensures (r.Ok? && Nullish(Prop(Some(m), "recall")) && Nullish(Prop(Some(m), "rev"))
             && Nullish(Prop(Some(m), "revocacao"))) ==> r.value.recall == ZeroNum
    ensures r.Ok? && Nullish(Prop(Some(m), "f1")) ==> r.value.f1 == ZeroNum
    ensures r.Ok? ==> !Nullish(Some(r.value.title)) && !Nullish(Some(r.value.f1))
    ensures r.Ok? ==> r.value == Perf(FirstAlias(Some(m), TitleKeys, JStr(DefaultTitle)),
                                      FirstAlias(Some(m), AccuracyKeys, ZeroNum),
                                      FirstAlias(Some(m), PrecisionKeys, ZeroNum),
                                      FirstAlias(Some(m), RecallKeys, ZeroNum),
                                      FirstAlias(Some(m), ["f1"], ZeroNum))
  {
    if m == JNull then Err(TypeError)
    else
      var p := (k: string) => Prop(Some(m), k);
      FirstAlias4(Some(m), "tecnica", "label", "nome", "tech", JStr(DefaultTitle));
      FirstAlias3(Some(m), "accuracy", "acuracia", "acu", ZeroNum);
      FirstAlias2(Some(m), "precision", "pre", ZeroNum);
      FirstAlias3(Some(m), "recall", "rev", "revocacao", ZeroNum);
      FirstAlias1(Some(m), "f1", ZeroNum);
      Ok(Perf(
        Default(Coalesce(Coalesce(Coalesce(p("tecnica"), p("label")), p("nome")), p("tech")), JStr(DefaultTitle)),
        Default(Coalesce(Coalesce(p("accuracy"), p("acuracia")), p("acu")), ZeroNum),
        Default(Coalesce(p("precision"), p("pre")), ZeroNum),
        Default(Coalesce(Coalesce(p("recall"), p("rev")), p("revocacao")), ZeroNum),
        Default(p("f1"), ZeroNum)))
  }

  /** The performance table: one row per metrics entry, in order. */
  function Performance(metrics: seq<Json>): (r: Result<seq<Perf>>)
    ensures r.Err? <==> HasNull(metrics)
    ensures r.Ok? ==> |r.value| == |metrics|
    ensures r.Ok? ==> forall i :: 0 <= i < |metrics| ==> PerfOf(metrics[i]) == Ok(r.value[i])
  {
    if |metrics| == 0 then Ok([])
    else
      HasNullCons(metrics);
      var head := PerfOf(metrics[0]);
      var rest := Performance(metrics[1..]);
      if head.Err? then Err(head.error)
      else if rest.Err? then rest
      else
        TailIndex(metrics);
        Ok([head.value] + rest.value)
  }

  /** `total / unique`, or 0 when there are no operations. */
  function AveragePerOperation(total: nat, unique: nat): (avg: real)
    ensures unique == 0 ==> avg == 0.0
    ensures unique > 0 ==> avg * unique as real == total as real
    ensures 0 < unique <= total ==> avg >= 1.0
  {
    if unique == 0 then 0.0 else total as real / unique as real
  }

  datatype Overview = Overview(totalVideos: nat, uniqueOperations: nat, periodLabel: string,
                               avgVideosPerOperation: real, performance: seq<Perf>,
                               byPeriod: AlignedSeries)

  /** `getEvaluationsOverview` on a listing. */
  function EvaluationsOverview(l: Listing): (r: Result<Overview>)
    ensures r.Err? <==> HasNull(l.metrics)
    ensures r.Ok? ==> r.value.totalVideos == |l.videos|
    ensures r.Ok? ==> r.value.uniqueOperations == |Elements(OpValues(l.videos))| <= |l.videos|
    ensures r.Ok? ==> (r.value.uniqueOperations == 0 <==> |l.videos| == 0)
    ensures r.Ok? ==> r.value.avgVideosPerOperation == AveragePerOperation(|l.videos|, r.value.uniqueOperations)
    ensures r.Ok? ==> (r.value.periodLabel == NoPeriod <==> |l.videos| == 0)
    ensures r.Ok? ==> r.value.periodLabel == YearSpan(Years(l.videos))
    ensures r.Ok? ==> r.value.performance == Performance(l.metrics).value
    ensures r.Ok? ==> r.value.byPeriod == l.byYear
  {
    var total := |l.videos|;
    var ops := OpValues(l.videos);
    var unique := |Elements(ops)|;
    var years := Years(l.videos);
    var period := YearSpan(years);
    assert period == NoPeriod <==> total == 0;
    var avg := AveragePerOperation(total, unique);
    match Performance(l.metrics)
    case Err(e) => Err(e)
    case Ok(perf) => Ok(Overview(total, unique, period, avg, perf, l.byYear))
  }

  // ---------------------------------------------------------------------
  // One operation

  /** `(v.operation_id ?? v.operation ?? v.op ?? '').toString().trim().toLowerCase()`. */
  function OpNorm(v: Listed): string {
    Lower(Trim(StringOf(Some(Default(
      Coalesce(Coalesce(Get(v.fields, "operation_id"), Get(v.fields, "operation")), Get(v.fields, "op")),
      JStr(""))))))
  }

  /** `String(q).trim().toLowerCase()`. */
  function QueryNorm(q: string): string {
    Lower(Trim(q))
  }

  /** A video belongs to the operation: its normalised id is non-empty and
      equal to the normalised query. */
  predicate Matches(v: Listed, idNorm: string) {
    OpNorm(v) != "" && OpNorm(v) == idNorm
  }

  function MatchingVideos(videos: seq<Listed>, idNorm: string): (r: seq<Listed>)
    ensures |r| <= |videos|
    ensures forall v :: v in r <==> v in videos && Matches(v, idNorm)
    ensures idNorm == "" ==> r == []
  {
    if |videos| == 0 then []
    else
      var rest := MatchingVideos(videos[1..], idNorm);
      MemberCons(videos);
      if Matches(videos[0], idNorm) then [videos[0]] + rest else rest
  }

  /** Filtering a concatenation filters the parts one after the other: the
      matched videos keep their order and their repetitions. */
  lemma {:induction false} MatchingVideosAppend(a: seq<Listed>, b: seq<Listed>, idNorm: string)
    ensures MatchingVideos(a + b, idNorm) == MatchingVideos(a, idNorm) + MatchingVideos(b, idNorm)
  {
    if |a| == 0 {
      assert a + b == b;
    } else {
      assert (a + b)[0] == a[0];
      assert (a + b)[1..] == a[1..] + b;
      MatchingVideosAppend(a[1..], b, idNorm);
      if Matches(a[0], idNorm) {
        ConcatAssoc([a[0]], MatchingVideos(a[1..], idNorm), MatchingVideos(b, idNorm));
      }
    }
  }

  /** A single video is kept exactly when it matches. */
  lemma MatchingVideosSingle(v: Listed, idNorm: string)
    ensures MatchingVideos([v], idNorm) == if Matches(v, idNorm) then [v] else []
  {
    assert [v][1..] == [];
  }

  /** `getOperationVideos`: the videos of one operation, in order. */
  function OperationVideos(videos: seq<Listed>, q: string): (r: seq<Listed>)
    ensures |r| <= |videos|
    ensures forall v :: v in r <==> v in videos && OpNorm(v) != "" && OpNorm(v) == QueryNorm(q)
    ensures Trim(q) == "" ==> r == []
    ensures r == MatchingVideos(videos, QueryNorm(q))
  {
    assert Trim(q) == "" ==> QueryNorm(q) == "";
    MatchingVideos(videos, QueryNorm(q))
  }

  /** The query is case-insensitive and leading blanks do not matter. */
  lemma QueryNormalised(videos: seq<Listed>, q: string)
    ensures OperationVideos(videos, Lower(q)) == OperationVideos(videos, q)
    ensures OperationVideos(videos, " " + q) == OperationVideos(videos, q)
  {
    QueryNormLower(q);
    QueryNormPadded(q);
  }

  lemma QueryNormLower(q: string)
    ensures QueryNorm(Lower(q)) == QueryNorm(q)
  {
    TrimLowerCommute(q);
    LowerIdempotent(Trim(q));
  }

  lemma QueryNormPadded(q: string)
    ensures QueryNorm(" " + q) == QueryNorm(q)
  {
    assert " " + q == [' '] + q;
    TrimPadded(' ', q);
  }

  datatype OperationSummary = OperationSummary(opId: string, totalVideos: nat, periodLabel: string,
                                               byDay: AlignedSeries)

  function Times(videos: seq<Listed>): (ts: seq<int>)
    ensures |ts| == |videos|
    ensures forall i :: 0 <= i < |videos| ==> ts[i] == videos[i].time
  {
    seq(|videos|, i requires 0 <= i < |videos| => videos[i].time)
  }

  /** `getOperationOverview`: every listed video carries its parsed date, so
      each matched video is counted under its UTC day; the days come out
      sorted, the counts add up to the matched videos, and the period is
      the em dash exactly when nothing matched. */
  function OperationOverview(videos: seq<Listed>, q: string): (r: OperationSummary)
    ensures r.opId == q
    ensures r.totalVideos == |OperationVideos(videos, q)|
    ensures StrictlySorted(r.byDay.labels)
    ensures forall k :: k in r.byDay.labels <==> k in DayKeys(Times(OperationVideos(videos, q)))
    ensures forall i :: 0 <= i < |r.byDay.labels| ==>
      r.byDay.values[i] == Count(DayKeys(Times(OperationVideos(videos, q))), r.byDay.labels[i]) > 0
    ensures Sum(r.byDay.values) == r.totalVideos
    ensures r.periodLabel == NoPeriod <==> r.totalVideos == 0
    ensures r.periodLabel == DaySpan(Times(OperationVideos(videos, q)))
  {
    var items := OperationVideos(videos, q);
    TallyConserves(DayKeys(Times(items)));
    OperationSummary(q, |items|, DaySpan(Times(items)), Tally(DayKeys(Times(items))))
  }
}

=== FILE: events_real.dfy ===
/** The events service of the real scenario: resolving data files against
    the events directory, loading one dataset or the merge of all of them,
    keeping the videos with a valid date, and the per-year and per-day
    counters with the covered period. */
module EventsReal {
  import opened Base
  import opened Strings
  import opened Js
  import opened Series
  import opened Calendar
  import opened Paths
  import opened DatasetIndex

  /** `${root}assets/data/events/cenario-real`. */
  function EventsBase(root: string): string {
    root + "assets/data/events/cenario-real"
  }

  const EventsPrefix: string := "events/"

  // ---------------------------------------------------------------------
  // Resolving a data file

  /** `resolveAssetUrl` as written: the events root is taken as the base
      with the FIRST occurrence of `/cenario-real` removed. */
  function ResolveAssetUrlAsWritten(root: string, file: string): string {
    if StartsWith(file, EventsPrefix) then
      ReplaceFirst(EventsBase(root), "/cenario-real", "") + "/" + file[|EventsPrefix|..]
    else EventsBase(root) + "/" + file
  }

  /** The events root: the base without its trailing `/cenario-real`. */
  function EventsRoot(root: string): (r: string)
    ensures r + "/cenario-real" == EventsBase(root)
    ensures r == root + "assets/data/events"
  {
    var base := EventsBase(root);
    assert base == root + "assets/data/events" + "/cenario-real";
    base[..|base| - |"/cenario-real"|]
  }

  /** `resolveAssetUrl`: a file under `events/` is placed, prefix removed,
      under the events root; any other file under the `cenario-real` base. */
  function ResolveAssetUrl(root: string, file: string): (url: string)
    ensures StartsWith(file, EventsPrefix) ==> url == root + "assets/data/events/" + file[|EventsPrefix|..]
    ensures !StartsWith(file, EventsPrefix) ==> url == root + "assets/data/events/cenario-real/" + file
  {
    if StartsWith(file, EventsPrefix) then EventsRoot(root) + "/" + file[|EventsPrefix|..]
    else EventsBase(root) + "/" + file
  }

  /** A file named relative to the assets root (`events/cenario-real/x`) and
      the same file named relative to the `cenario-real` directory (`x`)
      resolve to the same URL. */
  lemma BothSpellingsAgree(root: string, name: string)
    requires !StartsWith(name, EventsPrefix)
    ensures ResolveAssetUrl(root, "events/cenario-real/" + name) == ResolveAssetUrl(root, name)
  {
    var file := "events/cenario-real/" + name;
    assert file[..|EventsPrefix|] == EventsPrefix;
    assert file[|EventsPrefix|..] == "cenario-real/" + name;
    assert "assets/data/events/" + "cenario-real/" == "assets/data/events/cenario-real/";
    ConcatAssoc(root + "assets/data/events/", "cenario-real/", name);
    ConcatAssoc(root, "assets/data/events/", "cenario-real/");
  }

  /** When the first `/cenario-real` of the base is its own suffix (the base
      href does not contain `/cenario-real`), the code as written agrees with
      the intended resolution. */
  lemma AsWrittenAgreesOnCleanRoots(root: string, file: string)
    requires IndexOf(EventsBase(root), "/cenario-real") == Some(|EventsRoot(root)|)
    ensures ResolveAssetUrlAsWritten(root, file) == ResolveAssetUrl(root, file)
  {
    var base := EventsBase(root);
    var pre := EventsRoot(root);
    var i := |pre|;
    assert base == pre + "/cenario-real";
    assert base[..i] == pre;
    assert base[i + |"/cenario-real"|..] == "";
    assert ReplaceFirst(base, "/cenario-real", "") == base[..i] + "" + base[i + |"/cenario-real"|..];
    assert ReplaceFirst(base, "/cenario-real", "") == pre;
  }

  /** A base href that itself starts with `/cenario-real` misplaces files
      under `events/`: the first occurrence, inside the base href, is removed
      instead of the trailing one. With base href `/cenario-real/` the file
      `events/x.json` resolves to `/assets/data/events/cenario-real/x.json`
      instead of `/cenario-real/assets/data/events/x.json`. */
  lemma AsWrittenMisplaces(rest: string, f: string)
    ensures ResolveAssetUrlAsWritten("/cenario-real" + rest, "events/" + f) == rest + "assets/data/events/cenario-real/" + f
    ensures ResolveAssetUrl("/cenario-real" + rest, "events/" + f) == "/cenario-real" + rest + "assets/data/events/" + f
    ensures rest == "/" ==>
      ResolveAssetUrlAsWritten("/cenario-real" + rest, "events/" + f) != ResolveAssetUrl("/cenario-real" + rest, "events/" + f)
  {
    WrittenDropsBaseHref(rest, f);
    IntendedKeepsBaseHref(rest, f);
    if rest == "/" {
      var written := rest + "assets/data/events/cenario-real/";
      var intended := "/cenario-real" + rest + "assets/data/events/";
      assert written[1] == 'a' && intended[1] == 'c';
      SecondCharDiffers(written, intended, f);
    }
  }

  /** Two strings that differ in their second character stay different
      when the same text is appended. */
  lemma SecondCharDiffers(a: string, b: string, x: string)
    requires |a| > 1 && |b| > 1 && a[1] != b[1]
    ensures a + x != b + x
  {
    assert (a + x)[1] == a[1] && (b + x)[1] == b[1];
  }

  /** A file under `events/` names the rest of its path. */
  lemma EventsFile(f: string)
    ensures StartsWith("events/" + f, EventsPrefix) && ("events/" + f)[|EventsPrefix|..] == f
  {
    assert ("events/" + f)[..|EventsPrefix|] == EventsPrefix;
  }

  lemma WrittenDropsBaseHref(rest: string, f: string)
    ensures ResolveAssetUrlAsWritten("/cenario-real" + rest, "events/" + f) == rest + "assets/data/events/cenario-real/" + f
  {
    EventsFile(f);
    var tail := rest + "assets/data/events/cenario-real";
    ConcatAssoc("/cenario-real", rest, "assets/data/events/cenario-real");
    ReplaceAtStart("/cenario-real", tail);
    ConcatAssoc(rest, "assets/data/events/cenario-real", "/");
  }

  lemma IntendedKeepsBaseHref(rest: string, f: string)
    ensures ResolveAssetUrl("/cenario-real" + rest, "events/" + f) == "/cenario-real" + rest + "assets/data/events/" + f
  {
    EventsFile(f);
  }

  // ---------------------------------------------------------------------
  // Normalising videos

  /** A video with its parsed date and operation id (`{...v, parsedDate, operation_id}`). */
  datatype Video = Video(fields: Obj, time: int, opId: string)

  /** `v.data_postagem || v.date || v.day || null`. */
  function DateField(v: Obj): Option<Json> {
    Or(Or(Or(Get(v, "data_postagem"), Get(v, "date")), Get(v, "day")), Some(JNull))
  }

  /** `(v.operation_ner ?? v.operation ?? v.op ?? '').toString().trim()`. */
  function OpId(v: Obj): string {
    Trim(StringOf(Coalesce(Coalesce(Coalesce(Get(v, "operation_ner"), Get(v, "operation")), Get(v, "op")), Some(JStr("")))))
  }

  /** The time of an element of the raw array when it is an object whose
      date field is truthy and parses (`parse` stands for `new Date(x)`). */
  function ItemTime(item: Json, parse: Json -> Option<int>): Option<int> {
    match item
    case JObj(o) => if Truthy(DateField(o)) then parse(DateField(o).value) else None
    case _ => None
  }

  /** Number of elements that are kept. */
  function NumDated(items: seq<Json>, parse: Json -> Option<int>): nat {
    if |items| == 0 then 0
    else (if ItemTime(items[0], parse).Some? then 1 else 0) + NumDated(items[1..], parse)
  }

  /** `normalizeVideos` over the elements of an array. */
  function NormalizeItems(items: seq<Json>, parse: Json -> Option<int>): (r: Result<seq<Video>>)
    ensures r.Err? <==> HasNull(items)
    ensures r.Err? ==> r.error == TypeError
    ensures r.Ok? ==> |r.value| == NumDated(items, parse)
    ensures r.Ok? ==> forall k :: 0 <= k < |r.value| ==> FromItems(r.value[k], items, parse)
    ensures r.Ok? ==> forall k :: 0 <= k < |r.value| ==> r.value[k].opId == OpId(r.value[k].fields)
  {
    if |items| == 0 then Ok([])
    else
      var rest := NormalizeItems(items[1..], parse);
      HasNullCons(items);
      if items[0] == JNull then Err(TypeError)
      else if rest.Err? then rest
      else
        match ItemTime(items[0], parse)
        case None => FromTail(items, rest.value, parse); rest
        case Some(t) =>
          var v := MakeVideo(items[0].fields, t);
          KeptFromCons(items, v, rest.value, parse);
          OpIdsCons(v, rest.value);
          Ok([v] + rest.value)
  }

  /** The video of a dated record, with its operation id. */
  function MakeVideo(o: Obj, t: int): (v: Video)
    ensures v.fields == o && v.time == t && v.opId == OpId(o)
  {
    Video(o, t, OpId(o))
  }

  /** A video comes from the array when it is an object element with that time. */
  predicate FromItems(v: Video, items: seq<Json>, parse: Json -> Option<int>) {
    JObj(v.fields) in items && ItemTime(JObj(v.fields), parse) == Some(v.time)
  }

  lemma FromTail(items: seq<Json>, rest: seq<Video>, parse: Json -> Option<int>)
    requires |items| > 0
    requires forall k :: 0 <= k < |rest| ==> FromItems(rest[k], items[1..], parse)
    ensures forall k :: 0 <= k < |rest| ==> FromItems(rest[k], items, parse)
  {
    forall k | 0 <= k < |rest| ensures FromItems(rest[k], items, parse) {
      var j :| 0 <= j < |items[1..]| && items[1..][j] == JObj(rest[k].fields);
      assert items[j + 1] == JObj(rest[k].fields);
    }
  }

  lemma {:induction false} KeptFromCons(items: seq<Json>, v: Video, rest: seq<Video>, parse: Json -> Option<int>)
    requires |items| > 0 && items[0] == JObj(v.fields)
    requires ItemTime(items[0], parse) == Some(v.time)
    requires |rest| == NumDated(items[1..], parse)
    requires forall k :: 0 <= k < |rest| ==> FromItems(rest[k], items[1..], parse)
    ensures |[v] + rest| == NumDated(items, parse)
    ensures forall k :: 0 <= k < |[v] + rest| ==> FromItems(([v] + rest)[k], items, parse)
  {
    forall k | 0 <= k < |[v] + rest| ensures FromItems(([v] + rest)[k], items, parse) {
      if k > 0 {
        assert ([v] + rest)[k] == rest[k - 1];
        assert FromItems(rest[k - 1], items[1..], parse);
        var j :| 0 <= j < |items[1..]| && items[1..][j] == JObj(rest[k - 1].fields);
        assert items[j + 1] == JObj(rest[k - 1].fields);
      }
    }
  }

  /** Every video of `[v] + rest` carries the operation id of its record. */
  lemma OpIdsCons(v: Video, rest: seq<Video>)
    requires v.opId == OpId(v.fields)
    requires forall k :: 0 <= k < |rest| ==> rest[k].opId == OpId(rest[k].fields)
    ensures forall k :: 0 <= k < |[v] + rest| ==> ([v] + rest)[k].opId == OpId(([v] + rest)[k].fields)
  {
    ConsAll((w: Video) => w.opId == OpId(w.fields), v, rest);
  }

  /** A single element: `null` throws, an object with a valid date becomes
      its video, anything else is dropped. */
  lemma NormalizeItemsSingle(x: Json, parse: Json -> Option<int>)
    ensures x == JNull ==> NormalizeItems([x], parse) == Err(TypeError)
    ensures x != JNull && ItemTime(x, parse).None? ==> NormalizeItems([x], parse) == Ok([])
    ensures ItemTime(x, parse).Some? ==>
      NormalizeItems([x], parse) == Ok([MakeVideo(x.fields, ItemTime(x, parse).value)])
  {
    assert [x][0] == x;
    assert [x][1..] == [];
    assert NormalizeItems([], parse) == Ok([]);
    if x != JNull && ItemTime(x, parse).Some? {
      var v := MakeVideo(x.fields, ItemTime(x, parse).value);
      assert [v] + [] == [v];
    }
  }

  /** Normalising a concatenation normalises the parts one after the other:
      with `NormalizeItemsSingle` this fixes the videos element by element,
      in input order. */
  lemma {:induction false} NormalizeItemsAppend(a: seq<Json>, b: seq<Json>, parse: Json -> Option<int>)
    ensures NormalizeItems(a + b, parse) == Then(NormalizeItems(a, parse), NormalizeItems(b, parse))
  {
    if |a| == 0 {
      assert a + b == b;
      var rb := NormalizeItems(b, parse);
      if rb.Ok? {
        assert [] + rb.value == rb.value;
      }
    } else {
      assert (a + b)[0] == a[0];
      assert (a + b)[1..] == a[1..] + b;
      NormalizeItemsAppend(a[1..], b, parse);
      var ra := NormalizeItems(a[1..], parse);
      var rb := NormalizeItems(b, parse);
      if a[0] != JNull && ra.Ok? && rb.Ok? && ItemTime(a[0], parse).Some? {
        var v := MakeVideo(a[0].fields, ItemTime(a[0], parse).value);
        ConcatAssoc([v], ra.value, rb.value);
      }
    }
  }

  /** `normalizeVideos`: a non-array gives no videos; otherwise the videos
      with a valid date, in order (output no longer than the input). */
  function NormalizeVideos(raw: Json, parse: Json -> Option<int>): (r: Result<seq<Video>>)
    ensures !raw.JArr? ==> r == Ok([])
    ensures raw.JArr? ==> r == NormalizeItems(raw.items, parse)
    ensures r.Ok? && raw.JArr? ==> |r.value| <= |raw.items|
  {
    if raw.JArr? then
      NumDatedBound(raw.items, parse);
      NormalizeItems(raw.items, parse)
    else Ok([])
  }

  lemma {:induction false} NumDatedBound(items: seq<Json>, parse: Json -> Option<int>)
    ensures NumDated(items, parse) <= |items|
  {
    if |items| > 0 {
      NumDatedBound(items[1..], parse);
    }
  }

  // ---------------------------------------------------------------------
  // Counters

  function YearKeys(videos: seq<Video>): (ks: seq<string>)
    ensures |ks| == |videos|
    ensures forall i :: 0 <= i < |videos| ==> ks[i] == YearKey(DayOf(videos[i].time))
  {
    seq(|videos|, i requires 0 <= i < |videos| => YearKey(DayOf(videos[i].time)))
  }

  /** `(v.operation_id || '').toString().trim()` of every video. */
  function OpKeys(videos: seq<Video>): (ks: seq<string>)
    ensures |ks| == |videos|
    ensures forall i :: 0 <= i < |videos| ==> ks[i] == Trim(videos[i].opId)
  {
    seq(|videos|, i requires 0 <= i < |videos| => Trim(videos[i].opId))
  }

  /** The distinct non-empty keys. */
  function NonEmptyKeys(ks: seq<string>): (s: set<string>)
    ensures |s| <= |ks|
    ensures "" !in s
  {
    if |ks| == 0 then {}
    else
      var rest := NonEmptyKeys(ks[1..]);
      if ks[0] != "" then {ks[0]} + rest else rest
  }

  /** A key is collected exactly when it is non-empty and occurs. */
  lemma {:induction false} NonEmptyKeysMembers(ks: seq<string>, k: string)
    ensures k in NonEmptyKeys(ks) <==> k != "" && k in ks
  {
    if |ks| > 0 {
      NonEmptyKeysMembers(ks[1..], k);
      ConsSplit(ks);
    }
  }

  /** `opSet`: the distinct non-empty trimmed operation ids. */
  function OpSet(videos: seq<Video>): (ops: set<string>)
    ensures |ops| <= |videos|
    ensures "" !in ops
  {
    NonEmptyKeys(OpKeys(videos))
  }

  /** The parsed times of the videos, in order. */
  function Times(videos: seq<Video>): (ts: seq<int>)
    ensures |ts| == |videos|
    ensures forall i :: 0 <= i < |videos| ==> ts[i] == videos[i].time
  {
    seq(|videos|, i requires 0 <= i < |videos| => videos[i].time)
  }

  datatype Aggregate = Aggregate(byYear: AlignedSeries, byDay: AlignedSeries, period: string, opCount: nat)

  /** `aggregate`: videos per UTC year and per UTC day, the covered period
      and the number of operations. */
  function Aggregated(videos: seq<Video>): (a: Aggregate)
    ensures StrictlySorted(a.byYear.labels) && StrictlySorted(a.byDay.labels)
    ensures forall k :: k in a.byYear.labels <==> k in YearKeys(videos)
    ensures forall k :: k in a.byDay.labels <==> k in DayKeys(Times(videos))
    ensures forall i :: 0 <= i < |a.byYear.labels| ==> a.byYear.values[i] == Count(YearKeys(videos), a.byYear.labels[i])
    ensures forall i :: 0 <= i < |a.byDay.labels| ==> a.byDay.values[i] == Count(DayKeys(Times(videos)), a.byDay.labels[i])
    ensures a.period == DaySpan(Times(videos))
    ensures a.period == NoPeriod <==> |videos| == 0
    ensures a.opCount == |OpSet(videos)| <= |videos|
  {
    Aggregate(Tally(YearKeys(videos)), Tally(DayKeys(Times(videos))), DaySpan(Times(videos)), |OpSet(videos)|)
  }

  /** Each counter adds up to the number of videos. */
  lemma AggregateConserves(videos: seq<Video>)
    ensures Sum(Aggregated(videos).byYear.values) == |videos|
    ensures Sum(Aggregated(videos).byDay.values) == |videos|
  {
    TallyConserves(YearKeys(videos));
    TallyConserves(DayKeys(Times(videos)));
  }

  // ---------------------------------------------------------------------
  // Loading a dataset

  const AllMarker: string := "__ALL__"

  /** `c.file` of an index entry; reading it off `null` throws. */
  function FileOf(c: Json): Result<Option<Json>> {
    if c == JNull then Err(TypeError) else Ok(Prop(Some(c), "file"))
  }

  /** A file field taken by the merge: truthy and not `__ALL__`. */
  predicate Merged(f: Option<Json>) {
    Truthy(f) && f != Some(JStr(AllMarker))
  }

  /** An index entry the merge can handle: not `null`, and a merged file
      field is a string (resolving anything else throws). */
  predicate Mergeable(c: Json) {
    c != JNull && (Merged(Prop(Some(c), "file")) ==> Prop(Some(c), "file").value.JStr?)
  }

  /** The files the `__ALL__` merge fetches, in index order. */
  function AllFiles(configs: seq<Json>): (r: Result<seq<string>>)
    ensures r.Ok? <==> forall i :: 0 <= i < |configs| ==> Mergeable(configs[i])
    ensures r.Err? ==> r.error == TypeError
    ensures r.Ok? ==> |r.value| <= |configs|
    ensures r.Ok? ==> forall f :: f in r.value ==> f != "" && f != AllMarker
    ensures r.Ok? ==> forall i :: 0 <= i < |configs| && Merged(Prop(Some(configs[i]), "file")) ==>
      Prop(Some(configs[i]), "file").value.s in r.value
  {
    if |configs| == 0 then Ok([])
    else
      var rest := AllFiles(configs[1..]);
      TailIndex(configs);
      match FileOf(configs[0])
      case Err(e) => Err(e)
      case Ok(f) =>
        if !Merged(f) then rest
        else if !f.value.JStr? then Err(TypeError)
        else if rest.Err? then rest
        else Ok([f.value.s] + rest.value)
  }

  /** The file field of a single index entry: `null` throws, a merged
      string file is taken, a merged non-string throws, anything else is
      skipped. */
  lemma AllFilesSingle(c: Json)
    ensures c == JNull ==> AllFiles([c]) == Err(TypeError)
    ensures c != JNull && !Merged(Prop(Some(c), "file")) ==> AllFiles([c]) == Ok([])
    ensures c != JNull && Merged(Prop(Some(c), "file")) && Prop(Some(c), "file").value.JStr? ==>
      AllFiles([c]) == Ok([Prop(Some(c), "file").value.s])
    ensures c != JNull && Merged(Prop(Some(c), "file")) && !Prop(Some(c), "file").value.JStr? ==>
      AllFiles([c]) == Err(TypeError)
  {
    assert [c][1..] == [];
    var f := Prop(Some(c), "file");
    if c != JNull && Merged(f) && f.value.JStr? {
      assert [f.value.s] + [] == [f.value.s];
    }
  }

  /** The files of a concatenation are the files of the parts, in order. */
  lemma {:induction false} AllFilesAppend(a: seq<Json>, b: seq<Json>)
    ensures AllFiles(a + b) == Then(AllFiles(a), AllFiles(b))
  {
    if |a| == 0 {
      assert a + b == b;
      var rb := AllFiles(b);
      if rb.Ok? {
        assert [] + rb.value == rb.value;
      }
    } else {
      assert (a + b)[0] == a[0];
      assert (a + b)[1..] == a[1..] + b;
      AllFilesAppend(a[1..], b);
      var ra := AllFiles(a[1..]);
      var rb := AllFiles(b);
      var f := Prop(Some(a[0]), "file");
      if a[0] != JNull && Merged(f) && f.value.JStr? && ra.Ok? && rb.Ok? {
        assert [f.value.s] + (ra.value + rb.value) == ([f.value.s] + ra.value) + rb.value;
      }
    }
  }

  /** The successful array results, concatenated in order (`.filter(Array.isArray).flat()`);
      `fetch` is `None` for a failed request. */
  function Merge(files: seq<string>, root: string, fetch: string -> Option<Json>): (raw: seq<Json>)
    ensures |raw| == 0 <==> forall i :: 0 <= i < |files| ==> ArrayItems(fetch(ResolveAssetUrl(root, files[i]))) == []
  {
    if |files| == 0 then []
    else
      TailIndex(files);
      ArrayItems(fetch(ResolveAssetUrl(root, files[0]))) + Merge(files[1..], root, fetch)
  }

  /** One file contributes the elements of its array, or nothing when the
      request failed or did not give an array. */
  lemma MergeSingle(f: string, root: string, fetch: string -> Option<Json>)
    ensures Merge([f], root, fetch) == ArrayItems(fetch(ResolveAssetUrl(root, f)))
  {
    assert [f][1..] == [];
    assert ArrayItems(fetch(ResolveAssetUrl(root, f))) + [] == ArrayItems(fetch(ResolveAssetUrl(root, f)));
  }

  /** The merge of a concatenation is the merge of the parts, in order. */
  lemma {:induction false} MergeAppend(a: seq<string>, b: seq<string>, root: string, fetch: string -> Option<Json>)
    ensures Merge(a + b, root, fetch) == Merge(a, root, fetch) + Merge(b, root, fetch)
  {
    if |a| == 0 {
      assert a + b == b;
    } else {
      assert (a + b)[0] == a[0];
      assert (a + b)[1..] == a[1..] + b;
      MergeAppend(a[1..], b, root, fetch);
      ConcatAssoc(ArrayItems(fetch(ResolveAssetUrl(root, a[0]))), Merge(a[1..], root, fetch), Merge(b, root, fetch));
    }
  }

  datatype Meta = Meta(id: string, title: Option<Json>, description: Option<Json>,
                       period: string, totalVideos: nat, totalOperations: nat)

  datatype Dataset = Dataset(meta: Meta, videos: seq<Video>, byYear: AlignedSeries, byDay: AlignedSeries)

  /** The loaded dataset for a raw file content and its index entry. */
  function Finish(id: string, config: Json, raw: Json, parse: Json -> Option<int>): (r: Result<Dataset>)
    ensures r.Ok? ==> r.value.meta.id == id && r.value.meta.totalVideos == |r.value.videos|
    ensures r.Ok? ==> r.value.meta.totalOperations == |OpSet(r.value.videos)|
    ensures r.Ok? ==> (r.value.meta.period == NoPeriod <==> |r.value.videos| == 0)
    ensures r.Ok? <==> NormalizeVideos(raw, parse).Ok?
    ensures r.Err? ==> r.error == TypeError
    ensures r.Ok? ==> r.value.videos == NormalizeVideos(raw, parse).value
    ensures r.Ok? ==> r.value.byYear == Aggregated(r.value.videos).byYear
    ensures r.Ok? ==> r.value.byDay == Aggregated(r.value.videos).byDay
    ensures r.Ok? ==> r.value.meta.period == DaySpan(Times(r.value.videos))
    ensures r.Ok? ==> r.value.meta.title == Prop(Some(config), "label")
    ensures r.Ok? ==> r.value.meta.description == Prop(Some(config), "description")
  {
    match NormalizeVideos(raw, parse)
    case Err(e) => Err(e)
    case Ok(videos) =>
      var a := Aggregated(videos);
      Ok(Dataset(Meta(id, Prop(Some(config), "label"), Prop(Some(config), "description"),
                      a.period, |videos|, a.opCount),
                 videos, a.byYear, a.byDay))
  }

  /** `getDatasets`: a failed request fails; a `null` index reads as the
      empty index. `fetched` is `None` for a failed request and `Some(None)`
      for a file holding `null`. */
  function GetDatasets(fetched: Option<Option<Index>>): (r: Result<Index>)
    ensures fetched.None? <==> r.Err?
    ensures r.Err? ==> r.error == FetchFailed
    ensures fetched.Some? ==> r.value == OrEmpty(fetched.value)
  {
    match fetched
    case None => Err(FetchFailed)
    case Some(ix) => Ok(OrEmpty(ix))
  }

  /** `loadDataset`: a failed index request fails; an id the index does not
      list (or lists with a falsy entry) fails; an `__ALL__` entry merges
      every other file and fails when nothing was obtained; any other entry
      loads its own file, and a failed request fails the load. What is
      loaded is the normalised and aggregated content. */
  function LoadDataset(index: Option<Option<Index>>, id: string, root: string,
                       fetch: string -> Option<Json>, parse: Json -> Option<int>): (r: Result<Dataset>)
    ensures index.None? ==> r == Err(FetchFailed)
    ensures index.Some? && !Truthy(Lookup(OrEmpty(index.value), id)) ==> r == Err(NotFound(id))
    ensures r.Ok? ==> r.value.meta.id == id && r.value.meta.totalVideos == |r.value.videos|
    ensures (index.Some? && Truthy(Lookup(OrEmpty(index.value), id))
             && Prop(Lookup(OrEmpty(index.value), id), "file") == Some(JStr(AllMarker))) ==>
      var files := AllFiles(Configs(OrEmpty(index.value)));
      (files.Err? ==> r == Err(TypeError))
      && (files.Ok? && |Merge(files.value, root, fetch)| == 0 ==> r == Err(NothingToCompile))
      && (files.Ok? && |Merge(files.value, root, fetch)| > 0 ==>
            r == Finish(id, Lookup(OrEmpty(index.value), id).value, JArr(Merge(files.value, root, fetch)), parse))
    ensures (index.Some? && Truthy(Lookup(OrEmpty(index.value), id))
             && Prop(Lookup(OrEmpty(index.value), id), "file") != Some(JStr(AllMarker))) ==>
      var file := Prop(Lookup(OrEmpty(index.value), id), "file");
      (!(file.Some? && file.value.JStr?) ==> r == Err(TypeError))
      && (file.Some? && file.value.JStr? && fetch(ResolveAssetUrl(root, file.value.s)).None? ==> r == Err(FetchFailed))
      && (file.Some? && file.value.JStr? && fetch(ResolveAssetUrl(root, file.value.s)).Some? ==>
            r == Finish(id, Lookup(OrEmpty(index.value), id).value, fetch(ResolveAssetUrl(root, file.value.s)).value, parse))
  {
    match GetDatasets(index)
    case Err(e) => Err(e)
    case Ok(all) =>
      var config := Lookup(all, id);
      if !Truthy(config) then Err(NotFound(id))
      else
        var file := Prop(config, "file");
        if file == Some(JStr(AllMarker)) then
          match AllFiles(Configs(all))
          case Err(e) => Err(e)
          case Ok(files) =>
            var raw := Merge(files, root, fetch);
            if |raw| == 0 then Err(NothingToCompile)
            else Finish(id, config.value, JArr(raw), parse)
        else
          match file
          case Some(JStr(f)) =>
            (match fetch(ResolveAssetUrl(root, f))
             case None => Err(FetchFailed)
             case Some(raw) => Finish(id, config.value, raw, parse))
          case _ => Err(TypeError)
  }
}

=== FILE: js.dfy ===
/** The JavaScript values the dashboard reads from its JSON files, and the
    handful of language rules its transforms depend on: truthiness, `??`,
    `||`, property access, `String(x)` and number arithmetic with NaN. */
module Js {
  import opened Base
  import opened Strings

  /** A JSON number as written in the file: `digits / 10^scale`. */
  datatype Decimal = Decimal(digits: int, scale: nat)

  /** A value produced by `JSON.parse`. */
  datatype Json =
    | JNull
    | JBool(b: bool)
    | JNum(n: Decimal)
    | JStr(s: string)
    | JArr(items: seq<Json>)
    | JObj(fields: map<string, Json>)

  /** A record of a data file: a JSON object. */
  type Obj = map<string, Json>

  /** An object read with `o.k`: `None` is `undefined`. */
  function Get(o: Obj, k: string): (r: Option<Json>)
    ensures r.Some? <==> k in o
    ensures r.Some? ==> r.value == o[k]
  {
    if k in o then Some(o[k]) else None
  }

  /** `v?.[k]` on a parsed value: only objects have the keys of a data file;
      `null`, `undefined` and the primitives answer `undefined`. */
  function Prop(v: Option<Json>, k: string): (r: Option<Json>)
    ensures r.Some? ==> v.Some? && v.value.JObj? && k in v.value.fields
  {
    if v.Some? && v.value.JObj? then Get(v.value.fields, k) else None
  }

  function Pow10(n: nat): (r: nat)
    ensures r >= 1
  {
    if n == 0 then 1 else 10 * Pow10(n - 1)
  }

  function DecimalValue(d: Decimal): real {
    d.digits as real / Pow10(d.scale) as real
  }

  /** The JavaScript truth value: `undefined`, `null`, `false`, `0`, `""` are falsy. */
  predicate Truthy(v: Option<Json>) {
    match v
    case None => false
    case Some(JNull) => false
    case Some(JBool(b)) => b
    case Some(JNum(d)) => d.digits != 0
    case Some(JStr(s)) => s != ""
    case Some(_) => true
  }

  predicate Nullish(v: Option<Json>) {
    v.None? || v == Some(JNull)
  }

  /** `a ?? b`. */
  function Coalesce(a: Option<Json>, b: Option<Json>): (r: Option<Json>)
    ensures !Nullish(a) ==> r == a
    ensures Nullish(a) ==> r == b
  {
    if Nullish(a) then b else a
  }

  /** `a || b`. */
  function Or(a: Option<Json>, b: Option<Json>): (r: Option<Json>)
    ensures Truthy(a) ==> r == a
    ensures !Truthy(a) ==> r == b
  {
    if Truthy(a) then a else b
  }

  /** `a ?? d` for a defined default: the value itself. */
  function Default(a: Option<Json>, d: Json): (r: Json)
    ensures !Nullish(a) ==> Some(r) == a
    ensures Nullish(a) ==> r == d
  {
    if Nullish(a) then d else a.value
  }

  lemma CoalesceNeverNullishUnlessLast(a: Option<Json>, b: Option<Json>)
    ensures Nullish(Coalesce(a, b)) ==> Nullish(b)
  {
  }

  /** `o[k0] ?? o[k1] ?? ... ?? d`: the value of the first of the keys whose
      property is not nullish, or `d` when every one is. */
  function FirstAlias(o: Option<Json>, keys: seq<string>, d: Json): (r: Json)
    ensures (forall j :: 0 <= j < |keys| ==> Nullish(Prop(o, keys[j]))) ==> r == d
    ensures forall i :: 0 <= i < |keys| && !Nullish(Prop(o, keys[i])) && AllNullish(o, keys[..i]) ==>
      Some(r) == Prop(o, keys[i])
  {
    if |keys| == 0 then d
    else if !Nullish(Prop(o, keys[0])) then Prop(o, keys[0]).value
    else
      var r := FirstAlias(o, keys[1..], d);
      forall i | 1 <= i < |keys| && AllNullish(o, keys[..i]) ensures AllNullish(o, keys[1..][..i - 1]) {
        assert keys[1..][..i - 1] == keys[..i][1..];
      }
      r
  }

  /** `o[k0] ?? d` is the first-alias reading of one key. */
  lemma FirstAlias1(o: Option<Json>, k0: string, d: Json)
    ensures FirstAlias(o, [k0], d) == Default(Prop(o, k0), d)
  {
    assert [k0][1..] == [];
  }

  /** `o[k0] ?? o[k1] ?? d` is the first-alias reading of two keys. */
  lemma FirstAlias2(o: Option<Json>, k0: string, k1: string, d: Json)
    ensures FirstAlias(o, [k0, k1], d) == Default(Coalesce(Prop(o, k0), Prop(o, k1)), d)
  {
    assert [k0, k1][1..] == [k1];
    FirstAlias1(o, k1, d);
  }

  /** `o[k0] ?? o[k1] ?? o[k2] ?? d` is the first-alias reading of three keys. */
  lemma FirstAlias3(o: Option<Json>, k0: string, k1: string, k2: string, d: Json)
    ensures FirstAlias(o, [k0, k1, k2], d) == Default(Coalesce(Coalesce(Prop(o, k0), Prop(o, k1)), Prop(o, k2)), d)
  {
    assert [k0, k1, k2][1..] == [k1, k2];
    FirstAlias2(o, k1, k2, d);
  }

  /** `o[k0] ?? o[k1] ?? o[k2] ?? o[k3] ?? d` is the first-alias reading of four keys. */
  lemma FirstAlias4(o: Option<Json>, k0: string, k1: string, k2: string, k3: string, d: Json)
    ensures FirstAlias(o, [k0, k1, k2, k3], d)
         == Default(Coalesce(Coalesce(Coalesce(Prop(o, k0), Prop(o, k1)), Prop(o, k2)), Prop(o, k3)), d)
  {
    assert [k0, k1, k2, k3][1..] == [k1, k2, k3];
    FirstAlias3(o, k1, k2, k3, d);
  }

  /** Every one of the keys names a nullish property. */
  predicate AllNullish(o: Option<Json>, keys: seq<string>) {
    forall j :: 0 <= j < |keys| ==> Nullish(Prop(o, keys[j]))
  }

  /** Strips trailing zero digits of the fraction: `1.50` becomes `1.5`. */
  function Normalize(d: Decimal): (r: Decimal)
    ensures DecimalValue(r) == DecimalValue(d)
    ensures r.scale > 0 ==> r.digits % 10 != 0
    decreases d.scale
  {
    if d.scale > 0 && d.digits % 10 == 0 then
      var d' := Decimal(d.digits / 10, d.scale - 1);
      assert DecimalValue(d') == DecimalValue(d) by {
        assert d.digits == 10 * (d.digits / 10);
        assert Pow10(d.scale) == 10 * Pow10(d.scale - 1);
      }
      Normalize(d')
    else d
  }

  function DivNat(m: nat, p: nat): (q: nat)
    requires p >= 1
  {
    m / p
  }

  /** `String(n)` for a number in plain decimal notation (the exponent form
      JavaScript uses below 1e-6 and from 1e21 is not modelled). */
  function NumberToString(d: Decimal): string {
    var n := Normalize(d);
    if n.scale == 0 then IntToString(n.digits)
    else
      var m: nat := if n.digits < 0 then -n.digits else n.digits;
      var p := Pow10(n.scale);
      var whole: nat := DivNat(m, p);
      var frac: nat := m % p;
      (if n.digits < 0 then "-" else "")
        + NatToString(whole) + "." + PadStart(NatToString(frac), n.scale, '0')
  }

  /** `String(v)` for a parsed value; array elements that are `null` print empty. */
  function JsonToString(v: Json): string
    decreases v
  {
    match v
    case JNull => "null"
    case JBool(b) => if b then "true" else "false"
    case JNum(d) => NumberToString(d)
    case JStr(s) => s
    case JArr(items) =>
      JoinComma(seq(|items|, i requires 0 <= i < |items| =>
        if items[i] == JNull then "" else JsonToString(items[i])))
    case JObj(_) => "[object Object]"
  }

  function JoinComma(parts: seq<string>): string {
    if |parts| == 0 then ""
    else if |parts| == 1 then parts[0]
    else parts[0] + "," + JoinComma(parts[1..])
  }

  /** `String(x)`, also for `undefined`. */
  function StringOf(v: Option<Json>): (r: string)
    ensures v == Some(JNull) ==> r == "null"
    ensures v.None? ==> r == "undefined"
    ensures v.Some? && v.value.JStr? ==> r == v.value.s
  {
    match v
    case None => "undefined"
    case Some(j) => JsonToString(j)
  }

  /** A JavaScript number that may be NaN; infinities do not arise here. */
  datatype Num = Fin(r: real) | NaN {
    function Plus(other: Num): Num {
      if Fin? && other.Fin? then Fin(r + other.r) else NaN
    }

    function Minus(other: Num): Num {
      if Fin? && other.Fin? then Fin(r - other.r) else NaN
    }

    /** `this < other`: false whenever either side is NaN. */
    predicate Below(other: Num) {
      Fin? && other.Fin? && r < other.r
    }
  }

  /** `Math.max(0, v)`. */
  function Max0(v: Num): (x: Num)
    ensures v.Fin? <==> x.Fin?
    ensures x.Fin? ==> x.r >= 0.0 && x.r >= v.r && (x.r == 0.0 || x.r == v.r)
  {
    match v
    case NaN => NaN
    case Fin(a) => Fin(if a < 0.0 then 0.0 else a)
  }

  /** `Math.max(0, Math.min(1, v))`. */
  function Clamp01(v: Num): (x: Num)
    ensures v.Fin? <==> x.Fin?
    ensures x.Fin? ==> 0.0 <= x.r <= 1.0
    ensures x.Fin? && 0.0 <= v.r <= 1.0 ==> x.r == v.r
  {
    match v
    case NaN => NaN
    case Fin(a) => Fin(if a < 0.0 then 0.0 else if a > 1.0 then 1.0 else a)
  }

  /** `Math.round(x)` on a finite number: the nearest integer, halves
      rounded up. */
  function Round(x: real): (r: int)
    ensures x - 0.5 < r as real <= x + 0.5
  {
    (x + 0.5).Floor
  }

  /** `Number(v)` for the values the bootstrap files hold: numbers, `null`
      (0) and booleans; strings, arrays, objects and `undefined` read as NaN. */
  function ToNumber(v: Option<Json>): (x: Num)
    ensures v.Some? && v.value.JNum? ==> x == Fin(DecimalValue(v.value.n))
    ensures v.None? ==> x == NaN
    ensures v == Some(JNull) ==> x == Fin(0.0)
    ensures v.Some? && v.value.JBool? ==> x == Fin(if v.value.b then 1.0 else 0.0)
    ensures v.Some? && (v.value.JStr? || v.value.JArr? || v.value.JObj?) ==> x == NaN
  {
    match v
    case Some(JNum(d)) => Fin(DecimalValue(d))
    case Some(JNull) => Fin(0.0)
    case Some(JBool(b)) => Fin(if b then 1.0 else 0.0)
    case _ => NaN
  }

  /** The elements of a fetched file when it is an array. */
  function ArrayItems(fetched: Option<Json>): seq<Json> {
    if fetched.Some? && fetched.value.JArr? then fetched.value.items else []
  }

  /** Reading a field of a `null` element throws. */
  predicate HasNull(items: seq<Json>) {
    exists i :: 0 <= i < |items| && items[i] == JNull
  }

  lemma HasNullCons(items: seq<Json>)
    requires |items| > 0
    ensures HasNull(items) <==> items[0] == JNull || HasNull(items[1..])
  {
    if HasNull(items[1..]) {
      var i :| 0 <= i < |items[1..]| && items[1..][i] == JNull;
      assert items[i + 1] == JNull;
    }
    if HasNull(items) && items[0] != JNull {
      var i :| 0 <= i < |items| && items[i] == JNull;
      assert items[1..][i - 1] == JNull;
    }
  }

  /** A `null` in a concatenation is a `null` in one of its parts. */
  lemma {:induction false} HasNullAppend(a: seq<Json>, b: seq<Json>)
    ensures HasNull(a + b) <==> HasNull(a) || HasNull(b)
  {
    if HasNull(a + b) {
      var i :| 0 <= i < |a + b| && (a + b)[i] == JNull;
      if i < |a| { assert a[i] == JNull; } else { assert b[i - |a|] == JNull; }
    }
    if HasNull(a) {
      var i :| 0 <= i < |a| && a[i] == JNull;
      assert (a + b)[i] == JNull;
    }
    if HasNull(b) {
      var i :| 0 <= i < |b| && b[i] == JNull;
      assert (a + b)[|a| + i] == JNull;
    }
  }
}

=== FILE: paths.dfy ===
/** The `<base href>` every service reads from the page, and the root
    directory derived from it. */
module Paths {
  import opened Base
  import opened Strings

  /** `(baseTag && baseTag.getAttribute('href')) || '/'`: `href` is the
      attribute, absent when there is no base tag or no attribute. */
  function BaseHref(href: Option<string>): (b: string)
    ensures b != ""
    ensures href.Some? && href.value != "" ==> b == href.value
    ensures href.None? || href.value == "" ==> b == "/"
  {
    if href.Some? && href.value != "" then href.value else "/"
  }

  /** The base with exactly one slash appended when it lacks one. */
  function Root(baseHref: string): (root: string)
    ensures EndsWith(root, "/")
    ensures StartsWith(root, baseHref)
    ensures |root| <= |baseHref| + 1
    ensures EndsWith(baseHref, "/") ==> root == baseHref
  {
    if EndsWith(baseHref, "/") then baseHref else baseHref + "/"
  }
}

=== FILE: positioning_page.dfy ===
/** The stance page of the real scenario: counting the comments per stance,
    turning the counts into percentages, picking sample comments, and
    filling the page state from a loaded dataset. */
module PositioningPage {
  import opened Base
  import opened Js
  import opened Series
  import opened BootstrapRows
  import Sentiment

  // ---------------------------------------------------------------------
  // Stance counts

  datatype StanceCounts = StanceCounts(negative: nat, neutral: nat, positive: nat) {
    function Total(): nat {
      negative + neutral + positive
    }
  }

  /** The label each comment is counted under, `String(c?.new_BERT ?? '0')`:
      a `null` comment has no label and counts as neutral. */
  function Labels(comments: seq<Json>): (ls: seq<string>)
    ensures |ls| == |comments|
    ensures forall i :: 0 <= i < |comments| ==> ls[i] == Sentiment.BertLabel(comments[i])
  {
    seq(|comments|, i requires 0 <= i < |comments| => Sentiment.BertLabel(comments[i]))
  }

  /** The counter a label goes to. */
  datatype StanceKey = Against | Neutral | InFavour | NoStance

  /** `val in counts` on the three keys `'-1'`, `'0'` and `'1'`. */
  function KeyOf(l: string): StanceKey {
    if l == "-1" then Against else if l == "0" then Neutral else if l == "1" then InFavour else NoStance
  }

  lemma KeyOfAgainst(l: string)
    ensures KeyOf(l) == Against <==> l == "-1"
  {
  }

  lemma KeyOfNeutral(l: string)
    ensures KeyOf(l) == Neutral <==> l == "0"
  {
  }

  lemma KeyOfInFavour(l: string)
    ensures KeyOf(l) == InFavour <==> l == "1"
  {
  }

  predicate IsStanceKey(l: string) {
    KeyOf(l) != NoStance
  }

  /** Every comment carries one of the three stance labels. */
  predicate AllStanceLabels(comments: seq<Json>) {
    forall i :: 0 <= i < |comments| ==> IsStanceKey(Sentiment.BertLabel(comments[i]))
  }

  /** The counting loop over the labels: a label that is not one of the
      three stance keys is skipped. */
  function CountLabels(ls: seq<string>): StanceCounts
  {
    if |ls| == 0 then StanceCounts(0, 0, 0)
    else
      var rest := CountLabels(ls[1..]);
      match KeyOf(ls[0])
      case Against => rest.(negative := rest.negative + 1)
      case Neutral => rest.(neutral := rest.neutral + 1)
      case InFavour => rest.(positive := rest.positive + 1)
      case NoStance => rest
  }

  /** No label is counted twice. */
  lemma {:induction false} CountLabelsBound(ls: seq<string>)
    ensures CountLabels(ls).Total() <= |ls|
  {
    if |ls| > 0 {
      CountLabelsBound(ls[1..]);
    }
  }

  predicate AllKeys(ls: seq<string>) {
    forall i :: 0 <= i < |ls| ==> IsStanceKey(ls[i])
  }

  /** Nothing is skipped exactly when every label is a stance key. */
  lemma {:induction false} CountLabelsComplete(ls: seq<string>)
    ensures CountLabels(ls).Total() == |ls| <==> AllKeys(ls)
  {
    if |ls| > 0 {
      CountLabelsComplete(ls[1..]);
      CountLabelsBound(ls[1..]);
      assert AllKeys(ls) <==> IsStanceKey(ls[0]) && AllKeys(ls[1..]) by {
        TailIndex(ls);
      }
    }
  }

  /** `computeSentimentCounts`: the counts add up to the number of
      comments exactly when every comment has a stance label. */
  function ComputeSentimentCounts(comments: seq<Json>): (r: StanceCounts)
    ensures r.Total() <= |comments|
    ensures r.Total() == |comments| <==> AllStanceLabels(comments)
  {
    CountLabelsBound(Labels(comments));
    CountLabelsComplete(Labels(comments));
    CountLabels(Labels(comments))
  }

  /** Each count is the number of labels equal to its key. */
  lemma {:induction false} NegativeCount(ls: seq<string>)
    ensures CountLabels(ls).negative == Count(ls, "-1")
  {
    if |ls| > 0 {
      NegativeCount(ls[1..]);
      KeyOfAgainst(ls[0]);
    }
  }

  lemma {:induction false} NeutralCount(ls: seq<string>)
    ensures CountLabels(ls).neutral == Count(ls, "0")
  {
    if |ls| > 0 {
      NeutralCount(ls[1..]);
      KeyOfNeutral(ls[0]);
    }
  }

  lemma {:induction false} PositiveCount(ls: seq<string>)
    ensures CountLabels(ls).positive == Count(ls, "1")
  {
    if |ls| > 0 {
      PositiveCount(ls[1..]);
      KeyOfInFavour(ls[0]);
    }
  }

  /** The page's counts agree with the service's counts on the stance keys. */
  lemma CountsAgreeWithService(comments: seq<Json>)
    requires !HasNull(comments)
    ensures var m := Sentiment.GetSentimentCounts(comments).value;
            var r := ComputeSentimentCounts(comments);
            m["-1"] == r.negative && m["0"] == r.neutral && m["1"] == r.positive
  {
    NegativeCount(Labels(comments));
    NeutralCount(Labels(comments));
    PositiveCount(Labels(comments));
    assert Sentiment.BertLabels(comments).value == Labels(comments);
  }

  // ---------------------------------------------------------------------
  // Percentages

  datatype Percentages = Percentages(negative: int, neutral: int, positive: int) {
    /** Each share is a percentage between 0 and 100. */
    predicate InRange() {
      0 <= negative <= 100 && 0 <= neutral <= 100 && 0 <= positive <= 100
    }
  }

  /** `Math.round((count / total) * 100)`. */
  function Share(count: nat, total: nat): (p: int)
    requires total > 0
    ensures var exact := count as real / total as real * 100.0;
            exact - 0.5 < p as real <= exact + 0.5
  {
    Round(count as real / total as real * 100.0)
  }

  /** A share of at most the whole is a percentage between 0 and 100. */
  lemma ShareInRange(count: nat, total: nat)
    requires 0 < total && count <= total
    ensures 0 <= Share(count, total) <= 100
  {
    UnitRatio(count as real, total as real);
    NearestInRange(Share(count, total) as real, count as real / total as real * 100.0);
  }

  function PercentagesOf(c: StanceCounts, total: nat): Percentages
    requires total > 0
  {
    Percentages(Share(c.negative, total), Share(c.neutral, total), Share(c.positive, total))
  }

  /** When every comment has a stance, the rounded percentages add up to
      100 give or take one point. */
  lemma PercentagesNearHundred(c: StanceCounts, total: nat)
    requires total > 0 && c.Total() == total
    ensures var p := PercentagesOf(c, total);
            99 <= p.negative + p.neutral + p.positive <= 101
  {
    var t := total as real;
    var a := c.negative as real / t * 100.0;
    var b := c.neutral as real / t * 100.0;
    var d := c.positive as real / t * 100.0;
    assert a + b + d == 100.0 by {
      DivSum(c.negative as real, c.neutral as real, c.positive as real, t);
    }
  }

  lemma DivSum(x: real, y: real, z: real, t: real)
    requires t > 0.0
    ensures x / t * 100.0 + y / t * 100.0 + z / t * 100.0 == (x + y + z) / t * 100.0
  {
  }

  // ---------------------------------------------------------------------
  // Sample comments

  /** `s.length` of a JavaScript string: UTF-16 code units, two for a
      character outside the Basic Multilingual Plane. */
  function Utf16Length(s: string): (n: nat)
    ensures |s| <= n <= 2 * |s|
  {
    if |s| == 0 then 0 else (if s[0] as int > 0xFFFF then 2 else 1) + Utf16Length(s[1..])
  }

  /** `c.comentario && c.comentario.length > 50`. A string or an array has
      its own length; an object is compared through its `length` field, as
      `>` converts it to a number; numbers and booleans have no `length`,
      and `undefined > 50` is false. */
  predicate Long(c: Json) {
    var t := Prop(Some(c), "comentario");
    Truthy(t) &&
    match t.value
    case JStr(s) => Utf16Length(s) > 50
    case JArr(items) => |items| > 50
    case JObj(_) => Fin(50.0).Below(ToNumber(Prop(t, "length")))
    case _ => false
  }

  /** A comment whose `comentario` is an object with a `length` above 50 is
      long, and with a stance it is a candidate for the sample; with a
      `length` of 50 it is not. */
  lemma LongObjectComment(n: int)
    ensures var c := JObj(map["comentario" := JObj(map["length" := JNum(Decimal(n, 0))]),
                              "new_BERT" := JNum(Decimal(1, 0))]);
            (Long(c) <==> n > 50) && (Sampled(c) <==> n > 50)
  {
    var c := JObj(map["comentario" := JObj(map["length" := JNum(Decimal(n, 0))]),
                      "new_BERT" := JNum(Decimal(1, 0))]);
    var t := Prop(Some(c), "comentario");
    assert t == Some(JObj(map["length" := JNum(Decimal(n, 0))]));
    assert ToNumber(Prop(t, "length")) == Fin(n as real);
    assert StanceIs(c, 1);
  }

  /** `c.new_BERT === k`: only a number equal to `k` matches. */
  predicate StanceIs(c: Json, k: int) {
    var v := Prop(Some(c), "new_BERT");
    v.Some? && v.value.JNum? && DecimalValue(v.value.n) == k as real
  }

  /** The position of a stance in the sample: in favour, neutral, against. */
  function Rank(c: Json): nat {
    if StanceIs(c, 1) then 0 else if StanceIs(c, 0) then 1 else 2
  }

  predicate Sampled(c: Json) {
    Long(c) && (StanceIs(c, 1) || StanceIs(c, 0) || StanceIs(c, -1))
  }

  /** `allValid`: the long comments, in order; `c.comentario` of a `null`
      comment throws. */
  function LongComments(comments: seq<Json>): (r: Result<seq<Json>>)
    ensures r.Err? <==> HasNull(comments)
    ensures r.Err? ==> r.error == TypeError
    ensures r.Ok? ==> forall x :: x in r.value <==> x in comments && Long(x)
  {
    if |comments| == 0 then Ok([])
    else
      HasNullCons(comments);
      match LongComments(comments[1..])
      case Err(e) => Err(e)
      case Ok(rest) =>
        if comments[0] == JNull then Err(TypeError)
        else Ok((if Long(comments[0]) then [comments[0]] else []) + rest)
  }

  /** `.filter(c => c.new_BERT === k)`. */
  function WithStance(cs: seq<Json>, k: int): (r: seq<Json>)
    ensures forall x :: x in r <==> x in cs && StanceIs(x, k)
  {
    if |cs| == 0 then []
    else (if StanceIs(cs[0], k) then [cs[0]] else []) + WithStance(cs[1..], k)
  }

  /** A single comment: `null` throws, any other is kept exactly when it is long. */
  lemma LongCommentsSingle(x: Json)
    ensures x == JNull ==> LongComments([x]) == Err(TypeError)
    ensures x != JNull ==> LongComments([x]) == Ok(if Long(x) then [x] else [])
  {
    assert [x][1..] == [];
    assert HasNull([x]) <==> x == JNull by {
      if x == JNull { assert [x][0] == JNull; }
    }
    var head := if Long(x) then [x] else [];
    assert head + [] == head;
  }

  /** The long comments of a concatenation are those of the parts, one after
      the other: with `LongCommentsSingle` this fixes them, in comment order
      and with their repetitions. */
  lemma {:induction false} LongCommentsAppend(a: seq<Json>, b: seq<Json>)
    ensures LongComments(a + b) == Then(LongComments(a), LongComments(b))
  {
    if |a| == 0 {
      assert a + b == b;
      var rb := LongComments(b);
      if rb.Ok? {
        assert [] + rb.value == rb.value;
      }
    } else {
      assert (a + b)[0] == a[0];
      assert (a + b)[1..] == a[1..] + b;
      LongCommentsAppend(a[1..], b);
      var ra := LongComments(a[1..]);
      var rb := LongComments(b);
      if a[0] != JNull && ra.Ok? && rb.Ok? {
        ConcatAssoc(if Long(a[0]) then [a[0]] else [], ra.value, rb.value);
      }
    }
  }

  /** A single comment is kept exactly when it has the stance. */
  lemma WithStanceSingle(x: Json, k: int)
    ensures WithStance([x], k) == if StanceIs(x, k) then [x] else []
  {
    assert [x][1..] == [];
    var head := if StanceIs(x, k) then [x] else [];
    assert head + [] == head;
  }

  /** The comments of a stance in a concatenation are those of the parts,
      one after the other. */
  lemma {:induction false} WithStanceAppend(a: seq<Json>, b: seq<Json>, k: int)
    ensures WithStance(a + b, k) == WithStance(a, k) + WithStance(b, k)
  {
    if |a| == 0 {
      assert a + b == b;
    } else {
      assert (a + b)[0] == a[0];
      assert (a + b)[1..] == a[1..] + b;
      WithStanceAppend(a[1..], b, k);
      var head := if StanceIs(a[0], k) then [a[0]] else [];
      ConcatAssoc(head, WithStance(a[1..], k), WithStance(b, k));
    }
  }

  /** Comments that all have the stance are kept whole. */
  lemma {:induction false} WithStanceKeepsAll(xs: seq<Json>, k: int)
    requires forall x :: x in xs ==> StanceIs(x, k)
    ensures WithStance(xs, k) == xs
  {
    if |xs| > 0 {
      MemberCons(xs);
      WithStanceKeepsAll(xs[1..], k);
      ConsSplit(xs);
    }
  }

  /** Comments none of which has the stance are all dropped. */
  lemma {:induction false} WithStanceDropsAll(xs: seq<Json>, k: int)
    requires forall x :: x in xs ==> !StanceIs(x, k)
    ensures WithStance(xs, k) == []
  {
    if |xs| > 0 {
      MemberCons(xs);
      WithStanceDropsAll(xs[1..], k);
    }
  }

  /** `.slice(0, 2)`. */
  function FirstTwo(xs: seq<Json>): (r: seq<Json>)
    ensures |r| <= 2 && (|xs| <= 2 ==> r == xs) && (|xs| > 2 ==> |r| == 2)
    ensures forall x :: x in r ==> x in xs
  {
    if |xs| <= 2 then xs else xs[..2]
  }

  /** The sample: long comments with a stance, in favour first, then
      neutral, then against, no stance three times, and a long comment of
      a stance left out only when its stance already fills two places. */
  function Sample(comments: seq<Json>): (r: Result<seq<Json>>)
    ensures r.Err? <==> HasNull(comments)
    ensures r.Ok? ==> |r.value| <= 6
    ensures r.Ok? ==> forall i :: 0 <= i < |r.value| ==> r.value[i] in comments && Sampled(r.value[i])
    ensures r.Ok? ==> forall i, j :: 0 <= i < j < |r.value| ==> Rank(r.value[i]) <= Rank(r.value[j])
    ensures r.Ok? ==> forall i :: 0 <= i < |r.value| - 2 ==> Rank(r.value[i]) != Rank(r.value[i + 2])
    ensures r.Ok? ==> forall x :: x in comments && Sampled(x) && x !in r.value ==>
      exists i :: 0 <= i < |r.value| - 1 && Rank(r.value[i]) == Rank(x) == Rank(r.value[i + 1])
  {
    match LongComments(comments)
    case Err(e) => Err(e)
    case Ok(valid) =>
      var pos := FirstTwo(WithStance(valid, 1));
      var neu := FirstTwo(WithStance(valid, 0));
      var neg := FirstTwo(WithStance(valid, -1));
      SampleShape(comments, valid, pos, neu, neg);
      Ok(pos + neu + neg)
  }

  /** The sample takes, of each stance, the first two long comments of that
      stance in comment order. */
  lemma SampleTakesFirstTwo(comments: seq<Json>)
    ensures Sample(comments).Ok? ==>
      WithStance(Sample(comments).value, 1) == FirstTwo(WithStance(LongComments(comments).value, 1))
    ensures Sample(comments).Ok? ==>
      WithStance(Sample(comments).value, 0) == FirstTwo(WithStance(LongComments(comments).value, 0))
    ensures Sample(comments).Ok? ==>
      WithStance(Sample(comments).value, -1) == FirstTwo(WithStance(LongComments(comments).value, -1))
  {
    if LongComments(comments).Ok? {
      var valid := LongComments(comments).value;
      var pos := FirstTwo(WithStance(valid, 1));
      var neu := FirstTwo(WithStance(valid, 0));
      var neg := FirstTwo(WithStance(valid, -1));
      assert Sample(comments).value == pos + neu + neg;
      StanceSlice(pos, neu, neg, 1, 0, -1);
      StanceSlice(neu, pos, neg, 0, 1, -1);
      StanceSlice(neg, pos, neu, -1, 1, 0);
      WithStanceAppend(pos, neu, 0);
      WithStanceAppend(pos + neu, neg, 0);
      WithStanceAppend(pos, neu, 1);
      WithStanceAppend(pos + neu, neg, 1);
      WithStanceAppend(pos, neu, -1);
      WithStanceAppend(pos + neu, neg, -1);
    }
  }

  /** Of three parts whose comments have the stances `k`, `j` and `l`, one
      each, only the first is kept when filtering on `k`. */
  lemma StanceSlice(mine: seq<Json>, other1: seq<Json>, other2: seq<Json>, k: int, j: int, l: int)
    requires k != j && k != l
    requires forall x :: x in mine ==> StanceIs(x, k)
    requires forall x :: x in other1 ==> StanceIs(x, j)
    requires forall x :: x in other2 ==> StanceIs(x, l)
    ensures WithStance(mine, k) == mine && WithStance(other1, k) == [] && WithStance(other2, k) == []
  {
    WithStanceKeepsAll(mine, k);
    WithStanceDropsAll(other1, k);
    WithStanceDropsAll(other2, k);
  }

  lemma SampleShape(comments: seq<Json>, valid: seq<Json>, pos: seq<Json>, neu: seq<Json>, neg: seq<Json>)
    requires forall x :: x in valid <==> x in comments && Long(x)
    requires pos == FirstTwo(WithStance(valid, 1))
    requires neu == FirstTwo(WithStance(valid, 0))
    requires neg == FirstTwo(WithStance(valid, -1))
    ensures var r := pos + neu + neg;
            |r| <= 6
            && (forall i :: 0 <= i < |r| ==> r[i] in comments && Sampled(r[i]))
            && (forall i, j :: 0 <= i < j < |r| ==> Rank(r[i]) <= Rank(r[j]))
            && (forall i :: 0 <= i < |r| - 2 ==> Rank(r[i]) != Rank(r[i + 2]))
            && (forall x :: x in comments && Sampled(x) && x !in r ==>
                  exists i :: 0 <= i < |r| - 1 && Rank(r[i]) == Rank(x) == Rank(r[i + 1]))
  {
    PartRanked(valid, 1, 0);
    PartRanked(valid, 0, 1);
    PartRanked(valid, -1, 2);
    var r := pos + neu + neg;
    Concat3(pos, neu, neg);
    SampleMembers(comments, valid, pos, neu, neg);
    Layout(r, |pos|, |pos| + |neu|);
    SampleComplete(comments, valid, pos, neu, neg);
  }

  lemma SampleMembers(comments: seq<Json>, valid: seq<Json>, pos: seq<Json>, neu: seq<Json>, neg: seq<Json>)
    requires forall x :: x in valid <==> x in comments && Long(x)
    requires forall x :: x in pos ==> x in valid && StanceIs(x, 1)
    requires forall x :: x in neu ==> x in valid && StanceIs(x, 0)
    requires forall x :: x in neg ==> x in valid && StanceIs(x, -1)
    ensures forall x :: x in pos + neu + neg ==> x in comments && Sampled(x)
  {
  }

  /** A long comment with a stance is missing from the sample only when
      two comments of its stance sit next to each other in it. */
  lemma SampleComplete(comments: seq<Json>, valid: seq<Json>, pos: seq<Json>, neu: seq<Json>, neg: seq<Json>)
    requires forall x :: x in valid <==> x in comments && Long(x)
    requires pos == FirstTwo(WithStance(valid, 1))
    requires neu == FirstTwo(WithStance(valid, 0))
    requires neg == FirstTwo(WithStance(valid, -1))
    requires forall i :: 0 <= i < |pos| ==> Rank(pos[i]) == 0
    requires forall i :: 0 <= i < |neu| ==> Rank(neu[i]) == 1
    requires forall i :: 0 <= i < |neg| ==> Rank(neg[i]) == 2
    ensures var r := pos + neu + neg;
            forall x :: x in comments && Sampled(x) && x !in r ==>
              exists i :: 0 <= i < |r| - 1 && Rank(r[i]) == Rank(x) == Rank(r[i + 1])
  {
    var r := pos + neu + neg;
    forall x | x in comments && Sampled(x) && x !in r
      ensures exists i :: 0 <= i < |r| - 1 && Rank(r[i]) == Rank(x) == Rank(r[i + 1])
    {
      MissingOne(valid, pos, neu, neg, x);
    }
  }

  /** One long comment with a stance that the sample leaves out. */
  lemma MissingOne(valid: seq<Json>, pos: seq<Json>, neu: seq<Json>, neg: seq<Json>, x: Json)
    requires x in valid && Sampled(x) && x !in pos + neu + neg
    requires pos == FirstTwo(WithStance(valid, 1))
    requires neu == FirstTwo(WithStance(valid, 0))
    requires neg == FirstTwo(WithStance(valid, -1))
    requires forall i :: 0 <= i < |pos| ==> Rank(pos[i]) == 0
    requires forall i :: 0 <= i < |neu| ==> Rank(neu[i]) == 1
    requires forall i :: 0 <= i < |neg| ==> Rank(neg[i]) == 2
    ensures var r := pos + neu + neg;
            exists i :: 0 <= i < |r| - 1 && Rank(r[i]) == Rank(x) == Rank(r[i + 1])
  {
    if StanceIs(x, 1) {
      assert x in WithStance(valid, 1) && x !in pos && Rank(x) == 0;
      MissingInFavour(WithStance(valid, 1), pos, neu, neg, x);
    } else if StanceIs(x, 0) {
      assert x in WithStance(valid, 0) && x !in neu && Rank(x) == 1;
      MissingNeutral(WithStance(valid, 0), pos, neu, neg, x);
    } else {
      assert x in WithStance(valid, -1) && x !in neg && Rank(x) == 2;
      MissingAgainst(WithStance(valid, -1), pos, neu, neg, x);
    }
  }

  /** A comment of one stance that is missing from the first two of that
      stance; `xs` are the long comments of the stance. */
  lemma MissingInFavour(xs: seq<Json>, pos: seq<Json>, neu: seq<Json>, neg: seq<Json>, x: Json)
    requires x in xs && x !in pos && pos == FirstTwo(xs)
    requires forall i :: 0 <= i < |pos| ==> Rank(pos[i]) == Rank(x)
    ensures var r := pos + neu + neg;
            exists i :: 0 <= i < |r| - 1 && Rank(r[i]) == Rank(x) == Rank(r[i + 1])
  {
    FullWhenMissing(x, xs, pos);
    PairInFirst(pos, neu + neg, Rank(x));
    ConcatAssoc(pos, neu, neg);
  }

  lemma MissingNeutral(xs: seq<Json>, pos: seq<Json>, neu: seq<Json>, neg: seq<Json>, x: Json)
    requires x in xs && x !in neu && neu == FirstTwo(xs)
    requires forall i :: 0 <= i < |neu| ==> Rank(neu[i]) == Rank(x)
    ensures var r := pos + neu + neg;
            exists i :: 0 <= i < |r| - 1 && Rank(r[i]) == Rank(x) == Rank(r[i + 1])
  {
    FullWhenMissing(x, xs, neu);
    PairInMiddle(pos, neu, neg, Rank(x));
  }

  lemma MissingAgainst(xs: seq<Json>, pos: seq<Json>, neu: seq<Json>, neg: seq<Json>, x: Json)
    requires x in xs && x !in neg && neg == FirstTwo(xs)
    requires forall i :: 0 <= i < |neg| ==> Rank(neg[i]) == Rank(x)
    ensures var r := pos + neu + neg;
            exists i :: 0 <= i < |r| - 1 && Rank(r[i]) == Rank(x) == Rank(r[i + 1])
  {
    FullWhenMissing(x, xs, neg);
    PairOfThird(pos, neu, neg);
    AdjacentPair(pos + neu + neg, |pos| + |neu|, Rank(x));
  }

  /** Where a two-element third part sits in a three-part concatenation. */
  lemma PairOfThird<T>(a: seq<T>, b: seq<T>, c: seq<T>)
    requires |c| == 2
    ensures |a + b + c| == |a| + |b| + 2
    ensures (a + b + c)[|a| + |b|] == c[0] && (a + b + c)[|a| + |b| + 1] == c[1]
  {
  }

  /** Where a two-element middle part sits in a three-part concatenation. */
  lemma PairOfMiddle<T>(a: seq<T>, b: seq<T>, c: seq<T>)
    requires |b| == 2
    ensures |a + b + c| >= |a| + 2
    ensures (a + b + c)[|a|] == b[0] && (a + b + c)[|a| + 1] == b[1]
  {
  }

  /** A full first part of one rank gives a pair at the front. */
  lemma PairInFirst(a: seq<Json>, b: seq<Json>, rank: nat)
    requires |a| == 2 && Rank(a[0]) == rank && Rank(a[1]) == rank
    ensures exists j :: 0 <= j < |a + b| - 1 && Rank((a + b)[j]) == rank == Rank((a + b)[j + 1])
  {
    AdjacentPair(a + b, 0, rank);
  }

  /** A full middle part of one rank gives a pair after the first part. */
  lemma PairInMiddle(a: seq<Json>, b: seq<Json>, c: seq<Json>, rank: nat)
    requires |b| == 2 && Rank(b[0]) == rank && Rank(b[1]) == rank
    ensures exists j :: 0 <= j < |a + b + c| - 1 && Rank((a + b + c)[j]) == rank == Rank((a + b + c)[j + 1])
  {
    var r := a + b + c;
    PairOfMiddle(a, b, c);
    AdjacentPair(r, |a|, rank);
  }


  /** Two neighbours of the same rank are a witness for that rank. */
  lemma AdjacentPair(r: seq<Json>, i: nat, rank: nat)
    requires i + 1 < |r| && Rank(r[i]) == rank == Rank(r[i + 1])
    ensures exists j :: 0 <= j < |r| - 1 && Rank(r[j]) == rank == Rank(r[j + 1])
  {
  }

  /** A comment left out of the first two of its stance means those two
      places are taken. */
  lemma FullWhenMissing(x: Json, xs: seq<Json>, part: seq<Json>)
    requires x in xs && x !in part
    requires part == FirstTwo(xs)
    ensures |part| == 2
  {
  }

  /** The first two long comments of stance `k` are long, of that stance,
      and of rank `rank`. */
  lemma PartRanked(valid: seq<Json>, k: int, rank: nat)
    requires (k == 1 && rank == 0) || (k == 0 && rank == 1) || (k == -1 && rank == 2)
    ensures forall x :: x in FirstTwo(WithStance(valid, k)) ==> x in valid && StanceIs(x, k) && Rank(x) == rank
  {
    forall x | x in FirstTwo(WithStance(valid, k)) ensures x in valid && StanceIs(x, k) && Rank(x) == rank {
      if k == -1 {
        assert !StanceIs(x, 1) && !StanceIs(x, 0);
      }
    }
  }

  /** Each position of a three-part concatenation lies in one of its parts. */
  lemma Concat3(a: seq<Json>, b: seq<Json>, c: seq<Json>)
    ensures forall i :: 0 <= i < |a| ==> (a + b + c)[i] in a
    ensures forall i :: |a| <= i < |a| + |b| ==> (a + b + c)[i] in b
    ensures forall i :: |a| + |b| <= i < |a + b + c| ==> (a + b + c)[i] in c
  {
    forall i | |a| <= i < |a| + |b| ensures (a + b + c)[i] in b {
      assert (a + b + c)[i] == b[i - |a|];
    }
    forall i | |a| + |b| <= i < |a + b + c| ensures (a + b + c)[i] in c {
      assert (a + b + c)[i] == c[i - |a| - |b|];
    }
  }

  /** Ranks that step up from 0 to 2 at two cut points at most two apart
      are sorted, and no rank comes three times. */
  lemma Layout(r: seq<Json>, a: nat, b: nat)
    requires a <= 2 && a <= b <= a + 2 && b <= |r| <= b + 2
    requires forall i :: 0 <= i < a ==> Rank(r[i]) == 0
    requires forall i :: a <= i < b ==> Rank(r[i]) == 1
    requires forall i :: b <= i < |r| ==> Rank(r[i]) == 2
    ensures forall i, j :: 0 <= i < j < |r| ==> Rank(r[i]) <= Rank(r[j])
    ensures forall i :: 0 <= i < |r| - 2 ==> Rank(r[i]) != Rank(r[i + 2])
  {
  }

  // ---------------------------------------------------------------------
  // Page state

  datatype PageState = PageState(
    comments: seq<Json>,
    totalComments: nat,
    counts: StanceCounts,
    percentages: Percentages,
    sample: seq<Json>,
    bootstrapStats: seq<Json>,
    groups: seq<Group>,
    metrics: seq<Json>,
    accuracy: Accuracy,
    isLoading: bool,
    timedOut: bool,
    error: string)

  /** A key that is truthy but not a string is unreadable too, so the
      rows the grouping rejects are among those the accuracy rejects. */
  lemma BadKeyUnreadable(rows: seq<Json>)
    ensures HasNull(rows) || HasBadKey(rows) ==> HasUnreadable(rows)
  {
    if HasNull(rows) {
      var i :| 0 <= i < |rows| && rows[i] == JNull;
      assert Unreadable(rows[i]);
    }
    if HasBadKey(rows) {
      var i :| 0 <= i < |rows| && Classify(rows[i]).Bad?;
      assert Unreadable(rows[i]);
    }
  }

  /** The comment part of the page: the comments, their counts, and the
      percentages and sample, which keep their previous value when there
      are no comments. */
  datatype CommentView = CommentView(comments: seq<Json>, counts: StanceCounts,
                                     percentages: Percentages, sample: seq<Json>)

  function ApplyComments(s: PageState, cs: seq<Json>, counts: StanceCounts): (r: Result<CommentView>)
    requires counts.Total() <= |cs|
    ensures r.Err? <==> HasNull(cs)
    ensures r.Ok? ==> r.value.comments == cs && r.value.counts == counts
    ensures r.Ok? && |cs| == 0 ==> r.value.percentages == s.percentages && r.value.sample == s.sample
    ensures r.Ok? && |cs| > 0 ==> r.value.percentages.InRange() && |r.value.sample| <= 6
  {
    if |cs| == 0 then Ok(CommentView(cs, counts, s.percentages, s.sample))
    else
      match Sample(cs)
      case Err(e) => Err(e)
      case Ok(sample) =>
        PercentagesInRange(counts, |cs|);
        Ok(CommentView(cs, counts, PercentagesOf(counts, |cs|), sample))
  }

  /** The comment part of `applyAll`, with the counts of the comments. */
  function CommentsPart(s: PageState, cs: seq<Json>): (r: Result<CommentView>)
    ensures r.Err? <==> HasNull(cs)
    ensures r.Ok? ==> r.value.comments == cs && r.value.counts == ComputeSentimentCounts(cs)
    ensures r.Ok? && cs == [] ==> r.value.percentages == s.percentages && r.value.sample == s.sample
    ensures r.Ok? && |cs| > 0 ==> r.value.percentages.InRange() && |r.value.sample| <= 6
  {
    ApplyComments(s, cs, ComputeSentimentCounts(cs))
  }

  /** The bootstrap part of the page: the rows and their groups, and the
      metrics and accuracy, which keep their previous value when there are
      no rows. */
  datatype BootstrapView = BootstrapView(stats: seq<Json>, groups: seq<Group>,
                                         metrics: seq<Json>, accuracy: Accuracy)

  function ApplyBootstrap(s: PageState, bs: seq<Json>): (r: Result<BootstrapView>)
    ensures r.Err? <==> HasUnreadable(bs)
    ensures r.Ok? ==> r.value.stats == bs && r.value.groups == Expected(bs)
    ensures r.Ok? && |bs| == 0 ==> r.value.metrics == s.metrics && r.value.accuracy == s.accuracy
    ensures r.Ok? && |bs| > 0 ==> r.value.metrics == bs && r.value.accuracy == ModelAccuracy(bs).value
  {
    BadKeyUnreadable(bs);
    match GroupBootstrapResults(bs)
    case Err(e) => Err(e)
    case Ok(groups) =>
      if |bs| == 0 then Ok(BootstrapView(bs, groups, s.metrics, s.accuracy))
      else
        match ModelAccuracy(bs)
        case Err(e) => Err(e)
        case Ok(a) => Ok(BootstrapView(bs, groups, bs, a))
  }

  /** `applyAll` on the comments and bootstrap rows of a dataset: a value
      that is not an array counts as no rows; percentages and sample are
      only recomputed when there are comments, metrics and accuracy only
      when there are bootstrap rows; the page leaves its loading state. A
      `null` comment, or an unreadable bootstrap row, throws. */
  function ApplyAll(s: PageState, comments: Option<Json>, bootstrap: Option<Json>): (r: Result<PageState>)
    ensures r.Err? <==> HasNull(ArrayItems(comments)) || HasUnreadable(ArrayItems(bootstrap))
    ensures r.Err? ==> r.error == TypeError
    ensures r.Ok? ==>
      var t := r.value;
      t.comments == ArrayItems(comments) && t.totalComments == |t.comments|
      && t.counts == ComputeSentimentCounts(t.comments) && t.counts.Total() <= t.totalComments
      && t.bootstrapStats == ArrayItems(bootstrap) && t.groups == Expected(t.bootstrapStats)
      && !t.isLoading && !t.timedOut && t.error == ""
    ensures r.Ok? && ArrayItems(comments) == [] ==>
      r.value.percentages == s.percentages && r.value.sample == s.sample
    ensures r.Ok? && |ArrayItems(comments)| > 0 ==> r.value.percentages.InRange() && |r.value.sample| <= 6
    ensures r.Ok? && |ArrayItems(bootstrap)| == 0 ==>
      r.value.metrics == s.metrics && r.value.accuracy == s.accuracy
    ensures r.Ok? && |ArrayItems(bootstrap)| > 0 ==>
      r.value.metrics == ArrayItems(bootstrap) && r.value.accuracy == ModelAccuracy(ArrayItems(bootstrap)).value
  {
    var c := CommentsPart(s, ArrayItems(comments));
    var b := ApplyBootstrap(s, ArrayItems(bootstrap));
    if c.Err? || b.Err? then Err(TypeError)
    else
      var cv := c.value;
      var bv := b.value;
      Ok(PageState(cv.comments, |cv.comments|, cv.counts, cv.percentages, cv.sample,
                   bv.stats, bv.groups, bv.metrics, bv.accuracy, false, false, ""))
  }

  lemma PercentagesInRange(c: StanceCounts, total: nat)
    requires c.Total() <= total
    ensures total > 0 ==> PercentagesOf(c, total).InRange()
  {
    if total > 0 {
      ShareInRange(c.negative, total);
      ShareInRange(c.neutral, total);
      ShareInRange(c.positive, total);
    }
  }
}

=== FILE: sentiment.dfy ===
/** The sentiment service of the evaluation scenario: loading one dataset
    of the sentiment index (with the `data/` prefix removed from its file
    names) and counting the stance labels of the comments. */
module Sentiment {
  import opened Base
  import opened Strings
  import opened Js
  import opened Series

  /** `${this.base}/${fileName}`, the base being `${root}assets/data/sentiment`. */
  function FileUrl(root: string, file: string): string {
    root + "assets/data/sentiment/" + file
  }

  const DataPrefix: string := "data/"

  /** `path.replace('data/', '')` on a configured path: a string loses its
      first `data/`, wherever it occurs; a value of another type has no
      `replace` method and the call throws. */
  function StripData(path: Json): (r: Result<string>)
    ensures r.Ok? <==> path.JStr?
    ensures r.Err? ==> r.error == TypeError
    ensures r.Ok? && IndexOf(path.s, DataPrefix).None? ==> r.value == path.s
    ensures r.Ok? && IndexOf(path.s, DataPrefix).Some? ==>
      var i := IndexOf(path.s, DataPrefix).value;
      r.value == path.s[..i] + path.s[i + |DataPrefix|..] && |r.value| + |DataPrefix| == |path.s|
  {
    match path
    case JStr(s) => Ok(ReplaceFirst(s, DataPrefix, ""))
    case _ => Err(TypeError)
  }

  /** Only the first `data/` goes: a leading one is removed and whatever
      follows it is kept, a further `data/` included. */
  lemma StripDataOnce(rest: string)
    ensures StripData(JStr(DataPrefix + rest)) == Ok(rest)
    ensures StripData(JStr(DataPrefix + DataPrefix + rest)) == Ok(DataPrefix + rest)
  {
    ReplaceAtStart(DataPrefix, rest);
    assert DataPrefix + DataPrefix + rest == DataPrefix + (DataPrefix + rest);
    ReplaceAtStart(DataPrefix, DataPrefix + rest);
  }

  datatype SentimentData = SentimentData(bootstrap: seq<Json>, comments: seq<Json>)

  /** `loadDataset` on the content of `datasets.json` (`None` for a failed
      request, which `fetchJson` turns into `null`) and a fetch of the data
      files (`None` for a failed request). */
  function LoadDataset(datasets: Option<Json>, id: string, root: string,
                       fetch: string -> Option<Json>): (r: Result<SentimentData>)
    ensures !Truthy(datasets) || !Truthy(Prop(datasets, id)) ==> r == Err(NotFound(id))
    ensures Truthy(Prop(datasets, id)) &&
            (!Truthy(Prop(Prop(datasets, id), "bootstrapFile")) || !Truthy(Prop(Prop(datasets, id), "commentsFile"))) ==>
      r == Err(IncompleteConfig(id))
    ensures r.Ok? ==>
      var b := Prop(Prop(datasets, id), "bootstrapFile");
      var c := Prop(Prop(datasets, id), "commentsFile");
      Truthy(b) && Truthy(c) && b.value.JStr? && c.value.JStr?
      && r.value.bootstrap == ArrayItems(fetch(FileUrl(root, ReplaceFirst(b.value.s, DataPrefix, ""))))
      && r.value.comments == ArrayItems(fetch(FileUrl(root, ReplaceFirst(c.value.s, DataPrefix, ""))))
    ensures (Truthy(Prop(Prop(datasets, id), "bootstrapFile")) && Truthy(Prop(Prop(datasets, id), "commentsFile"))) ==>
      (r.Ok? <==> Prop(Prop(datasets, id), "bootstrapFile").value.JStr?
                  && Prop(Prop(datasets, id), "commentsFile").value.JStr?)
  {
    if !Truthy(datasets) || !Truthy(Prop(datasets, id)) then Err(NotFound(id))
    else
      var config := Prop(datasets, id);
      var bootstrapPath := Prop(config, "bootstrapFile");
      var commentsPath := Prop(config, "commentsFile");
      if !Truthy(bootstrapPath) || !Truthy(commentsPath) then Err(IncompleteConfig(id))
      else
        match (StripData(bootstrapPath.value), StripData(commentsPath.value))
        case (Ok(bootstrapFile), Ok(commentsFile)) =>
          Ok(SentimentData(ArrayItems(fetch(FileUrl(root, bootstrapFile))),
                           ArrayItems(fetch(FileUrl(root, commentsFile)))))
        case _ => Err(TypeError)
  }

  // ---------------------------------------------------------------------
  // Label counts

  /** The three stance labels: against, neutral, in favour. */
  const StanceKeys: seq<string> := ["-1", "0", "1"]

  /** `String(c.new_BERT ?? '0')` of a comment that is not `null`. */
  function BertLabel(c: Json): string {
    StringOf(Some(Default(Prop(Some(c), "new_BERT"), JStr("0"))))
  }

  /** A comment without a label, or with a `null` one, counts as neutral. */
  lemma MissingLabelIsNeutral(c: Json)
    requires Nullish(Prop(Some(c), "new_BERT"))
    ensures BertLabel(c) == "0"
  {
  }

  /** The label of every comment; reading `new_BERT` of `null` throws. */
  function BertLabels(comments: seq<Json>): (r: Result<seq<string>>)
    ensures r.Err? <==> HasNull(comments)
    ensures r.Err? ==> r.error == TypeError
    ensures r.Ok? ==> |r.value| == |comments|
    ensures r.Ok? ==> forall i :: 0 <= i < |comments| ==> r.value[i] == BertLabel(comments[i])
  {
    if |comments| == 0 then Ok([])
    else
      HasNullCons(comments);
      var rest := BertLabels(comments[1..]);
      if comments[0] == JNull then Err(TypeError)
      else if rest.Err? then rest
      else
        TailIndex(comments);
        Ok([BertLabel(comments[0])] + rest.value)
  }

  /** The counts the loop should produce: every stance key and every label
      that occurs, each with its number of occurrences. */
  function LabelCounts(labels: seq<string>): (m: map<string, nat>)
    ensures forall k :: k in m <==> k in StanceKeys || k in labels
  {
    map k | k in StanceKeys + labels :: Count(labels, k)
  }

  /** The counting loop of `getSentimentCounts`: start from the three
      stance keys at zero, create a key on its first occurrence, and add one. */
  function CountLoop(labels: seq<string>): (m: map<string, nat>)
    decreases |labels|
  {
    if |labels| == 0 then map["-1" := 0, "0" := 0, "1" := 0]
    else
      var m := CountLoop(labels[..|labels| - 1]);
      var v := labels[|labels| - 1];
      var current := if v in m then m[v] else 0;
      m[v := current + 1]
  }

  /** The loop computes exactly the counts. */
  lemma {:induction false} CountLoopCounts(labels: seq<string>)
    ensures CountLoop(labels) == LabelCounts(labels)
  {
    if |labels| == 0 {
      var m := CountLoop(labels);
      var n := LabelCounts(labels);
      forall k ensures k in m <==> k in n {
      }
      forall k | k in m ensures m[k] == n[k] {
      }
    } else {
      var init := labels[..|labels| - 1];
      var v := labels[|labels| - 1];
      assert labels == init + [v];
      CountLoopCounts(init);
      var m := CountLoop(labels);
      var n := LabelCounts(labels);
      forall k ensures k in m <==> k in n {
        assert k in labels <==> k in init || k == v;
      }
      forall k | k in m ensures m[k] == n[k] {
        CountAppend(init, [v], k);
        if k !in init && k !in StanceKeys {
          CountAbsent(init, k);
        }
      }
    }
  }

  /** `getSentimentCounts`: the stance keys are always present, any other
      label gets a key of its own, and each key holds its number of comments. */
  function GetSentimentCounts(comments: seq<Json>): (r: Result<map<string, nat>>)
    ensures r.Err? <==> HasNull(comments)
    ensures r.Ok? ==> forall k :: k in StanceKeys ==> k in r.value
    ensures r.Ok? ==> r.value == LabelCounts(BertLabels(comments).value)
  {
    match BertLabels(comments)
    case Err(e) => Err(e)
    case Ok(labels) =>
      CountLoopCounts(labels);
      Ok(CountLoop(labels))
  }

  /** The counts listed in key order. */
  function ValuesOver(m: map<string, nat>, keys: seq<string>): (vs: seq<nat>)
    requires forall k :: k in keys ==> k in m
    ensures |vs| == |keys|
    ensures forall i :: 0 <= i < |keys| ==> vs[i] == m[keys[i]]
  {
    if |keys| == 0 then [] else [m[keys[0]]] + ValuesOver(m, keys[1..])
  }

  /** Conservation: the counts, each key taken once, add up to the number
      of comments. */
  lemma SentimentCountsConserve(comments: seq<Json>)
    requires !HasNull(comments)
    ensures var m := GetSentimentCounts(comments).value;
            var keys := SortedDistinct(StanceKeys + BertLabels(comments).value);
            (forall k :: k in keys <==> k in m) && Sum(ValuesOver(m, keys)) == |comments|
  {
    var labels := BertLabels(comments).value;
    var keys := SortedDistinct(StanceKeys + labels);
    assert forall k :: k in StanceKeys + labels <==> k in StanceKeys || k in labels;
    StrictlySortedDistinct(keys);
    CountsRead(labels, keys);
    SumCountsOver(keys, labels);
  }

  /** Reading the counts back along a key list gives the per-key counts. */
  lemma CountsRead(labels: seq<string>, keys: seq<string>)
    requires forall k :: k in keys ==> k in LabelCounts(labels)
    ensures ValuesOver(LabelCounts(labels), keys) == CountsOver(keys, labels)
  {
  }
}

=== FILE: sentiment_real.dfy ===
/** The stance service of the real scenario: resolving the file names of
    its dataset index by prefix, and loading one dataset with its comments
    and bootstrap rows. */
module SentimentReal {
  import opened Base
  import opened Strings
  import opened Js
  import opened Paths
  import opened Series

  const AssetsData: string := "assets/data/"
  const RealDir: string := "sentiment/cenario-real"

  /** `${root}assets/data/sentiment/cenario-real`. */
  function RealBase(root: string): string {
    root + AssetsData + RealDir
  }

  /** `/^https?:\/\//i`: an absolute http or https URL, in any letter case. */
  predicate IsAbsoluteUrl(s: string) {
    StartsWith(Lower(s), "http://") || StartsWith(Lower(s), "https://")
  }

  /** `resolve`: the rules are tried in order. `root` is the base href
      with a trailing slash (`Paths.Root`). */
  function Resolve(root: string, input: string): (url: string)
    ensures IsAbsoluteUrl(input) ==> url == input
    ensures !IsAbsoluteUrl(input) ==> StartsWith(url, root)
    ensures !IsAbsoluteUrl(input) && StartsWith(input, "assets/") ==> url == root + input
    ensures (!IsAbsoluteUrl(input) && !StartsWith(input, "assets/") && StartsWith(input, "data/")) ==>
      url == RealBase(root) + "/" + input[5..]
    ensures (!IsAbsoluteUrl(input) && !StartsWith(input, "assets/") && !StartsWith(input, "data/")
             && StartsWith(input, "sentiment/")) ==>
      url == root + AssetsData + input
    ensures Plain(input) ==> url == RealBase(root) + "/" + input
  {
    if IsAbsoluteUrl(input) then input
    else if StartsWith(input, "assets/") then root + input
    else if StartsWith(input, "data/") then RealBase(root) + "/" + input[5..]
    else if StartsWith(input, "sentiment/") then root + AssetsData + input
    else RealBase(root) + "/" + input
  }

  /** A name that none of the prefix rules applies to. */
  predicate Plain(name: string) {
    !IsAbsoluteUrl(name) && !StartsWith(name, "assets/") && !StartsWith(name, "data/")
    && !StartsWith(name, "sentiment/")
  }

  /** The scheme test ignores letter case. */
  lemma SchemeIgnoresCase(s: string)
    ensures IsAbsoluteUrl(Lower(s)) <==> IsAbsoluteUrl(s)
  {
    LowerIdempotent(s);
  }

  /** Every spelling of a file of the `cenario-real` directory resolves to
      the same URL: bare, under `data/`, under `sentiment/cenario-real/` and
      under `assets/data/sentiment/cenario-real/`. */
  lemma SpellingsAgree(root: string, name: string)
    requires Plain(name)
    ensures Resolve(root, "data/" + name) == Resolve(root, name)
    ensures Resolve(root, RealDir + "/" + name) == Resolve(root, name)
    ensures Resolve(root, AssetsData + RealDir + "/" + name) == Resolve(root, name)
  {
    DataSpelling(root, name);
    SentimentSpelling(root, name);
    AssetsSpelling(root, name);
  }

  lemma DataSpelling(root: string, name: string)
    requires Plain(name)
    ensures Resolve(root, "data/" + name) == RealBase(root) + "/" + name
  {
    var d := "data/" + name;
    assert d[..5] == "data/" && d[5..] == name;
    NotAbsolute(d);
    assert !StartsWith(d, "assets/") by { assert d[0] == 'd'; }
  }

  lemma SentimentSpelling(root: string, name: string)
    requires Plain(name)
    ensures Resolve(root, RealDir + "/" + name) == RealBase(root) + "/" + name
  {
    PrefixKept(RealDir + "/", name, "sentiment/");
    UnderSentiment(RealDir + "/" + name);
    ConcatAssoc(root, AssetsData, RealDir + "/" + name);
  }

  /** A prefix of the first part is a prefix of the whole. */
  lemma PrefixKept(p: string, q: string, r: string)
    requires StartsWith(p, r)
    ensures StartsWith(p + q, r)
  {
    assert (p + q)[..|r|] == p[..|r|];
  }

  /** A name under `sentiment/` falls through to the fourth rule. */
  lemma UnderSentiment(s: string)
    requires StartsWith(s, "sentiment/")
    ensures !IsAbsoluteUrl(s) && !StartsWith(s, "assets/") && !StartsWith(s, "data/")
  {
    assert s[0] == 's';
    NotAbsolute(s);
  }

  lemma AssetsSpelling(root: string, name: string)
    requires Plain(name)
    ensures Resolve(root, AssetsData + RealDir + "/" + name) == RealBase(root) + "/" + name
  {
    var a := AssetsData + RealDir + "/" + name;
    assert a[..7] == "assets/";
    NotAbsolute(a);
  }

  /** A name that starts with neither `h` nor `H` is not an absolute URL. */
  lemma NotAbsolute(s: string)
    requires |s| > 0 && s[0] != 'h' && s[0] != 'H'
    ensures !IsAbsoluteUrl(s)
  {
    assert Lower(s)[0] == LowerChar(s[0]);
  }

  /** `data ?? {}` on the content of `datasets.json`; a failed request
      throws out of `fetchJson`. */
  function GetDatasets(fetched: Option<Json>): (r: Result<Json>)
    ensures fetched.None? ==> r == Err(FetchFailed)
    ensures fetched == Some(JNull) ==> r == Ok(JObj(map[]))
    ensures fetched.Some? && fetched.value != JNull ==> r == Ok(fetched.value)
  {
    match fetched
    case None => Err(FetchFailed)
    case Some(data) => Ok(Default(Some(data), JObj(map[])))
  }

  datatype Meta = Meta(id: string, title: Option<Json>, total: nat)

  datatype RealDataset = RealDataset(meta: Meta, comments: seq<Json>, bootstrap: seq<Json>)

  /** The URL a configured file name is fetched from: `resolve(`${name}`)`,
      so a missing name becomes the text `undefined`. */
  function ConfiguredUrl(href: Option<string>, config: Option<Json>, key: string): string {
    Resolve(Root(BaseHref(href)), StringOf(Prop(config, key)))
  }

  /** `loadDataset`: an unknown id fails; the comments and bootstrap rows are
      the array contents of their files, a failed request or a non-array
      giving no rows; the total is the number of comments. */
  function LoadDataset(index: Option<Json>, id: string, href: Option<string>,
                       fetch: string -> Option<Json>): (r: Result<RealDataset>)
    ensures index.None? ==> r == Err(FetchFailed)
    ensures index.Some? && !Truthy(Prop(Some(GetDatasets(index).value), id)) ==> r == Err(NotFound(id))
    ensures index.Some? && Truthy(Prop(Some(GetDatasets(index).value), id)) ==> r.Ok?
    ensures r.Ok? ==> r.value.meta.id == id && r.value.meta.total == |r.value.comments|
    ensures r.Ok? ==>
      var config := Prop(Some(GetDatasets(index).value), id);
      Truthy(config)
      && r.value.comments == ArrayItems(fetch(ConfiguredUrl(href, config, "commentsFile")))
      && r.value.bootstrap == ArrayItems(fetch(ConfiguredUrl(href, config, "bootstrapFile")))
      && r.value.meta.title == Prop(config, "title")
  {
    match GetDatasets(index)
    case Err(e) => Err(e)
    case Ok(all) =>
      var config := Prop(Some(all), id);
      if !Truthy(config) then Err(NotFound(id))
      else
        var comments := ArrayItems(fetch(ConfiguredUrl(href, config, "commentsFile")));
        var bootstrap := ArrayItems(fetch(ConfiguredUrl(href, config, "bootstrapFile")));
        Ok(RealDataset(Meta(id, Prop(config, "title"), |comments|), comments, bootstrap))
  }
}

=== FILE: series.dfy ===
/** Bucketed counts as the charts display them: the sorted distinct bucket
    keys (`Object.keys(buckets).sort()`) and, aligned with them, how many
    records fell in each bucket. */
module Series {
  import opened Base
  import opened Strings

  /** A chart series: `labels[i]` is shown with `values[i]`. */
  datatype Series = Series(labels: seq<string>, values: seq<nat>)

  type AlignedSeries = s: Series | |s.labels| == |s.values| witness Series([], [])

  /** Number of occurrences of `k` among the keys. */
  function Count(ks: seq<string>, k: string): nat {
    if |ks| == 0 then 0 else (if ks[0] == k then 1 else 0) + Count(ks[1..], k)
  }

  function Sum(vs: seq<nat>): nat {
    if |vs| == 0 then 0 else vs[0] + Sum(vs[1..])
  }

  predicate Distinct(s: seq<string>) {
    forall i, j :: 0 <= i < j < |s| ==> s[i] != s[j]
  }

  /** Some element satisfies `p` exactly when the first one or one of the
      rest does. */
  lemma ExistsCons<T>(xs: seq<T>, p: T -> bool)
    requires |xs| > 0
    ensures (exists i :: 0 <= i < |xs| && p(xs[i])) <==> p(xs[0]) || exists j :: 0 <= j < |xs[1..]| && p(xs[1..][j])
  {
    var tail := xs[1..];
    if exists i :: 0 <= i < |xs| && p(xs[i]) {
      var i :| 0 <= i < |xs| && p(xs[i]);
      if i > 0 { assert tail[i - 1] == xs[i]; }
    }
    if exists j :: 0 <= j < |tail| && p(tail[j]) {
      var j :| 0 <= j < |tail| && p(tail[j]);
      assert xs[j + 1] == tail[j];
    }
  }

  lemma {:induction false} CountPositive(ks: seq<string>, k: string)
    requires k in ks
    ensures Count(ks, k) > 0
  {
    if ks[0] != k {
      CountPositive(ks[1..], k);
    }
  }

  lemma {:induction false} CountAbsent(ks: seq<string>, k: string)
    requires k !in ks
    ensures Count(ks, k) == 0
  {
    if |ks| > 0 {
      CountAbsent(ks[1..], k);
    }
  }

  lemma {:induction false} CountAppend(a: seq<string>, b: seq<string>, k: string)
    ensures Count(a + b, k) == Count(a, k) + Count(b, k)
  {
    if |a| == 0 {
      assert a + b == b;
    } else {
      assert (a + b)[1..] == a[1..] + b;
      CountAppend(a[1..], b, k);
    }
  }

  lemma {:induction false} SumAppend(a: seq<nat>, b: seq<nat>)
    ensures Sum(a + b) == Sum(a) + Sum(b)
  {
    if |a| == 0 {
      assert a + b == b;
    } else {
      assert (a + b)[1..] == a[1..] + b;
      SumAppend(a[1..], b);
    }
  }

  /** Inserts a key into a strictly sorted list, keeping it strictly sorted. */
  function Insert(x: string, s: seq<string>): (r: seq<string>)
    requires StrictlySorted(s)
    ensures StrictlySorted(r)
    ensures forall k :: k in r <==> k == x || k in s
    ensures |r| <= |s| + 1
  {
    if |s| == 0 then [x]
    else if x == s[0] then s
    else if Less(x, s[0]) then
      assert forall j :: 0 <= j < |s| ==> Less(x, s[j]) by {
        forall j | 0 <= j < |s| ensures Less(x, s[j]) {
          if j > 0 { LessTransitive(x, s[0], s[j]); }
        }
      }
      [x] + s
    else
      LessTotal(x, s[0]);
      var tail := Insert(x, s[1..]);
      assert forall k :: k in tail ==> Less(s[0], k);
      [s[0]] + tail
  }

  /** The distinct keys in ascending order: `Object.keys(...).sort()` over
      buckets filled from `ks`. */
  function SortedDistinct(ks: seq<string>): (r: seq<string>)
    ensures StrictlySorted(r)
    ensures forall k :: k in r <==> k in ks
    ensures |r| <= |ks|
  {
    if |ks| == 0 then [] else Insert(ks[0], SortedDistinct(ks[1..]))
  }

  /** The bucket counts read back for each label, as in `labels.map(k => buckets[k])`. */
  function CountsOver(labels: seq<string>, ks: seq<string>): (r: seq<nat>)
    ensures |r| == |labels|
    ensures forall i :: 0 <= i < |labels| ==> r[i] == Count(ks, labels[i])
  {
    if |labels| == 0 then [] else [Count(ks, labels[0])] + CountsOver(labels[1..], ks)
  }

  /** One more key adds one to the total exactly when it has a label. */
  lemma {:induction false} SumCountsCons(labels: seq<string>, x: string, rest: seq<string>)
    requires Distinct(labels)
    ensures Sum(CountsOver(labels, [x] + rest)) == Sum(CountsOver(labels, rest)) + (if x in labels then 1 else 0)
  {
    if |labels| > 0 {
      assert ([x] + rest)[1..] == rest;
      assert Distinct(labels[1..]);
      SumCountsCons(labels[1..], x, rest);
      if x == labels[0] {
        assert x !in labels[1..];
      }
    }
  }

  /** Count conservation: when every key has its (single) label, the bucket
      counts add up to the number of keys. */
  lemma {:induction false} SumCountsOver(labels: seq<string>, ks: seq<string>)
    requires Distinct(labels)
    requires forall k :: k in ks ==> k in labels
    ensures Sum(CountsOver(labels, ks)) == |ks|
  {
    if |ks| == 0 {
      CountsOverEmpty(labels);
    } else {
      ConsSplit(ks);
      SumCountsCons(labels, ks[0], ks[1..]);
      SumCountsOver(labels, ks[1..]);
    }
  }

  lemma {:induction false} CountsOverEmpty(labels: seq<string>)
    ensures Sum(CountsOver(labels, [])) == 0
  {
    if |labels| > 0 {
      CountsOverEmpty(labels[1..]);
    }
  }

  /** The series of a key list: sorted distinct labels, each with its count. */
  function Tally(ks: seq<string>): (r: AlignedSeries)
    ensures StrictlySorted(r.labels)
    ensures forall k :: k in r.labels <==> k in ks
    ensures forall i :: 0 <= i < |r.labels| ==> r.values[i] == Count(ks, r.labels[i])
    ensures forall i :: 0 <= i < |r.values| ==> r.values[i] > 0
  {
    var labels := SortedDistinct(ks);
    var values := CountsOver(labels, ks);
    assert forall i :: 0 <= i < |labels| ==> values[i] > 0 by {
      forall i | 0 <= i < |labels| ensures values[i] > 0 {
        CountPositive(ks, labels[i]);
      }
    }
    Series(labels, values)
  }

  /** The values of a tally add up to the number of keys tallied. */
  lemma TallyConserves(ks: seq<string>)
    ensures Sum(Tally(ks).values) == |ks|
    ensures |Tally(ks).labels| == |Tally(ks).values| <= |ks|
  {
    var r := Tally(ks);
    StrictlySortedDistinct(r.labels);
    SumCountsOver(r.labels, ks);
  }
}

=== FILE: sidebar.dfy ===
/** The sidebar's menu state: the set of expanded submenus, the separate
    set of open quick summaries, and the collapsed flag it reports to its
    parent. Saving to and reading from browser storage is not modelled;
    what the constructor restores is taken as the saved strings. */
module Sidebar {
  import opened Base
  import opened Js

  datatype SidebarState = SidebarState(
    expandedMenus: set<string>,
    quickSummaryOpen: set<string>,
    isCollapsed: bool)

  /** `has(id) ? delete(id) : add(id)` on a set of ids. */
  function Toggle(s: set<string>, id: string): (r: set<string>)
    ensures id in r <==> id !in s
    ensures forall other :: other != id ==> (other in r <==> other in s)
  {
    if id in s then s - {id} else s + {id}
  }

  /** The toggle is the symmetric difference with `{id}`. */
  lemma ToggleIsSymmetricDifference(s: set<string>, id: string)
    ensures Toggle(s, id) == (s - {id}) + ({id} - s)
  {
  }

  /** Toggling the same id twice gives back the set. */
  lemma ToggleTwice(s: set<string>, id: string)
    ensures Toggle(Toggle(s, id), id) == s
  {
    var t := Toggle(Toggle(s, id), id);
    forall x ensures x in t <==> x in s {
    }
  }

  /** Toggles of two ids can be done in either order. */
  lemma TogglesCommute(s: set<string>, a: string, b: string)
    ensures Toggle(Toggle(s, a), b) == Toggle(Toggle(s, b), a)
  {
    var l := Toggle(Toggle(s, a), b);
    var r := Toggle(Toggle(s, b), a);
    forall x ensures x in l <==> x in r {
    }
  }

  /** `toggleSubmenu`: only the expanded submenus change. */
  function ToggleSubmenu(st: SidebarState, id: string): (r: SidebarState)
    ensures IsSubmenuExpanded(r, id) <==> !IsSubmenuExpanded(st, id)
    ensures forall other :: other != id ==> (IsSubmenuExpanded(r, other) <==> IsSubmenuExpanded(st, other))
    ensures r.quickSummaryOpen == st.quickSummaryOpen && r.isCollapsed == st.isCollapsed
  {
    st.(expandedMenus := Toggle(st.expandedMenus, id))
  }

  /** `isSubmenuExpanded`. */
  predicate IsSubmenuExpanded(st: SidebarState, id: string) {
    id in st.expandedMenus
  }

  /** `toggleQuickSummary`: the same toggle on the quick summaries, which
      leaves the expanded submenus alone. */
  function ToggleQuickSummary(st: SidebarState, id: string): (r: SidebarState)
    ensures IsQuickSummaryOpen(r, id) <==> !IsQuickSummaryOpen(st, id)
    ensures forall other :: other != id ==> (IsQuickSummaryOpen(r, other) <==> IsQuickSummaryOpen(st, other))
    ensures r.expandedMenus == st.expandedMenus && r.isCollapsed == st.isCollapsed
  {
    st.(quickSummaryOpen := Toggle(st.quickSummaryOpen, id))
  }

  /** `isQuickSummaryOpen`. */
  predicate IsQuickSummaryOpen(st: SidebarState, id: string) {
    id in st.quickSummaryOpen
  }

  /** Toggling a submenu twice restores the whole state. */
  lemma SubmenuToggleTwice(st: SidebarState, id: string)
    ensures ToggleSubmenu(ToggleSubmenu(st, id), id) == st
  {
    ToggleTwice(st.expandedMenus, id);
  }

  /** Toggling a quick summary twice restores the whole state. */
  lemma QuickSummaryToggleTwice(st: SidebarState, id: string)
    ensures ToggleQuickSummary(ToggleQuickSummary(st, id), id) == st
  {
    ToggleTwice(st.quickSummaryOpen, id);
  }

  /** The two kinds of toggle touch different sets, so they commute. */
  lemma TogglesIndependent(st: SidebarState, menu: string, summary: string)
    ensures ToggleSubmenu(ToggleQuickSummary(st, summary), menu)
         == ToggleQuickSummary(ToggleSubmenu(st, menu), summary)
  {
  }

  /** What `onToggleCollapse` does: the value it emits, and the state after. */
  datatype Emitted = Emitted(next: bool, after: SidebarState)

  /** `onToggleCollapse`: the negated flag is emitted for the parent to
      store; the sidebar itself keeps its flag. */
  function OnToggleCollapse(st: SidebarState): (r: Emitted)
    ensures r.next <==> !st.isCollapsed
    ensures r.after == st
  {
    Emitted(!st.isCollapsed, st)
  }

  /** A parent that stores what is emitted, twice over, ends where it began. */
  lemma CollapseRoundTrip(st: SidebarState)
    ensures var once := OnToggleCollapse(st).after.(isCollapsed := OnToggleCollapse(st).next);
            OnToggleCollapse(once).next == st.isCollapsed
  {
  }

  /** `new Set(JSON.parse(savedMenus))` on the parsed value, as the set of
      ids it can answer `has` for: the strings of an array, the characters of
      a string, nothing for `null`; any other value is not iterable and the
      constructor throws. */
  function SavedMenus(parsed: Json): (r: Result<set<string>>)
    ensures r.Err? <==> !(parsed.JArr? || parsed.JStr? || parsed.JNull?)
    ensures parsed.JArr? ==> r.Ok? && forall id :: id in r.value <==> JStr(id) in parsed.items
    ensures parsed.JStr? ==> r.Ok? && forall id :: id in r.value <==> |id| == 1 && id[0] in parsed.s
    ensures parsed.JNull? ==> r == Ok({})
  {
    match parsed
    case JArr(items) => Ok(set i | 0 <= i < |items| && items[i].JStr? :: items[i].s)
    case JStr(s) => CharSet(s); Ok(set i | 0 <= i < |s| :: [s[i]])
    case JNull => Ok({})
    case _ => Err(TypeError)
  }

  /** The one-character strings of a string are those of its characters. */
  lemma CharSet(s: string)
    ensures forall id :: id in (set i | 0 <= i < |s| :: [s[i]]) <==> |id| == 1 && id[0] in s
  {
    forall id | |id| == 1 && id[0] in s
      ensures id in (set i | 0 <= i < |s| :: [s[i]])
    {
      var i :| 0 <= i < |s| && s[i] == id[0];
      assert id == [s[i]];
    }
  }

  /** The constructor: the flag is restored from the saved text, and the
      expanded submenus from the saved list when there is one; a saved list
      that does not parse, or parses to a value that is not iterable, throws
      after the flag is set and the error is swallowed, leaving no submenu
      expanded. `parse` is `JSON.parse`, `None` when it throws. */
  function Restore(saved: Option<string>, savedMenus: Option<string>,
                   parse: string -> Option<Json>): (r: SidebarState)
    ensures r.isCollapsed <==> saved == Some("true")
    ensures r.quickSummaryOpen == {}
    ensures savedMenus.None? || savedMenus == Some("") ==> r.expandedMenus == {}
    ensures (savedMenus.Some? && savedMenus.value != "" && parse(savedMenus.value).Some?
             && SavedMenus(parse(savedMenus.value).value).Ok?) ==>
      r.expandedMenus == SavedMenus(parse(savedMenus.value).value).value
    ensures savedMenus.Some? && parse(savedMenus.value).None? ==> r.expandedMenus == {}
    ensures (savedMenus.Some? && parse(savedMenus.value).Some?
             && SavedMenus(parse(savedMenus.value).value).Err?) ==> r.expandedMenus == {}
  {
    var isCollapsed := saved == Some("true");
    var menus :=
      if savedMenus.None? || savedMenus.value == "" then {}
      else match parse(savedMenus.value)
        case None => {}
        case Some(v) => match SavedMenus(v)
          case Ok(ids) => ids
          case Err(_) => {};
    SidebarState(menus, {}, isCollapsed)
  }

  /** Only the exact text `true` restores a collapsed sidebar. */
  lemma OnlyTrueCollapses(saved: string, savedMenus: Option<string>, parse: string -> Option<Json>)
    requires saved != "true"
    ensures !Restore(Some(saved), savedMenus, parse).isCollapsed
    ensures !Restore(None, savedMenus, parse).isCollapsed
  {
  }
}

=== FILE: strings.dfy ===
/** String operations of JavaScript's `String.prototype` that the dashboard
    relies on, and the code-unit order that `Array.prototype.sort` uses. */
module Strings {
  import opened Base

  predicate StartsWith(s: string, prefix: string) {
    |prefix| <= |s| && s[..|prefix|] == prefix
  }

  predicate EndsWith(s: string, suffix: string) {
    |suffix| <= |s| && s[|s| - |suffix|..] == suffix
  }

  /** True when `sep` occurs in `s` at position `i`. */
  predicate OccursAt(s: string, sep: string, i: int) {
    0 <= i && i + |sep| <= |s| && s[i..i + |sep|] == sep
  }

  /** `s.indexOf(sep)`: the first position where `sep` occurs. */
  function IndexOf(s: string, sep: string): (r: Option<nat>)
    ensures r.Some? ==> OccursAt(s, sep, r.value)
    ensures r.Some? ==> forall j :: 0 <= j < r.value ==> !OccursAt(s, sep, j)
    ensures r.None? ==> forall j :: 0 <= j ==> !OccursAt(s, sep, j)
    decreases |s|
  {
    if StartsWith(s, sep) then Some(0)
    else if |s| == 0 then None
    else
      match IndexOf(s[1..], sep)
      case None =>
        assert forall j :: 1 <= j ==> (OccursAt(s, sep, j) <==> OccursAt(s[1..], sep, j - 1));
        None
      case Some(i) =>
        assert forall j :: 1 <= j ==> (OccursAt(s, sep, j) <==> OccursAt(s[1..], sep, j - 1));
        Some(i + 1)
  }

  /** `s.replace(pattern, replacement)` with a string pattern: only the
      first occurrence is replaced; without one `s` is returned unchanged. */
  function ReplaceFirst(s: string, pattern: string, replacement: string): (r: string)
    ensures IndexOf(s, pattern).None? ==> r == s
    ensures IndexOf(s, pattern).Some? ==>
      var i := IndexOf(s, pattern).value;
      r == s[..i] + replacement + s[i + |pattern|..]
  {
    match IndexOf(s, pattern)
    case None => s
    case Some(i) => s[..i] + replacement + s[i + |pattern|..]
  }

  /** Replacing a pattern that the string starts with drops that prefix. */
  lemma ReplaceAtStart(pattern: string, tail: string)
    requires |pattern| > 0
    ensures ReplaceFirst(pattern + tail, pattern, "") == tail
  {
    var s := pattern + tail;
    assert s[..|pattern|] == pattern;
    assert IndexOf(s, pattern) == Some(0);
    assert s[|pattern|..] == tail;
  }

  /** The first two pieces of `s.split(sep)` for a non-empty `sep`: the text
      before the first occurrence, and the text between the first and the
      second occurrence (or up to the end); the second piece is absent when
      `sep` does not occur. */
  function SplitHead(s: string, sep: string): (r: (string, Option<string>))
    requires |sep| > 0
    ensures IndexOf(s, sep).None? <==> r.1.None?
    ensures IndexOf(s, sep).None? ==> r.0 == s
    ensures r.1.Some? ==> IndexOf(s, sep) == Some(|r.0|) && r.0 == s[..|r.0|]
    ensures r.1.Some? ==> |r.0| + |sep| <= |s|
    ensures r.1.Some? ==> StartsWith(s[|r.0| + |sep|..], r.1.value)
    ensures r.1.Some? ==> IndexOf(r.1.value, sep).None?
    ensures r.1.Some? ==>
      forall j :: |r.0| + |sep| <= j < |r.0| + |sep| + |r.1.value| ==> !OccursAt(s, sep, j)
    ensures r.1.Some? ==> PieceEnds(s, sep, |r.0| + |sep|, r.1.value)
  {
    match IndexOf(s, sep)
    case None => (s, None)
    case Some(i) =>
      var piece := FirstPiece(s[i + |sep|..], sep);
      SecondPiece(s, sep, i, piece);
      (s[..i], Some(piece))
  }

  /** What `SplitHead` states about its second piece, which starts after
      the first occurrence of `sep`, at `i`. */
  lemma SecondPiece(s: string, sep: string, i: nat, piece: string)
    requires |sep| > 0 && IndexOf(s, sep) == Some(i)
    requires piece == FirstPiece(s[i + |sep|..], sep)
    ensures |s[..i]| + |sep| <= |s|
    ensures StartsWith(s[|s[..i]| + |sep|..], piece)
    ensures forall j :: |s[..i]| + |sep| <= j < |s[..i]| + |sep| + |piece| ==> !OccursAt(s, sep, j)
    ensures PieceEnds(s, sep, |s[..i]| + |sep|, piece)
  {
    var head := s[..i];
    assert |head| == i;
    PieceBounded(s, sep, head, s[i + |sep|..], piece);
  }

  /** `s.split(sep)[0]`: the text up to the first occurrence of `sep`, or
      all of `s`. */
  function FirstPiece(s: string, sep: string): (p: string)
    requires |sep| > 0
    ensures StartsWith(s, p)
    ensures IndexOf(p, sep).None?
    ensures forall j :: 0 <= j < |p| ==> !OccursAt(s, sep, j)
    ensures |p| == |s| || OccursAt(s, sep, |p|)
  {
    match IndexOf(s, sep)
    case None => s
    case Some(j) =>
      PrefixOccurrences(s, sep, j);
      s[..j]
  }

  /** A piece that starts after `head` and `sep`, in which no occurrence of
      `sep` starts, and that is followed by the end or by an occurrence, is
      such a piece of `s` itself. */
  lemma PieceBounded(s: string, sep: string, head: string, rest: string, piece: string)
    requires |head| + |sep| + |piece| <= |s| && rest == s[|head| + |sep|..]
    requires forall j :: 0 <= j < |piece| ==> !OccursAt(rest, sep, j)
    requires |head| + |sep| + |piece| == |s| || OccursAt(rest, sep, |piece|)
    ensures forall j :: |head| + |sep| <= j < |head| + |sep| + |piece| ==> !OccursAt(s, sep, j)
    ensures PieceEnds(s, sep, |head| + |sep|, piece)
  {
    var start := |head| + |sep|;
    forall j | start <= j < start + |piece| ensures !OccursAt(s, sep, j) {
      OccursShift(s, sep, start, j - start);
    }
    OccursShift(s, sep, start, |piece|);
  }

  /** `piece`, placed at `start` in `s`, runs up to the end of `s` or up to
      an occurrence of `sep`. */
  predicate PieceEnds(s: string, sep: string, start: nat, piece: string) {
    start + |piece| == |s| || OccursAt(s, sep, start + |piece|)
  }

  /** An occurrence in a suffix is an occurrence in the whole, shifted by
      where the suffix starts. */
  lemma OccursShift(s: string, sep: string, off: nat, j: nat)
    requires off <= |s|
    ensures OccursAt(s[off..], sep, j) <==> OccursAt(s, sep, off + j)
  {
    if j + |sep| <= |s| - off {
      assert s[off..][j..j + |sep|] == s[off + j..off + j + |sep|];
    }
  }

  /** An occurrence in a prefix is an occurrence in the whole. */
  lemma PrefixOccurrences(s: string, sep: string, n: nat)
    requires n <= |s|
    ensures forall k :: OccursAt(s[..n], sep, k) ==> OccursAt(s, sep, k)
  {
    forall k | OccursAt(s[..n], sep, k) ensures OccursAt(s, sep, k) {
      assert s[..n][k..k + |sep|] == s[k..k + |sep|];
    }
  }

  /** The characters `String.prototype.trim` removes: white space and line
      terminators of the ECMAScript grammar. */
  predicate IsSpace(c: char) {
    c == '\t' || c == '\n' || c == '\U{B}' || c == '\U{C}' || c == '\r' || c == ' '
    || c == '\U{A0}' || c == '\U{1680}' || ('\U{2000}' <= c <= '\U{200A}')
    || c == '\U{2028}' || c == '\U{2029}' || c == '\U{202F}' || c == '\U{205F}'
    || c == '\U{3000}' || c == '\U{FEFF}'
  }

  /** Every character of `t` is white space. */
  predicate AllSpaces(t: string) {
    forall j :: 0 <= j < |t| ==> IsSpace(t[j])
  }

  /** The first position at or after `k` that holds no white space (`|s|`
      when there is none). */
  function SkipSpaces(s: string, k: nat): (n: nat)
    requires k <= |s|
    ensures k <= n <= |s|
    ensures forall j :: k <= j < n ==> IsSpace(s[j])
    ensures n < |s| ==> !IsSpace(s[n])
    decreases |s| - k
  {
    if k < |s| && IsSpace(s[k]) then SkipSpaces(s, k + 1) else k
  }

  /** The position where the white space that ends at `k` begins. */
  function SkipSpacesBack(s: string, k: nat): (n: nat)
    requires k <= |s|
    ensures n <= k
    ensures forall j :: n <= j < k ==> IsSpace(s[j])
    ensures n > 0 ==> !IsSpace(s[n - 1])
  {
    if k > 0 && IsSpace(s[k - 1]) then SkipSpacesBack(s, k - 1) else k
  }

  /** `SkipSpaces` is the only position with its two properties. */
  lemma SkipSpacesUnique(s: string, k: nat, n: nat)
    requires k <= n <= |s|
    requires forall j :: k <= j < n ==> IsSpace(s[j])
    requires n < |s| ==> !IsSpace(s[n])
    ensures n == SkipSpaces(s, k)
  {
  }

  /** `SkipSpacesBack` is the only position with its two properties. */
  lemma SkipSpacesBackUnique(s: string, k: nat, n: nat)
    requires n <= k <= |s|
    requires forall j :: n <= j < k ==> IsSpace(s[j])
    requires n > 0 ==> !IsSpace(s[n - 1])
    ensures n == SkipSpacesBack(s, k)
  {
  }

  /** The number of white-space characters `s` starts with. */
  function LeadingSpaces(s: string): nat {
    SkipSpaces(s, 0)
  }

  /** `s.trim()`: the slice of `s` that starts after its leading white space
      and is followed by white space only. */
  function Trim(s: string): (r: string)
    ensures |r| <= |s| - LeadingSpaces(s)
    ensures |r| > 0 ==> !IsSpace(r[0]) && !IsSpace(r[|r| - 1])
    ensures r == s[LeadingSpaces(s)..LeadingSpaces(s) + |r|]
    ensures AllSpaces(s[LeadingSpaces(s) + |r|..])
  {
    var i := SkipSpaces(s, 0);
    var j := SkipSpacesBack(s, |s|);
    if i < j then s[i..j] else []
  }

  /** A position of `s` that holds no white space lies before any suffix of
      `s` that is white space only. */
  lemma SpaceSuffixBound(s: string, i: nat, a: nat, b: nat)
    requires i + a <= |s| && i + b <= |s|
    requires AllSpaces(s[i + a..])
    requires b > 0 ==> !IsSpace(s[i + b - 1])
    ensures b <= a
  {
  }

  /** The slice after the leading white space that is followed by white
      space only and does not end with white space is the trim. */
  lemma TrimUnique(s: string, r: string)
    requires LeadingSpaces(s) + |r| <= |s|
    requires r == s[LeadingSpaces(s)..LeadingSpaces(s) + |r|]
    requires AllSpaces(s[LeadingSpaces(s) + |r|..])
    requires |r| > 0 ==> !IsSpace(r[|r| - 1])
    ensures r == Trim(s)
  {
    var i := LeadingSpaces(s);
    var t := Trim(s);
    if |r| > 0 {
      assert r[|r| - 1] == s[i + |r| - 1];
    }
    if |t| > 0 {
      assert t[|t| - 1] == s[i + |t| - 1];
    }
    SpaceSuffixBound(s, i, |t|, |r|);
    SpaceSuffixBound(s, i, |r|, |t|);
  }

  /** White space put in front of a text does not change its trim. */
  lemma TrimPadded(c: char, s: string)
    requires IsSpace(c)
    ensures Trim([c] + s) == Trim(s)
  {
    var p := [c] + s;
    var i := LeadingSpaces(s);
    var r := Trim(s);
    assert forall j :: 1 <= j < |p| ==> p[j] == s[j - 1];
    SkipSpacesUnique(p, 0, 1 + i);
    assert p[1 + i..1 + i + |r|] == r;
    assert p[1 + i + |r|..] == s[i + |r|..];
    TrimUnique(p, r);
  }

  /** A text that neither starts nor ends with white space is its own trim. */
  lemma TrimUnchanged(s: string)
    requires |s| > 0 ==> !IsSpace(s[0]) && !IsSpace(s[|s| - 1])
    ensures Trim(s) == s
  {
    assert SkipSpaces(s, 0) == 0;
    assert SkipSpacesBack(s, |s|) == |s|;
    assert s[0..|s|] == s;
  }

  /** Trimming twice is trimming once. */
  lemma TrimIdempotent(s: string)
    ensures Trim(Trim(s)) == Trim(s)
  {
    TrimUnchanged(Trim(s));
  }

  /** Lower-case mapping of `toLowerCase` for the Basic Latin and Latin-1
      upper-case letters; other characters are kept. */
  function LowerChar(c: char): char {
    if 'A' <= c <= 'Z' then (c as int + 32) as char
    else if '\U{C0}' <= c <= '\U{DE}' && c != '\U{D7}' then (c as int + 32) as char
    else c
  }

  function Lower(s: string): (r: string)
    ensures |r| == |s|
    ensures forall i :: 0 <= i < |s| ==> r[i] == LowerChar(s[i])
  {
    seq(|s|, i requires 0 <= i < |s| => LowerChar(s[i]))
  }

  /** Lower-casing neither creates nor removes white space. */
  lemma LowerCharSpace(c: char)
    ensures IsSpace(LowerChar(c)) <==> IsSpace(c)
  {
  }

  /** Lower-casing twice is lower-casing once. */
  lemma LowerIdempotent(s: string)
    ensures Lower(Lower(s)) == Lower(s)
  {
    forall i | 0 <= i < |s| ensures Lower(Lower(s))[i] == Lower(s)[i] {
      var c := s[i];
      assert Lower(s)[i] == LowerChar(c);
    }
  }

  /** Trimming and lower-casing commute: `s.trim().toLowerCase()` equals
      `s.toLowerCase().trim()`. */
  lemma TrimLowerCommute(s: string)
    ensures Trim(Lower(s)) == Lower(Trim(s))
  {
    var t := Lower(s);
    var i := SkipSpaces(s, 0);
    var j := SkipSpacesBack(s, |s|);
    assert Trim(s) == if i < j then s[i..j] else [];
    forall k | 0 <= k < |s| ensures IsSpace(t[k]) == IsSpace(s[k]) {
      LowerCharSpace(s[k]);
    }
    SkipSpacesUnique(t, 0, i);
    SkipSpacesBackUnique(t, |s|, j);
    assert Trim(t) == if i < j then t[i..j] else [];
    if i < j {
      LowerSlice(s, i, j);
    }
  }

  /** Lower-casing commutes with slicing. */
  lemma LowerSlice(s: string, i: nat, j: nat)
    requires i <= j <= |s|
    ensures Lower(s)[i..j] == Lower(s[i..j])
  {
    forall k | 0 <= k < j - i ensures Lower(s)[i..j][k] == Lower(s[i..j])[k] {
      assert Lower(s)[i..j][k] == Lower(s)[i + k];
    }
  }

  function DigitChar(d: nat): char
    requires d < 10
  {
    "0123456789"[d]
  }

  /** Decimal digits of a natural number, without leading zeros. */
  function NatToString(n: nat): (r: string)
    ensures |r| >= 1
    ensures forall i :: 0 <= i < |r| ==> '0' <= r[i] <= '9'
    ensures n < 10 ==> |r| == 1
    ensures n < 100 ==> |r| <= 2
    ensures n < 10000 ==> |r| <= 4
    ensures n < 1000000 ==> |r| <= 6
  {
    if n < 10 then [DigitChar(n)] else NatToString(n / 10) + [DigitChar(n % 10)]
  }

  /** `String(n)` for an integer: a minus sign before the digits of a negative value. */
  function IntToString(n: int): (r: string)
    ensures |r| >= 1
    ensures n >= 0 ==> r == NatToString(n)
    ensures n < 0 ==> r == "-" + NatToString(-n)
  {
    if n < 0 then "-" + NatToString(-n) else NatToString(n)
  }

  function Repeat(c: char, n: nat): (r: string)
    ensures |r| == n
    ensures forall i :: 0 <= i < n ==> r[i] == c
  {
    if n == 0 then "" else [c] + Repeat(c, n - 1)
  }

  /** `s.padStart(width, c)`. */
  function PadStart(s: string, width: nat, c: char): (r: string)
    ensures |s| >= width ==> r == s
    ensures |s| < width ==> |r| == width
    ensures EndsWith(r, s)
  {
    if |s| >= width then s else Repeat(c, width - |s|) + s
  }

  /** The order of the default `Array.prototype.sort` (and of `localeCompare`
      on the ASCII keys built here): lexicographic on characters, a proper
      prefix sorting first. */
  predicate Less(a: string, b: string) {
    if |a| == 0 then |b| > 0
    else if |b| == 0 then false
    else if a[0] != b[0] then a[0] < b[0]
    else Less(a[1..], b[1..])
  }

  lemma {:induction false} LessIrreflexive(a: string)
    ensures !Less(a, a)
  {
    if |a| > 0 {
      LessIrreflexive(a[1..]);
    }
  }

  lemma {:induction false} LessTransitive(a: string, b: string, c: string)
    requires Less(a, b) && Less(b, c)
    ensures Less(a, c)
  {
    if |a| > 0 && |b| > 0 && |c| > 0 && a[0] == b[0] && b[0] == c[0] {
      LessTransitive(a[1..], b[1..], c[1..]);
    }
  }

  lemma {:induction false} LessTotal(a: string, b: string)
    requires a != b
    ensures Less(a, b) || Less(b, a)
  {
    if |a| > 0 && |b| > 0 && a[0] == b[0] {
      LessTotal(a[1..], b[1..]);
    }
  }

  lemma {:induction false} LessAsymmetric(a: string, b: string)
    requires Less(a, b)
    ensures !Less(b, a)
  {
    if |a| > 0 && |b| > 0 && a[0] == b[0] {
      LessAsymmetric(a[1..], b[1..]);
    }
  }

  /** Strictly increasing in `Less`: sorted and without duplicates. */
  predicate StrictlySorted(s: seq<string>) {
    forall i, j :: 0 <= i < j < |s| ==> Less(s[i], s[j])
  }

  lemma StrictlySortedDistinct(s: seq<string>)
    requires StrictlySorted(s)
    ensures forall i, j :: 0 <= i < j < |s| ==> s[i] != s[j]
  {
    forall i, j | 0 <= i < j < |s|
      ensures s[i] != s[j]
    {
      if s[i] == s[j] {
        LessIrreflexive(s[i]);
      }
    }
  }
}

=== FILE: timeline_chart.dfy ===
/** The events timeline: one event per operation, dated by the first video
    of that operation, counted per day, per Monday-start week and per month,
    then cut to an optional date range for display. Calendar fields are
    read in UTC. */
module TimelineChart {
  import opened Base
  import opened Strings
  import opened Js
  import opened Series
  import opened Calendar

  datatype Grouping = Day | Week | Month

  /** An operation with the instant of its earliest video. */
  datatype Event = Event(op: string, time: int)

  /** `v.data_postagem || v.date || v.day`. */
  function RawDate(v: Obj): Option<Json> {
    Or(Or(Get(v, "data_postagem"), Get(v, "date")), Get(v, "day"))
  }

  /** `(v.operation_ner || v.operation || 'unknown').toString().trim()`. */
  function VideoOp(v: Obj): string {
    Trim(StringOf(Or(Or(Get(v, "operation_ner"), Get(v, "operation")), Some(JStr("unknown")))))
  }

  /** A video without a truthy `operation_ner` or `operation` counts under
      the operation 'unknown'. */
  lemma MissingOpIsUnknown(v: Obj)
    requires !Truthy(Get(v, "operation_ner")) && !Truthy(Get(v, "operation"))
    ensures VideoOp(v) == "unknown"
  {
    assert Or(Or(Get(v, "operation_ner"), Get(v, "operation")), Some(JStr("unknown"))) == Some(JStr("unknown"));
    assert StringOf(Some(JStr("unknown"))) == "unknown";
    assert !IsSpace('u') && !IsSpace('n');
    TrimUnchanged("unknown");
  }

  /** The event a video contributes, if any: it needs a truthy date field
      whose text (first space turned into `T`) parses, and an operation id
      that is not blank. `parse` stands for `new Date(text).getTime()`,
      `None` for an invalid date. */
  function VideoEvent(v: Obj, parse: string -> Option<int>): (e: Option<Event>)
    ensures e.Some? <==>
      Truthy(RawDate(v)) && parse(ReplaceFirst(StringOf(RawDate(v)), " ", "T")).Some? && VideoOp(v) != ""
    ensures e.Some? ==> e.value.op == VideoOp(v) && Some(e.value.time) == parse(ReplaceFirst(StringOf(RawDate(v)), " ", "T"))
  {
    var raw := RawDate(v);
    if !Truthy(raw) then None
    else
      var d := parse(ReplaceFirst(StringOf(raw), " ", "T"));
      if d.None? then None
      else
        var op := VideoOp(v);
        if op == "" then None else Some(Event(op, d.value))
  }

  /** The events of the videos, one optional event per video. */
  function VideoEvents(videos: seq<Obj>, parse: string -> Option<int>): (evs: seq<Option<Event>>)
    ensures |evs| == |videos|
    ensures forall i :: 0 <= i < |videos| ==> evs[i] == VideoEvent(videos[i], parse)
  {
    seq(|videos|, i requires 0 <= i < |videos| => VideoEvent(videos[i], parse))
  }

  /** Position of an operation in the first-seen list. */
  function IndexOfOp(acc: seq<Event>, op: string): (r: Option<nat>)
    ensures r.Some? ==> r.value < |acc| && acc[r.value].op == op
    ensures r.None? ==> forall i :: 0 <= i < |acc| ==> acc[i].op != op
  {
    if |acc| == 0 then None
    else if acc[|acc| - 1].op == op then Some(|acc| - 1)
    else IndexOfOp(acc[..|acc| - 1], op)
  }

  /** One step of the `earliestByOp` map: a new operation is appended, a
      known one keeps the earlier instant (the first seen on a tie). */
  function Record(acc: seq<Event>, e: Event): (r: seq<Event>)
    ensures |acc| <= |r| <= |acc| + 1
  {
    match IndexOfOp(acc, e.op)
    case None => acc + [e]
    case Some(j) => if e.time < acc[j].time then acc[j := e] else acc
  }

  /** The earliest event of every operation, in order of first appearance. */
  function EarliestOf(evs: seq<Option<Event>>): (r: seq<Event>)
    ensures |r| <= |evs|
  {
    if |evs| == 0 then []
    else
      var acc := EarliestOf(evs[..|evs| - 1]);
      match evs[|evs| - 1]
      case None => acc
      case Some(e) => Record(acc, e)
  }

  function Earliest(videos: seq<Obj>, parse: string -> Option<int>): seq<Event> {
    EarliestOf(VideoEvents(videos, parse))
  }

  /** Some entry is exactly this event. */
  ghost predicate Seen(evs: seq<Option<Event>>, e: Event) {
    exists k :: 0 <= k < |evs| && evs[k] == Some(e)
  }

  /** Some entry is an event of this operation. */
  ghost predicate HasEvent(evs: seq<Option<Event>>, op: string) {
    exists k :: 0 <= k < |evs| && evs[k].Some? && evs[k].value.op == op
  }

  predicate DistinctOps(es: seq<Event>) {
    forall i, j :: 0 <= i < j < |es| ==> es[i].op != es[j].op
  }

  /** What `earliestByOp` holds: one entry per operation with a valid video,
      dated by the minimum instant among that operation's videos. */
  ghost predicate EarliestSpec(evs: seq<Option<Event>>, es: seq<Event>) {
    && DistinctOps(es)
    && (forall i :: 0 <= i < |es| ==> Seen(evs, es[i]))
    && (forall i, k ::
          (0 <= i < |es| && 0 <= k < |evs| && evs[k].Some? && evs[k].value.op == es[i].op)
          ==> es[i].time <= evs[k].value.time)
    && (forall op :: HasEvent(evs, op) <==> exists i :: 0 <= i < |es| && es[i].op == op)
  }

  lemma {:induction false} EarliestCorrect(evs: seq<Option<Event>>)
    ensures EarliestSpec(evs, EarliestOf(evs))
  {
    if |evs| > 0 {
      var n := |evs| - 1;
      var pre := evs[..n];
      EarliestCorrect(pre);
      var acc := EarliestOf(pre);
      assert forall k :: 0 <= k < n ==> pre[k] == evs[k];
      forall e | Seen(pre, e) ensures Seen(evs, e) {
        var k :| 0 <= k < |pre| && pre[k] == Some(e);
        assert evs[k] == Some(e);
      }
      forall op | HasEvent(pre, op) ensures HasEvent(evs, op) {
        var k :| 0 <= k < |pre| && pre[k].Some? && pre[k].value.op == op;
        assert evs[k] == pre[k];
      }
      match evs[n]
      case None =>
        forall op | HasEvent(evs, op) ensures HasEvent(pre, op) {
          var k :| 0 <= k < |evs| && evs[k].Some? && evs[k].value.op == op;
          assert k < n;
          assert pre[k] == evs[k];
        }
      case Some(e) =>
        EarliestStep(evs, acc, e);
    }
  }

  /** The step of `EarliestCorrect` for a last entry that is event `e`. */
  lemma EarliestStep(evs: seq<Option<Event>>, acc: seq<Event>, e: Event)
    requires |evs| > 0
    requires evs[|evs| - 1] == Some(e)
    requires EarliestSpec(evs[..|evs| - 1], acc)
    requires forall x :: Seen(evs[..|evs| - 1], x) ==> Seen(evs, x)
    requires forall op :: HasEvent(evs[..|evs| - 1], op) ==> HasEvent(evs, op)
    ensures EarliestSpec(evs, Record(acc, e))
  {
    var n := |evs| - 1;
    var pre := evs[..n];
    assert forall k :: 0 <= k < n ==> pre[k] == evs[k];
    assert Seen(evs, e);
    assert HasEvent(evs, e.op);
    forall op | HasEvent(evs, op) && op != e.op ensures HasEvent(pre, op) {
      var k :| 0 <= k < |evs| && evs[k].Some? && evs[k].value.op == op;
      assert k < n;
      assert pre[k] == evs[k];
    }
    match IndexOfOp(acc, e.op)
    case None => EarliestAppend(evs, acc, e);
    case Some(j) => EarliestKeep(evs, acc, e, j);
  }

  /** The facts both cases of `EarliestStep` start from. */
  ghost predicate StepFacts(evs: seq<Option<Event>>, acc: seq<Event>, e: Event)
    requires |evs| > 0
  {
    var pre := evs[..|evs| - 1];
    && evs[|evs| - 1] == Some(e)
    && EarliestSpec(pre, acc)
    && (forall k :: 0 <= k < |pre| ==> pre[k] == evs[k])
    && Seen(evs, e) && HasEvent(evs, e.op)
    && (forall x :: Seen(pre, x) ==> Seen(evs, x))
    && (forall op :: HasEvent(pre, op) ==> HasEvent(evs, op))
    && (forall op :: HasEvent(evs, op) && op != e.op ==> HasEvent(pre, op))
  }

  /** A first event of its operation is appended. */
  lemma EarliestAppend(evs: seq<Option<Event>>, acc: seq<Event>, e: Event)
    requires |evs| > 0 && StepFacts(evs, acc, e)
    requires forall i :: 0 <= i < |acc| ==> acc[i].op != e.op
    ensures EarliestSpec(evs, acc + [e])
  {
    var n := |evs| - 1;
    var pre := evs[..n];
    var r := acc + [e];
    assert !HasEvent(pre, e.op);
    forall k | 0 <= k < n && evs[k].Some? ensures evs[k].value.op != e.op {
      assert pre[k] == evs[k];
    }
    forall i, k | 0 <= i < |r| && 0 <= k < |evs| && evs[k].Some? && evs[k].value.op == r[i].op
      ensures r[i].time <= evs[k].value.time
    {
      if i < |acc| && k < n {
        assert pre[k] == evs[k];
      }
    }
    forall op ensures HasEvent(evs, op) ==> exists i :: 0 <= i < |r| && r[i].op == op {
      if HasEvent(evs, op) && op != e.op {
        var i :| 0 <= i < |acc| && acc[i].op == op;
        assert r[i].op == op;
      } else if op == e.op {
        assert r[|acc|].op == op;
      }
    }
  }

  /** A later event of a known operation keeps the earlier instant. */
  lemma EarliestKeep(evs: seq<Option<Event>>, acc: seq<Event>, e: Event, j: nat)
    requires |evs| > 0 && StepFacts(evs, acc, e)
    requires j < |acc| && acc[j].op == e.op
    ensures EarliestSpec(evs, if e.time < acc[j].time then acc[j := e] else acc)
  {
    if e.time < acc[j].time {
      EarliestReplaced(evs, acc, e, j);
    } else {
      EarliestUnchanged(evs, acc, e, j);
    }
  }

  /** An earlier event of a known operation takes its place. */
  lemma EarliestReplaced(evs: seq<Option<Event>>, acc: seq<Event>, e: Event, j: nat)
    requires |evs| > 0 && StepFacts(evs, acc, e)
    requires j < |acc| && acc[j].op == e.op && e.time < acc[j].time
    ensures EarliestSpec(evs, acc[j := e])
  {
    var n := |evs| - 1;
    var pre := evs[..n];
    var r := acc[j := e];
    forall op ensures HasEvent(evs, op) ==> exists i :: 0 <= i < |r| && r[i].op == op {
      if HasEvent(evs, op) && op != e.op {
        var i :| 0 <= i < |acc| && acc[i].op == op;
        assert r[i].op == op;
      } else if op == e.op {
        assert r[j].op == op;
      }
    }
    forall i, k | 0 <= i < |r| && 0 <= k < |evs| && evs[k].Some? && evs[k].value.op == r[i].op
      ensures r[i].time <= evs[k].value.time
    {
      if k < n {
        assert pre[k] == evs[k];
        assert acc[i].time <= pre[k].value.time;
      }
    }
    forall op | exists i :: 0 <= i < |r| && r[i].op == op ensures HasEvent(evs, op) {
      var i :| 0 <= i < |r| && r[i].op == op;
      assert acc[i].op == op;
    }
    forall i | 0 <= i < |r| ensures Seen(evs, r[i]) {
      if i != j {
        assert Seen(pre, acc[i]);
      }
    }
  }

  /** A later event of a known operation, not earlier than the one kept,
      changes nothing. */
  lemma EarliestUnchanged(evs: seq<Option<Event>>, acc: seq<Event>, e: Event, j: nat)
    requires |evs| > 0 && StepFacts(evs, acc, e)
    requires j < |acc| && acc[j].op == e.op && acc[j].time <= e.time
    ensures EarliestSpec(evs, acc)
  {
    var n := |evs| - 1;
    var pre := evs[..n];
    forall op ensures HasEvent(evs, op) ==> exists i :: 0 <= i < |acc| && acc[i].op == op {
      if HasEvent(evs, op) && op != e.op {
        var i :| 0 <= i < |acc| && acc[i].op == op;
      } else if op == e.op {
        assert acc[j].op == op;
      }
    }
    forall i | 0 <= i < |acc| && acc[i].op == e.op ensures i == j {
    }
    forall i, k | 0 <= i < |acc| && 0 <= k < |evs| && evs[k].Some? && evs[k].value.op == acc[i].op
      ensures acc[i].time <= evs[k].value.time
    {
      if k < n {
        assert pre[k] == evs[k];
      }
    }
    forall i | 0 <= i < |acc| ensures Seen(evs, acc[i]) {
      assert Seen(pre, acc[i]);
    }
  }

  /** The bucket key of an event instant under a grouping: the day, the
      Monday of its week, or the first day of its month. */
  function KeyOf(g: Grouping, t: int): string {
    match g
    case Day => PlainDate(DayOf(t))
    case Week => PlainDate(WeekStart(DayOf(t)))
    case Month => MonthStartKey(DayOf(t))
  }

  /** Two instants of the same Monday-start week share the week key. */
  lemma SameWeekSameKey(t1: int, t2: int, monday: int)
    requires Weekday(monday) == 1
    requires monday <= DayOf(t1) < monday + 7 && monday <= DayOf(t2) < monday + 7
    ensures KeyOf(Week, t1) == KeyOf(Week, t2) == PlainDate(monday)
  {
    MondayUnique(DayOf(t1), monday);
    MondayUnique(DayOf(t2), monday);
  }

  function EventKeys(es: seq<Event>, g: Grouping): (ks: seq<string>)
    ensures |ks| == |es|
    ensures forall i :: 0 <= i < |es| ==> ks[i] == KeyOf(g, es[i].time)
  {
    seq(|es|, i requires 0 <= i < |es| => KeyOf(g, es[i].time))
  }

  /** `buildBaseSeries` + `mapToSeries` for one grouping. */
  function BaseSeries(videos: seq<Obj>, parse: string -> Option<int>, g: Grouping): (s: AlignedSeries)
    ensures StrictlySorted(s.labels)
    ensures forall i :: 0 <= i < |s.values| ==> s.values[i] > 0
    ensures forall k :: k in s.labels <==> exists e :: e in Earliest(videos, parse) && KeyOf(g, e.time) == k
    ensures forall i :: 0 <= i < |s.labels| ==> s.values[i] == Count(EventKeys(Earliest(videos, parse), g), s.labels[i])
  {
    var es := Earliest(videos, parse);
    EventKeysMembers(es, g);
    Tally(EventKeys(es, g))
  }

  /** A key is an event key exactly when some event falls under it. */
  lemma EventKeysMembers(es: seq<Event>, g: Grouping)
    ensures forall k :: k in EventKeys(es, g) <==> exists e :: e in es && KeyOf(g, e.time) == k
  {
    MapMembers(es, EventKeys(es, g), (e: Event) => KeyOf(g, e.time));
  }


  /** The operations of the entries that are events. */
  function OpsOf(evs: seq<Option<Event>>): set<string> {
    set k | 0 <= k < |evs| && evs[k].Some? :: evs[k].value.op
  }

  /** The operations with at least one valid video. */
  function Operations(videos: seq<Obj>, parse: string -> Option<int>): set<string> {
    OpsOf(VideoEvents(videos, parse))
  }

  lemma {:induction false} DistinctOpsCard(es: seq<Event>)
    requires DistinctOps(es)
    ensures |set i | 0 <= i < |es| :: es[i].op| == |es|
  {
    if |es| > 0 {
      var rest := es[..|es| - 1];
      DistinctOpsCard(rest);
      var s := set i | 0 <= i < |es| :: es[i].op;
      var t := set i | 0 <= i < |rest| :: rest[i].op;
      assert s == t + {es[|es| - 1].op};
      assert es[|es| - 1].op !in t;
    }
  }

  /** The operations of the earliest-event list are the operations with an event. */
  lemma EarliestOps(evs: seq<Option<Event>>)
    ensures (set i | 0 <= i < |EarliestOf(evs)| :: EarliestOf(evs)[i].op) == OpsOf(evs)
  {
    var es := EarliestOf(evs);
    EarliestCorrect(evs);
    var ops := set i | 0 <= i < |es| :: es[i].op;
    forall op | op in OpsOf(evs) ensures op in ops {
      var k :| 0 <= k < |evs| && evs[k].Some? && evs[k].value.op == op;
      assert HasEvent(evs, op);
      var i :| 0 <= i < |es| && es[i].op == op;
    }
    forall op | op in ops ensures op in OpsOf(evs) {
      var i :| 0 <= i < |es| && es[i].op == op;
      assert HasEvent(evs, op);
    }
  }

  /** Every series counts each operation with a valid video exactly once. */
  lemma SeriesConserves(videos: seq<Obj>, parse: string -> Option<int>, g: Grouping)
    ensures Sum(BaseSeries(videos, parse, g).values) == |Operations(videos, parse)|
  {
    var es := Earliest(videos, parse);
    EarliestCorrect(VideoEvents(videos, parse));
    TallyConserves(EventKeys(es, g));
    DistinctOpsCard(es);
    EarliestOps(VideoEvents(videos, parse));
  }

  // ---------------------------------------------------------------------
  // Range and display

  datatype Dataset = Dataset(title: string, data: seq<nat>)

  datatype ChartData = ChartData(labels: seq<string>, datasets: seq<Dataset>)

  function DatasetLabel(g: Grouping): string {
    match g
    case Day => "Eventos por dia"
    case Week => "Eventos por semana"
    case Month => "Eventos por m\U{ea}s"
  }

  /** The optional bounds of the range inputs: a bound exists for a
      non-empty input, and a bound that does not parse compares false both
      ways, so it keeps everything, as an invalid `Date` does. */
  datatype Bounds = Bounds(start: Option<int>, end: Option<int>)

  function RangeBounds(startDate: string, endDate: string, parse: string -> Option<int>): Bounds {
    Bounds(
      if startDate != "" then parse(startDate + "T00:00:00") else None,
      if endDate != "" then parse(endDate + "T23:59:59") else None)
  }

  /** A label is shown when its noon parses and lies within the bounds. */
  predicate Shown(lbl: string, b: Bounds, parse: string -> Option<int>) {
    var d := parse(lbl + "T12:00:00");
    d.Some? && !(b.start.Some? && d.value < b.start.value) && !(b.end.Some? && d.value > b.end.value)
  }

  /** The labels and values of a series kept by the range, in order. */
  function Cut(labels: seq<string>, values: seq<nat>, b: Bounds, parse: string -> Option<int>): (r: (seq<string>, seq<nat>))
    requires |labels| == |values|
    ensures |r.0| == |r.1| <= |labels|
    ensures forall k :: k in r.0 <==> k in labels && Shown(k, b, parse)
    ensures StrictlySorted(labels) ==> StrictlySorted(r.0)
    ensures StrictlySorted(labels) ==>
      forall i, j :: 0 <= i < |r.0| && 0 <= j < |labels| && r.0[i] == labels[j] ==> r.1[i] == values[j]
  {
    if |labels| == 0 then ([], [])
    else
      var rest := Cut(labels[1..], values[1..], b, parse);
      MemberCons(labels);
      if Shown(labels[0], b, parse) then
        SortedHead(labels, rest.0);
        ([labels[0]] + rest.0, [values[0]] + rest.1)
      else rest
  }

  /** The head of a strictly sorted list comes before every later element. */
  lemma SortedHead(labels: seq<string>, rest: seq<string>)
    requires |labels| > 0
    requires forall k :: k in rest ==> k in labels[1..]
    ensures StrictlySorted(labels) ==> forall k :: k in rest ==> Less(labels[0], k)
    ensures StrictlySorted(labels) ==> forall j :: 0 < j < |labels| ==> labels[j] != labels[0]
  {
    if StrictlySorted(labels) {
      forall k | k in rest ensures Less(labels[0], k) {
        var j :| 0 <= j < |labels[1..]| && labels[1..][j] == k;
        assert labels[j + 1] == k;
      }
      forall j | 0 < j < |labels| ensures labels[j] != labels[0] {
        LessIrreflexive(labels[0]);
      }
    }
  }

  /** `applyRange` on the series of the current grouping. */
  function ApplyRange(base: AlignedSeries, g: Grouping, startDate: string, endDate: string,
                      parse: string -> Option<int>): (r: ChartData)
    ensures |base.labels| == 0 ==> r == ChartData([], [])
    ensures |base.labels| > 0 ==>
      (|r.datasets| == 1 && r.datasets[0].title == DatasetLabel(g) && |r.datasets[0].data| == |r.labels|)
    ensures forall k :: k in r.labels <==> k in base.labels && Shown(k, RangeBounds(startDate, endDate, parse), parse)
    ensures StrictlySorted(base.labels) ==> StrictlySorted(r.labels)
    ensures StrictlySorted(base.labels) && |base.labels| > 0 ==>
      forall i, j :: 0 <= i < |r.labels| && 0 <= j < |base.labels| && r.labels[i] == base.labels[j] ==>
        r.datasets[0].data[i] == base.values[j]
  {
    if |base.labels| == 0 then ChartData([], [])
    else
      var cut := Cut(base.labels, base.values, RangeBounds(startDate, endDate, parse), parse);
      ChartData(cut.0, [Dataset(DatasetLabel(g), cut.1)])
  }

  /** With both range inputs empty and every label parseable, the chart
      shows the whole series. */
  lemma NoRangeShowsAll(labels: seq<string>, values: seq<nat>, parse: string -> Option<int>)
    requires |labels| == |values|
    requires forall i :: 0 <= i < |labels| ==> parse(labels[i] + "T12:00:00").Some?
    ensures Cut(labels, values, RangeBounds("", "", parse), parse) == (labels, values)
  {
    assert RangeBounds("", "", parse) == Bounds(None, None);
    UnboundedCut(labels, values, parse);
  }

  /** Without bounds, every label that parses is shown. */
  lemma {:induction false} UnboundedCut(labels: seq<string>, values: seq<nat>, parse: string -> Option<int>)
    requires |labels| == |values|
    requires forall i :: 0 <= i < |labels| ==> parse(labels[i] + "T12:00:00").Some?
    ensures Cut(labels, values, Bounds(None, None), parse) == (labels, values)
  {
    if |labels| > 0 {
      var tl, tv := labels[1..], values[1..];
      assert forall i :: 0 <= i < |tl| ==> tl[i] == labels[i + 1];
      UnboundedCut(tl, tv, parse);
      assert Shown(labels[0], Bounds(None, None), parse);
      ConsSplit(labels);
      ConsSplit(values);
    }
  }

  /** At day level, with a parser that places `D T12:00:00` at noon of day
      `D` and the bounds at the first and last second of their days, a label
      is shown exactly when its day lies between the two days. */
  lemma NoonWithinDays(lbl: string, day: int, startDate: string, startDay: int, endDate: string, endDay: int,
                       parse: string -> Option<int>)
    requires startDate != "" && endDate != ""
    requires parse(lbl + "T12:00:00") == Some(day * MsPerDay + 43_200_000)
    requires parse(startDate + "T00:00:00") == Some(startDay * MsPerDay)
    requires parse(endDate + "T23:59:59") == Some(endDay * MsPerDay + 86_399_000)
    ensures Shown(lbl, RangeBounds(startDate, endDate, parse), parse) <==> startDay <= day <= endDay
  {
    if day < startDay {
      assert (day + 1) * MsPerDay <= startDay * MsPerDay;
    }
    if day > endDay {
      assert (endDay + 1) * MsPerDay <= day * MsPerDay;
    }
    if startDay <= day {
      assert startDay * MsPerDay <= day * MsPerDay;
    }
    if day <= endDay {
      assert day * MsPerDay <= endDay * MsPerDay;
    }
  }

  /** The state of the timeline component. */
  datatype Timeline = Timeline(
    day: AlignedSeries, week: AlignedSeries, month: AlignedSeries,
    grouping: Grouping, startDate: string, endDate: string, chart: ChartData)
  {
    function SeriesOf(g: Grouping): AlignedSeries {
      match g
      case Day => day
      case Week => week
      case Month => month
    }
  }

  /** `setGrouping`: the same grouping changes nothing; another one is
      selected and the chart redrawn from its series with the current range. */
  function SetGrouping(s: Timeline, g: Grouping, parse: string -> Option<int>): (r: Timeline)
    ensures g == s.grouping ==> r == s
    ensures r.grouping == g
    ensures r.day == s.day && r.week == s.week && r.month == s.month
    ensures r.startDate == s.startDate && r.endDate == s.endDate
    ensures g != s.grouping ==> r.chart == ApplyRange(s.SeriesOf(g), g, s.startDate, s.endDate, parse)
  {
    if s.grouping == g then s
    else s.(grouping := g, chart := ApplyRange(s.SeriesOf(g), g, s.startDate, s.endDate, parse))
  }
}

=== FILE: weekly_chart.dfy ===
/** The weekly stacked chart of comment stances: comments bucketed by the
    Monday of their UTC week, per-week stance counts for the drill-down,
    bootstrap confidence-interval margins per class, and the weekly
    "significant difference" flags. */
module WeeklyChart {
  import opened Base
  import opened Strings
  import opened Js
  import opened Series
  import opened Calendar

  /** The three stance buckets of a week. */
  datatype Stance = Aprova | Desaprova | Neutro

  const Zero: Json := JNum(Decimal(0, 0))

  /** `(item.new_BERT ?? 0).toString()`: the label text of a comment. */
  function LabelText(c: Obj): string {
    StringOf(Coalesce(Get(c, "new_BERT"), Some(Zero)))
  }

  /** '1' approves, '-1' disapproves, anything else (a missing label too) is neutral. */
  function StanceOf(c: Obj): (s: Stance)
    ensures s == Aprova <==> LabelText(c) == "1"
    ensures s == Desaprova <==> LabelText(c) == "-1"
    ensures Nullish(Get(c, "new_BERT")) ==> s == Neutro
  {
    if LabelText(c) == "1" then Aprova
    else if LabelText(c) == "-1" then Desaprova
    else Neutro
  }

  /** The instant of a comment: its `data_postagem` when truthy and parseable. */
  function CommentTime(c: Obj, parse: Json -> Option<int>): (t: Option<int>)
    ensures !Truthy(Get(c, "data_postagem")) ==> t.None?
  {
    var ts := Get(c, "data_postagem");
    if !Truthy(ts) then None else parse(ts.value)
  }

  /** Optional inclusive bounds on the instants of the comments shown. */
  datatype Range = Range(start: Option<int>, end: Option<int>)

  predicate InRange(t: int, range: Range) {
    (range.start.None? || range.start.value <= t) && (range.end.None? || t <= range.end.value)
  }

  /** A comment is counted when its instant exists and lies in the range. */
  predicate Kept(c: Obj, parse: Json -> Option<int>, range: Range) {
    CommentTime(c, parse).Some? && InRange(CommentTime(c, parse).value, range)
  }

  /** The week bucket of an instant: the ISO date of its week's Monday. */
  function WeekKey(t: int): string {
    IsoDate(IsoWeekStart(DayOf(t)))
  }

  /** Kept comments of the selected stance (all stances when `sel` is None). */
  predicate Selected(c: Obj, parse: Json -> Option<int>, range: Range, sel: Option<Stance>) {
    Kept(c, parse, range) && (sel.None? || StanceOf(c) == sel.value)
  }

  /** The week keys of the selected comments, in input order. */
  function WeekKeys(data: seq<Obj>, parse: Json -> Option<int>, range: Range, sel: Option<Stance>): (ks: seq<string>)
    ensures |ks| <= |data|
  {
    if |data| == 0 then []
    else
      (if Selected(data[0], parse, range, sel) then [WeekKey(CommentTime(data[0], parse).value)] else [])
        + WeekKeys(data[1..], parse, range, sel)
  }

  /** Number of selected comments (an independent count, not through keys). */
  function NumSelected(data: seq<Obj>, parse: Json -> Option<int>, range: Range, sel: Option<Stance>): nat {
    if |data| == 0 then 0
    else (if Selected(data[0], parse, range, sel) then 1 else 0) + NumSelected(data[1..], parse, range, sel)
  }

  lemma {:induction false} WeekKeysLength(data: seq<Obj>, parse: Json -> Option<int>, range: Range, sel: Option<Stance>)
    ensures |WeekKeys(data, parse, range, sel)| == NumSelected(data, parse, range, sel)
  {
    if |data| > 0 {
      WeekKeysLength(data[1..], parse, range, sel);
    }
  }

  /** The selected comment `c` falls in week `w`. */
  predicate Hit(c: Obj, parse: Json -> Option<int>, range: Range, sel: Option<Stance>, w: string) {
    Selected(c, parse, range, sel) && WeekKey(CommentTime(c, parse).value) == w
  }

  /** A key is a week key exactly when some selected comment falls in that week. */
  lemma {:induction false} WeekKeysMembers(data: seq<Obj>, parse: Json -> Option<int>, range: Range, sel: Option<Stance>, w: string)
    ensures w in WeekKeys(data, parse, range, sel) <==> exists i :: 0 <= i < |data| && Hit(data[i], parse, range, sel, w)
  {
    if |data| > 0 {
      var tail := data[1..];
      WeekKeysMembers(tail, parse, range, sel, w);
      HeadHit(data[0], parse, range, sel, w);
      HitSplit(data, parse, range, sel, w);
    }
  }

  lemma HeadHit(c: Obj, parse: Json -> Option<int>, range: Range, sel: Option<Stance>, w: string)
    ensures w in (if Selected(c, parse, range, sel) then [WeekKey(CommentTime(c, parse).value)] else [])
        <==> Hit(c, parse, range, sel, w)
  {
  }

  lemma HitSplit(data: seq<Obj>, parse: Json -> Option<int>, range: Range, sel: Option<Stance>, w: string)
    requires |data| > 0
    ensures (exists i :: 0 <= i < |data| && Hit(data[i], parse, range, sel, w))
        <==> Hit(data[0], parse, range, sel, w) || exists j :: 0 <= j < |data[1..]| && Hit(data[1..][j], parse, range, sel, w)
  {
    ExistsCons(data, c => Hit(c, parse, range, sel, w));
  }

  /** The keys of one stance are keys of the whole selection. */
  lemma {:induction false} StanceKeysIncluded(data: seq<Obj>, parse: Json -> Option<int>, range: Range, s: Stance)
    ensures forall w :: w in WeekKeys(data, parse, range, Some(s)) ==> w in WeekKeys(data, parse, range, None)
  {
    if |data| > 0 {
      StanceKeysIncluded(data[1..], parse, range, s);
    }
  }

  /** Each kept comment falls in exactly one stance. */
  lemma {:induction false} StanceCountsSplit(data: seq<Obj>, parse: Json -> Option<int>, range: Range, w: string)
    ensures Count(WeekKeys(data, parse, range, None), w)
      == Count(WeekKeys(data, parse, range, Some(Aprova)), w)
       + Count(WeekKeys(data, parse, range, Some(Desaprova)), w)
       + Count(WeekKeys(data, parse, range, Some(Neutro)), w)
  {
    if |data| > 0 {
      StanceCountsSplit(data[1..], parse, range, w);
      var c := data[0];
      var head := if Kept(c, parse, range) then [WeekKey(CommentTime(c, parse).value)] else [];
      var e: seq<string> := [];
      CountAppend(head, WeekKeys(data[1..], parse, range, None), w);
      CountAppend(if StanceOf(c) == Aprova then head else e, WeekKeys(data[1..], parse, range, Some(Aprova)), w);
      CountAppend(if StanceOf(c) == Desaprova then head else e, WeekKeys(data[1..], parse, range, Some(Desaprova)), w);
      CountAppend(if StanceOf(c) == Neutro then head else e, WeekKeys(data[1..], parse, range, Some(Neutro)), w);
    }
  }

  /** The stacked chart's series: week labels and one count per stance. */
  datatype WeeklyBuckets = WeeklyBuckets(weeks: seq<string>, yA: seq<nat>, yD: seq<nat>, yN: seq<nat>)

  /** `groupCommentsByWeek`: buckets the kept comments by week and stance. */
  function GroupCommentsByWeek(data: seq<Obj>, parse: Json -> Option<int>, range: Range): (r: WeeklyBuckets)
    ensures StrictlySorted(r.weeks)
    ensures |r.yA| == |r.weeks| && |r.yD| == |r.weeks| && |r.yN| == |r.weeks|
    ensures forall w :: w in r.weeks <==> exists i :: 0 <= i < |data| && Hit(data[i], parse, range, None, w)
    ensures forall i :: 0 <= i < |r.weeks| ==> r.yA[i] + r.yD[i] + r.yN[i] > 0
    ensures forall i :: 0 <= i < |r.weeks| ==> r.yA[i] == Count(WeekKeys(data, parse, range, Some(Aprova)), r.weeks[i])
    ensures forall i :: 0 <= i < |r.weeks| ==> r.yD[i] == Count(WeekKeys(data, parse, range, Some(Desaprova)), r.weeks[i])
    ensures forall i :: 0 <= i < |r.weeks| ==> r.yN[i] == Count(WeekKeys(data, parse, range, Some(Neutro)), r.weeks[i])
  {
    var all := WeekKeys(data, parse, range, None);
    var weeks := SortedDistinct(all);
    var yA := CountsOver(weeks, WeekKeys(data, parse, range, Some(Aprova)));
    var yD := CountsOver(weeks, WeekKeys(data, parse, range, Some(Desaprova)));
    var yN := CountsOver(weeks, WeekKeys(data, parse, range, Some(Neutro)));
    BucketsFacts(data, parse, range, WeeklyBuckets(weeks, yA, yD, yN));
    WeeklyBuckets(weeks, yA, yD, yN)
  }

  /** The facts of `GroupCommentsByWeek`, proved once about its result. */
  lemma BucketsFacts(data: seq<Obj>, parse: Json -> Option<int>, range: Range, r: WeeklyBuckets)
    requires r.weeks == SortedDistinct(WeekKeys(data, parse, range, None))
    requires r.yA == CountsOver(r.weeks, WeekKeys(data, parse, range, Some(Aprova)))
    requires r.yD == CountsOver(r.weeks, WeekKeys(data, parse, range, Some(Desaprova)))
    requires r.yN == CountsOver(r.weeks, WeekKeys(data, parse, range, Some(Neutro)))
    ensures StrictlySorted(r.weeks)
    ensures |r.yA| == |r.weeks| && |r.yD| == |r.weeks| && |r.yN| == |r.weeks|
    ensures forall w :: w in r.weeks <==> exists i :: 0 <= i < |data| && Hit(data[i], parse, range, None, w)
    ensures forall i :: 0 <= i < |r.weeks| ==> r.yA[i] + r.yD[i] + r.yN[i] > 0
    ensures forall i :: 0 <= i < |r.weeks| ==> r.yA[i] == Count(WeekKeys(data, parse, range, Some(Aprova)), r.weeks[i])
    ensures forall i :: 0 <= i < |r.weeks| ==> r.yD[i] == Count(WeekKeys(data, parse, range, Some(Desaprova)), r.weeks[i])
    ensures forall i :: 0 <= i < |r.weeks| ==> r.yN[i] == Count(WeekKeys(data, parse, range, Some(Neutro)), r.weeks[i])
  {
    WeeksOfHits(data, parse, range);
    WeeksNonEmpty(data, parse, range, r.weeks, r.yA, r.yD, r.yN);
  }

  /** The weeks of the kept comments are the weeks some comment hits. */
  lemma WeeksOfHits(data: seq<Obj>, parse: Json -> Option<int>, range: Range)
    ensures forall w :: w in SortedDistinct(WeekKeys(data, parse, range, None)) <==>
      exists i :: 0 <= i < |data| && Hit(data[i], parse, range, None, w)
  {
    var all := WeekKeys(data, parse, range, None);
    var weeks := SortedDistinct(all);
    forall w ensures w in weeks <==> exists i :: 0 <= i < |data| && Hit(data[i], parse, range, None, w) {
      assert w in weeks <==> w in all;
      WeekKeysMembers(data, parse, range, None, w);
    }
  }

  /** Every listed week holds a comment of some stance. */
  lemma WeeksNonEmpty(data: seq<Obj>, parse: Json -> Option<int>, range: Range,
                      weeks: seq<string>, yA: seq<nat>, yD: seq<nat>, yN: seq<nat>)
    requires weeks == SortedDistinct(WeekKeys(data, parse, range, None))
    requires yA == CountsOver(weeks, WeekKeys(data, parse, range, Some(Aprova)))
    requires yD == CountsOver(weeks, WeekKeys(data, parse, range, Some(Desaprova)))
    requires yN == CountsOver(weeks, WeekKeys(data, parse, range, Some(Neutro)))
    ensures forall i :: 0 <= i < |weeks| ==> yA[i] + yD[i] + yN[i] > 0
  {
    forall i | 0 <= i < |weeks| ensures yA[i] + yD[i] + yN[i] > 0 {
      StanceCountsSplit(data, parse, range, weeks[i]);
      CountPositive(WeekKeys(data, parse, range, None), weeks[i]);
    }
  }

  /** One stance series adds up to the kept comments of that stance. */
  lemma StanceSumConserves(data: seq<Obj>, parse: Json -> Option<int>, range: Range, s: Stance)
    ensures var r := GroupCommentsByWeek(data, parse, range);
      Sum(CountsOver(r.weeks, WeekKeys(data, parse, range, Some(s)))) == NumSelected(data, parse, range, Some(s))
  {
    var r := GroupCommentsByWeek(data, parse, range);
    StrictlySortedDistinct(r.weeks);
    StanceKeysIncluded(data, parse, range, s);
    SumCountsOver(r.weeks, WeekKeys(data, parse, range, Some(s)));
    WeekKeysLength(data, parse, range, Some(s));
  }

  /** Count conservation: each stance series adds up to the kept comments of
      that stance, and the three together to all kept comments. */
  lemma GroupConserves(data: seq<Obj>, parse: Json -> Option<int>, range: Range)
    ensures var r := GroupCommentsByWeek(data, parse, range);
      && Sum(r.yA) == NumSelected(data, parse, range, Some(Aprova))
      && Sum(r.yD) == NumSelected(data, parse, range, Some(Desaprova))
      && Sum(r.yN) == NumSelected(data, parse, range, Some(Neutro))
      && Sum(r.yA) + Sum(r.yD) + Sum(r.yN) == NumSelected(data, parse, range, None)
  {
    var r := GroupCommentsByWeek(data, parse, range);
    StanceSumConserves(data, parse, range, Aprova);
    StanceSumConserves(data, parse, range, Desaprova);
    StanceSumConserves(data, parse, range, Neutro);
    StrictlySortedDistinct(r.weeks);
    var all := WeekKeys(data, parse, range, None);
    SumCountsOver(r.weeks, all);
    WeekKeysLength(data, parse, range, None);
    forall w ensures Count(all, w)
      == Count(WeekKeys(data, parse, range, Some(Aprova)), w)
       + Count(WeekKeys(data, parse, range, Some(Desaprova)), w)
       + Count(WeekKeys(data, parse, range, Some(Neutro)), w) {
      StanceCountsSplit(data, parse, range, w);
    }
    SumCountsSplit(r.weeks, all, WeekKeys(data, parse, range, Some(Aprova)),
      WeekKeys(data, parse, range, Some(Desaprova)), WeekKeys(data, parse, range, Some(Neutro)));
  }

  lemma {:induction false} SumCountsSplit(labels: seq<string>, all: seq<string>, a: seq<string>, d: seq<string>, n: seq<string>)
    requires forall w :: Count(all, w) == Count(a, w) + Count(d, w) + Count(n, w)
    ensures Sum(CountsOver(labels, all)) == Sum(CountsOver(labels, a)) + Sum(CountsOver(labels, d)) + Sum(CountsOver(labels, n))
  {
    if |labels| > 0 {
      SumCountsSplit(labels[1..], all, a, d, n);
    }
  }

  // ---------------------------------------------------------------------
  // Drill-down counts of one week

  /** Stance counts of one week, with their total. */
  datatype WeekCounts = WeekCounts(aprova: nat, desaprova: nat, neutro: nat, total: nat) {
    function Of(s: Stance): nat {
      match s
      case Aprova => aprova
      case Desaprova => desaprova
      case Neutro => neutro
    }
  }

  /** The half-open window `[weekStart 00:00Z, weekStart + 7 days)`. */
  predicate InWeek(t: int, weekStart: int) {
    weekStart * MsPerDay <= t < (weekStart + 7) * MsPerDay
  }

  /** `computeWeekCounts`: the stances of the comments whose instant lies in
      the seven days from `weekStart` (a day number); the date range of the
      main chart does not apply here. */
  function ComputeWeekCounts(data: seq<Obj>, parse: Json -> Option<int>, weekStart: int): (r: WeekCounts)
    ensures r.total == r.aprova + r.desaprova + r.neutro
    ensures r.total <= |data|
  {
    if |data| == 0 then WeekCounts(0, 0, 0, 0)
    else
      var rest := ComputeWeekCounts(data[1..], parse, weekStart);
      var t := CommentTime(data[0], parse);
      if t.None? || !InWeek(t.value, weekStart) then rest
      else
        match StanceOf(data[0])
        case Aprova => rest.(aprova := rest.aprova + 1, total := rest.total + 1)
        case Desaprova => rest.(desaprova := rest.desaprova + 1, total := rest.total + 1)
        case Neutro => rest.(neutro := rest.neutro + 1, total := rest.total + 1)
  }

  /** Reference count: comments of stance `s` whose ISO week starts on day `monday`. */
  function NumOfWeek(data: seq<Obj>, parse: Json -> Option<int>, monday: int, s: Stance): nat {
    if |data| == 0 then 0
    else
      var t := CommentTime(data[0], parse);
      (if t.Some? && IsoWeekStart(DayOf(t.value)) == monday && StanceOf(data[0]) == s then 1 else 0)
        + NumOfWeek(data[1..], parse, monday, s)
  }

  /** An instant lies in the seven-day window of a Monday exactly when that
      Monday starts its ISO week. */
  lemma InWeekIffWeekStart(t: int, monday: int)
    requires Weekday(monday) == 1
    ensures InWeek(t, monday) <==> IsoWeekStart(DayOf(t)) == monday
  {
    var day := DayOf(t);
    MondayUnique(day, monday);
    if monday <= day < monday + 7 {
      assert monday * MsPerDay <= day * MsPerDay;
      assert (day + 1) * MsPerDay <= (monday + 7) * MsPerDay;
    } else if day < monday {
      assert (day + 1) * MsPerDay <= monday * MsPerDay;
    } else {
      assert (monday + 7) * MsPerDay <= day * MsPerDay;
    }
  }

  /** The drill-down of a week label agrees with the weekly buckets: for a
      Monday, the window count of each stance is the number of comments whose
      ISO week starts that Monday. */
  lemma {:induction false} WeekCountsMatchWeeks(data: seq<Obj>, parse: Json -> Option<int>, monday: int, s: Stance)
    requires Weekday(monday) == 1
    ensures ComputeWeekCounts(data, parse, monday).Of(s) == NumOfWeek(data, parse, monday, s)
  {
    if |data| > 0 {
      WeekCountsMatchWeeks(data[1..], parse, monday, s);
      var t := CommentTime(data[0], parse);
      if t.Some? {
        InWeekIffWeekStart(t.value, monday);
      }
    }
  }

  // ---------------------------------------------------------------------
  // Date filter

  /** 23:59:59.000 of a day, in milliseconds from its midnight. */
  const LastSecondMs: int := 86_399_000

  /** `applyFilter`: the range from 00:00:00Z of the start date to 23:59:59Z
      of the end date; an empty (or unparseable) date leaves that side open. */
  function ApplyFilter(startDay: Option<int>, endDay: Option<int>): (r: Range)
    ensures r.start.None? <==> startDay.None?
    ensures r.end.None? <==> endDay.None?
  {
    Range(
      if startDay.Some? then Some(startDay.value * MsPerDay) else None,
      if endDay.Some? then Some(endDay.value * MsPerDay + LastSecondMs) else None)
  }

  /** What the filter keeps, day by day: every instant of the start date and
      after, and on the end date only up to 23:59:59.000 (the last 999
      milliseconds of the end date fall outside). */
  lemma FilterByDay(startDay: Option<int>, endDay: Option<int>, t: int)
    ensures InRange(t, ApplyFilter(startDay, endDay)) <==>
      (startDay.None? || startDay.value <= DayOf(t))
      && (endDay.None? || DayOf(t) < endDay.value
          || (DayOf(t) == endDay.value && t - DayOf(t) * MsPerDay <= LastSecondMs))
  {
    var day := DayOf(t);
    if startDay.Some? {
      if startDay.value <= day {
        assert startDay.value * MsPerDay <= day * MsPerDay;
      } else {
        assert (day + 1) * MsPerDay <= startDay.value * MsPerDay;
      }
    }
    if endDay.Some? {
      if day < endDay.value {
        assert (day + 1) * MsPerDay <= endDay.value * MsPerDay;
      } else if day > endDay.value {
        assert (endDay.value + 1) * MsPerDay <= day * MsPerDay;
      }
    }
  }

  // ---------------------------------------------------------------------
  // Bootstrap confidence intervals

  datatype Metric = Precision | Recall | F1

  function MetricName(m: Metric): string {
    match m
    case Precision => "precision"
    case Recall => "recall"
    case F1 => "f1"
  }

  /** The classes of the chart. */
  datatype ClassName = ClassAprovacao | ClassDesaprovacao | ClassNeutro

  /** The class id each class takes by convention: Neutro 0, Aprovacao 1, Desaprovacao 2. */
  function PreferredId(c: ClassName): string {
    match c
    case ClassNeutro => "0"
    case ClassAprovacao => "1"
    case ClassDesaprovacao => "2"
  }

  /** The key `d['']` of a bootstrap row when it is a non-empty string. */
  function RowKey(row: Obj): Option<string> {
    match Get(row, "")
    case Some(JStr(k)) => if k != "" then Some(k) else None
    case _ => None
  }

  function ClassPrefix(m: Metric): string {
    MetricName(m) + "_class_"
  }

  /** The class id of one row: `k.split('_class_')[1]` of a key `k` that
      starts with `<metric>_class_`. */
  function ClassIdOf(row: Obj, m: Metric): (id: Option<string>)
    ensures id.Some? ==> RowKey(row).Some? && StartsWith(RowKey(row).value, ClassPrefix(m))
    ensures id.Some? ==> SplitHead(RowKey(row).value, "_class_").1 == id
  {
    var k := RowKey(row);
    if k.Some? && StartsWith(k.value, ClassPrefix(m)) then SplitHead(k.value, "_class_").1 else None
  }

  /** The class ids of `<metric>_class_<id>` keys: an id is collected exactly
      when some row's key starts with the metric's prefix and splits to it. */
  function ClassIds(rows: seq<Obj>, m: Metric): (ids: seq<string>)
    ensures |ids| <= |rows|
    ensures forall id :: id in ids <==> exists i :: 0 <= i < |rows| && ClassIdOf(rows[i], m) == Some(id)
  {
    if |rows| == 0 then []
    else
      var here := if ClassIdOf(rows[0], m).Some? then [ClassIdOf(rows[0], m).value] else [];
      var rest := ClassIds(rows[1..], m);
      assert forall id :: id in here + rest <==> exists i :: 0 <= i < |rows| && ClassIdOf(rows[i], m) == Some(id) by {
        forall id ensures id in here + rest <==> exists i :: 0 <= i < |rows| && ClassIdOf(rows[i], m) == Some(id) {
          ExistsCons(rows, (row: Obj) => ClassIdOf(row, m) == Some(id));
        }
      }
      here + rest
  }

  /** The class id used for a class: its conventional id when present,
      otherwise the smallest id, and none when there are no ids or the
      smallest id is the (falsy) empty string. */
  function ChooseClassId(ids: seq<string>, c: ClassName): (r: Option<string>)
    ensures |ids| == 0 ==> r.None?
    ensures PreferredId(c) in ids ==> r == Some(PreferredId(c))
    ensures r.Some? ==> r.value in ids && r.value != ""
    ensures r.Some? && r.value != PreferredId(c) ==> forall x :: x in ids ==> x == r.value || Less(r.value, x)
    ensures r.None? ==> |ids| == 0 || (PreferredId(c) !in ids && "" in ids)
  {
    if |ids| == 0 then None
    else if PreferredId(c) in ids then Some(PreferredId(c))
    else
      var sorted := SortedDistinct(ids);
      assert ids[0] in sorted;
      var smallest := sorted[0];
      assert forall x :: x in ids ==> x == smallest || Less(smallest, x) by {
        forall x | x in ids ensures x == smallest || Less(smallest, x) {
          var j :| 0 <= j < |sorted| && sorted[j] == x;
        }
      }
      if smallest == "" then None else Some(smallest)
  }

  /** The first row whose key is exactly `key` (`bootstrapData.find`). */
  function FindRow(rows: seq<Obj>, key: string): (r: Option<Obj>)
    ensures r.Some? ==> r.value in rows && Get(r.value, "") == Some(JStr(key))
    ensures r.Some? ==>
      exists i :: 0 <= i < |rows| && rows[i] == r.value && forall j :: 0 <= j < i ==> Get(rows[j], "") != Some(JStr(key))
    ensures r.None? ==> forall i :: 0 <= i < |rows| ==> Get(rows[i], "") != Some(JStr(key))
  {
    if |rows| == 0 then None
    else if Get(rows[0], "") == Some(JStr(key)) then Some(rows[0])
    else
      var r := FindRow(rows[1..], key);
      TailIndex(rows);
      if r.Some? then
        var i :| 0 <= i < |rows[1..]| && rows[1..][i] == r.value
          && forall j :: 0 <= j < i ==> Get(rows[1..][j], "") != Some(JStr(key));
        assert rows[i + 1] == r.value;
        r
      else r
  }

  /** The row whose interval a class uses, if any. */
  function CIRow(rows: seq<Obj>, m: Metric, c: ClassName): Option<Obj> {
    match ChooseClassId(ClassIds(rows, m), c)
    case None => None
    case Some(id) => FindRow(rows, ClassPrefix(m) + id)
  }

  /** A bootstrap summary as margins around its mean. */
  datatype CI = CI(mean: Num, plus: Num, minus: Num)

  const ZeroCI: CI := CI(Fin(0.0), Fin(0.0), Fin(0.0))

  /** `getBootstrapCI`: the margins of the class's row, zero when there is
      none. `[mean - minus, mean + plus]` is the smallest interval around the
      mean that covers the row's 95% bounds. */
  function GetBootstrapCI(rows: seq<Obj>, m: Metric, c: ClassName): (ci: CI)
    ensures |ClassIds(rows, m)| == 0 ==> ci == ZeroCI
    ensures CIRow(rows, m, c).None? ==> ci == ZeroCI
    ensures ci.plus.Fin? ==> ci.plus.r >= 0.0
    ensures ci.minus.Fin? ==> ci.minus.r >= 0.0
    ensures CIRow(rows, m, c).Some? ==>
      var row := CIRow(rows, m, c).value;
      var mean := ToNumber(Get(row, "mean"));
      var lo := ToNumber(Get(row, "lower_95_ci"));
      var hi := ToNumber(Get(row, "upper_95_ci"));
      && ci.mean == mean
      && (mean.Fin? && hi.Fin? ==> ci.plus.Fin? && mean.r + ci.plus.r == (if hi.r > mean.r then hi.r else mean.r))
      && (mean.Fin? && lo.Fin? ==> ci.minus.Fin? && mean.r - ci.minus.r == (if lo.r < mean.r then lo.r else mean.r))
      && (mean.NaN? || hi.NaN? ==> ci.plus.NaN?)
      && (mean.NaN? || lo.NaN? ==> ci.minus.NaN?)
  {
    match CIRow(rows, m, c)
    case None => ZeroCI
    case Some(row) =>
      var mean := ToNumber(Get(row, "mean"));
      CI(mean,
         Max0(ToNumber(Get(row, "upper_95_ci")).Minus(mean)),
         Max0(mean.Minus(ToNumber(Get(row, "lower_95_ci")))))
  }

  // ---------------------------------------------------------------------
  // Interval overlap and the significance flags

  /** A closed interval of proportions; NaN bounds compare false. */
  datatype Interval = Interval(low: Num, high: Num)

  predicate Contains(i: Interval, x: real) {
    i.low.Fin? && i.high.Fin? && i.low.r <= x <= i.high.r
  }

  /** The margins applied to an observed proportion, clamped to `[0, 1]`. */
  function ProportionInterval(p: real, ci: CI): (i: Interval)
    requires 0.0 <= p <= 1.0
    ensures i.low.Fin? ==> 0.0 <= i.low.r <= p
    ensures i.high.Fin? ==> p <= i.high.r <= 1.0
    ensures ci.minus.Fin? <==> i.low.Fin?
    ensures ci.plus.Fin? <==> i.high.Fin?
    ensures i.low.Fin? ==> var lo := p - Max0(ci.minus).r; i.low.r == (if lo < 0.0 then 0.0 else lo)
    ensures i.high.Fin? ==> var hi := p + Max0(ci.plus).r; i.high.r == (if hi > 1.0 then 1.0 else hi)
  {
    Interval(Clamp01(Fin(p).Minus(Max0(ci.minus))), Clamp01(Fin(p).Plus(Max0(ci.plus))))
  }

  /** With finite margins the interval holds exactly the proportions in
      `[0, 1]` that lie within the margins of `p`; a NaN margin leaves it
      empty. */
  lemma ProportionIntervalContains(p: real, ci: CI, x: real)
    requires 0.0 <= p <= 1.0
    ensures ci.plus.Fin? && ci.minus.Fin? ==>
      (Contains(ProportionInterval(p, ci), x)
       <==> 0.0 <= x <= 1.0 && p - Max0(ci.minus).r <= x <= p + Max0(ci.plus).r)
    ensures ci.plus.NaN? || ci.minus.NaN? ==> !Contains(ProportionInterval(p, ci), x)
  {
  }

  /** `!(highA < lowD || highD < lowA)`. */
  predicate Overlaps(a: Interval, d: Interval) {
    !(a.high.Below(d.low) || d.high.Below(a.low))
  }

  lemma OverlapsSymmetric(a: Interval, d: Interval)
    ensures Overlaps(a, d) == Overlaps(d, a)
  {
  }

  /** For finite, non-empty intervals the test is the geometric one: they
      overlap exactly when they share a point (touching counts). */
  lemma OverlapIffCommonPoint(a: Interval, d: Interval)
    requires a.low.Fin? && a.high.Fin? && d.low.Fin? && d.high.Fin?
    requires a.low.r <= a.high.r && d.low.r <= d.high.r
    ensures Overlaps(a, d) ==> var x := if a.low.r < d.low.r then d.low.r else a.low.r; Contains(a, x) && Contains(d, x)
    ensures !Overlaps(a, d) ==> forall x :: !(Contains(a, x) && Contains(d, x))
  {
  }

  /** The proportion of `n` among `a + d` approving/disapproving comments. */
  function Share(n: nat, a: nat, d: nat): (p: real)
    requires n <= a + d && a + d > 0
    ensures 0.0 <= p <= 1.0
  {
    n as real / (a + d) as real
  }

  /** The flag of one week: no comment of either class is never significant;
      otherwise significant when the two intervals are disjoint. */
  function WeekFlag(a: nat, d: nat, ciA: CI, ciD: CI): (flag: bool)
    ensures a + d == 0 ==> !flag
    ensures a + d > 0 ==>
      (flag <==> !Overlaps(ProportionInterval(Share(a, a, d), ciA), ProportionInterval(Share(d, a, d), ciD)))
  {
    if a + d == 0 then false
    else !Overlaps(ProportionInterval(Share(a, a, d), ciA), ProportionInterval(Share(d, a, d), ciD))
  }

  /** The flag does not depend on which class is called A. */
  lemma WeekFlagSymmetric(a: nat, d: nat, ciA: CI, ciD: CI)
    ensures WeekFlag(a, d, ciA, ciD) == WeekFlag(d, a, ciD, ciA)
  {
    if a + d > 0 {
      assert Share(a, a, d) == Share(a, d, a);
      assert Share(d, a, d) == Share(d, d, a);
    }
  }

  /** Equal numbers of approving and disapproving comments are never
      significant: both intervals contain one half. */
  lemma EqualCountsNotFlagged(n: nat, ciA: CI, ciD: CI)
    ensures !WeekFlag(n, n, ciA, ciD)
  {
    if n > 0 {
      HalfShare(n);
    }
  }

  lemma HalfShare(n: nat)
    requires n > 0
    ensures Share(n, n, n) == 0.5
  {
    var x := n as real;
    var q := (n + n) as real;
    assert q == 2.0 * x;
    assert Share(n, n, n) == x / q;
    assert x / q == x / (2.0 * x);
    assert x / (2.0 * x) == 0.5;
  }

  /** Margins that are NaN never produce a flag. */
  lemma NaNMarginsNotFlagged(a: nat, d: nat, ciA: CI, ciD: CI)
    requires ciA.plus.NaN? && ciA.minus.NaN?
    ensures !WeekFlag(a, d, ciA, ciD)
  {
  }

  function At(ys: seq<nat>, i: nat): nat {
    if i < |ys| then ys[i] else 0
  }

  /** `computeSignificanceFlags`: one flag per week, from the precision
      margins of Aprovacao and Desaprovacao. */
  function ComputeSignificanceFlags(yA: seq<nat>, yD: seq<nat>, rows: seq<Obj>): (flags: seq<bool>)
    ensures |flags| == |yA|
    ensures forall i :: 0 <= i < |yA| && yA[i] + At(yD, i) == 0 ==> !flags[i]
    ensures forall i :: 0 <= i < |yA| ==>
      flags[i] == WeekFlag(yA[i], At(yD, i),
        GetBootstrapCI(rows, Precision, ClassAprovacao), GetBootstrapCI(rows, Precision, ClassDesaprovacao))
  {
    var ciA := GetBootstrapCI(rows, Precision, ClassAprovacao);
    var ciD := GetBootstrapCI(rows, Precision, ClassDesaprovacao);
    seq(|yA|, i requires 0 <= i < |yA| => WeekFlag(yA[i], At(yD, i), ciA, ciD))
  }

  /** A bar of the drill-down: the error bar around the observed proportion. */
  datatype ErrorBar = ErrorBar(low: Num, high: Num, mean: real)

  /** The proportion lies in `[0, 1]` and inside its bar, which stays within `[0, 1]`. */
  predicate WellPlaced(b: ErrorBar) {
    && 0.0 <= b.mean <= 1.0
    && (b.low.Fin? ==> 0.0 <= b.low.r <= b.mean)
    && (b.high.Fin? ==> b.mean <= b.high.r <= 1.0)
  }

  /** `count / Math.max(1, total)`. */
  function Proportion(count: nat, total: nat): (p: real)
    requires count <= total
    ensures 0.0 <= p <= 1.0
    ensures total == 0 ==> p == 0.0
  {
    count as real / (if total < 1 then 1 else total) as real
  }

  function Bar(count: nat, total: nat, ci: CI): (b: ErrorBar)
    requires count <= total
    ensures WellPlaced(b)
    ensures b.mean == Proportion(count, total)
    ensures Interval(b.low, b.high) == ProportionInterval(b.mean, ci)
  {
    var p := Proportion(count, total);
    var i := ProportionInterval(p, ci);
    ErrorBar(i.low, i.high, p)
  }

  /** The error bars of the drill-down of one week. */
  datatype DrillDown = DrillDown(aprova: ErrorBar, desaprova: ErrorBar, neutro: ErrorBar)

  /** The drill-down bars of Aprovacao, Desaprovacao and Neutro: each
      proportion is the class's share of the week (0 for an empty week) and
      lies inside its bar. */
  function DrillDownBars(counts: WeekCounts, rows: seq<Obj>, m: Metric): (r: DrillDown)
    requires counts.total == counts.aprova + counts.desaprova + counts.neutro
    ensures WellPlaced(r.aprova) && WellPlaced(r.desaprova) && WellPlaced(r.neutro)
    ensures r.aprova.mean == Proportion(counts.aprova, counts.total)
    ensures r.desaprova.mean == Proportion(counts.desaprova, counts.total)
    ensures r.neutro.mean == Proportion(counts.neutro, counts.total)
    ensures Interval(r.aprova.low, r.aprova.high) == ProportionInterval(r.aprova.mean, GetBootstrapCI(rows, m, ClassAprovacao))
    ensures Interval(r.desaprova.low, r.desaprova.high)
         == ProportionInterval(r.desaprova.mean, GetBootstrapCI(rows, m, ClassDesaprovacao))
    ensures Interval(r.neutro.low, r.neutro.high) == ProportionInterval(r.neutro.mean, GetBootstrapCI(rows, m, ClassNeutro))
  {
    var t := counts.total;
    DrillDown(
      Bar(counts.aprova, t, GetBootstrapCI(rows, m, ClassAprovacao)),
      Bar(counts.desaprova, t, GetBootstrapCI(rows, m, ClassDesaprovacao)),
      Bar(counts.neutro, t, GetBootstrapCI(rows, m, ClassNeutro)))
  }

  /** The three proportions of a non-empty week add up to one. */
  lemma DrillDownSharesSum(counts: WeekCounts, rows: seq<Obj>, m: Metric)
    requires counts.total == counts.aprova + counts.desaprova + counts.neutro
    ensures var r := DrillDownBars(counts, rows, m);
      counts.total > 0 ==> r.aprova.mean + r.desaprova.mean + r.neutro.mean == 1.0
  {
    var r := DrillDownBars(counts, rows, m);
    if counts.total > 0 {
      SharesSumToOne(counts.aprova, counts.desaprova, counts.neutro);
    }
  }

  lemma SharesSumToOne(a: nat, d: nat, n: nat)
    requires a + d + n > 0
    ensures Proportion(a, a + d + n) + Proportion(d, a + d + n) + Proportion(n, a + d + n) == 1.0
  {
    var t := (a + d + n) as real;
    assert Proportion(a, a + d + n) == a as real / t;
    assert Proportion(d, a + d + n) == d as real / t;
    assert Proportion(n, a + d + n) == n as real / t;
    assert t > 0.0;
    DivSum(a as real, d as real, t);
    DivSum(a as real + d as real, n as real, t);
    assert (a as real + d as real + n as real) == t;
  }

  /** Quotients by the same positive divisor add up. */
  lemma DivSum(x: real, y: real, t: real)
    requires t > 0.0
    ensures x / t + y / t == (x + y) / t
  {
    var p, q := x / t, y / t;
    assert p * t == x && q * t == y;
    assert (p + q) * t == x + y;
  }
}
